=== FILE: README.md ===
# FitnessTracker core in Dafny

This project models the analytics core of the FitnessTracker iOS app and
proves properties about the model. The core turns logged sets into muscle
coverage, volume, strength estimates and advice. It also covers the small
pure routines the app builds on that core:

- the training screen's state machine;
- the export and import mapping;
- the merge of the bundled exercise catalogue;
- the first-launch muscle taxonomy;
- the rest-timer setting;
- the pure helpers inside the Train and History screens.

Each Swift component is one Dafny module, in one file:

| module | file | models |
|---|---|---|
| `Domain` | domain.dfy | the `@Model` classes as immutable datatypes |
| `Stats` | stats.dfy | `StatsEngine`, `LoggedSet.volume` |
| `Coverage`, `CoverageProperties` | coverage.dfy, coverage_properties.dfy | `CoverageEngine` and a tally-free reference for its numbers |
| `Overload` | overload.dfy | `ProgressiveOverloadEngine` |
| `WeeklyGoal` | weekly_goal.dfy | `WeeklyGoalEngine` |
| `Insight` | insight.dfy | `InsightEngine` |
| `Dashboard` | dashboard.dfy | `DashboardViewModel` |
| `Train` | train.dfy | `TrainViewModel` and `TrainError` |
| `ExportImport` | export_import.dfy | `ExportImportService` at the transfer-object level |
| `SeedData`, `SeedDataProperties` | seed_data.dfy, seed_data_properties.dfy | `SeedDataService.seedIfNeeded` |
| `Bootstrap`, `TaxonomyRegions` | bootstrap.dfy, taxonomy_regions.dfy | `BootstrapService`, and how the seed region index resolves its names |
| `RestTimer` | rest_timer.dfy | `RestTimerSettings` |
| `TrainView` | train_view.dfy | the search and grouping, the rest label and the Save guard of `TrainView` |
| `HistoryView` | history_view.dfy | the day shading, the active-day count and the duration label of `HistoryView` |

Shared helpers:
- `Wrappers` holds `Option` and `Result`.
- `Text` holds ASCII lower-casing, trimming, substring search, string order, and integer rendering and parsing.
- `Seqs` holds filter, count, prefix, suffix, sums and a stable sort.
- `Numeric` holds `min`/`max`, `.rounded()` and Swift's truncating `Int` division.

Representation choices:
- Weights are `real` and timestamps are whole seconds (`int`).
- Identifiers are opaque `nat`s. Every fresh identifier the app generates is a function parameter.
- Calendar answers are parameters: the current week, today, the start of a day, the displayed month, a week ago.
- A message with interpolated numbers is a datatype variant carrying those numbers.
- Every operation is a pure function. One that mutates the store returns the new value, or a `Result` carrying the Swift error.

## Model

| member | source | states |
|---|---|---|
| Stats.Volume | FitnessTracker/Models/LoggedSet.swift:30-32 | never negative for a non-negative weight and rep count; zero for zero reps or no weight |
| Stats.WorkingSets | FitnessTracker/Services/StatsEngine.swift:7 | exactly the non-warm-up sets are kept, and nothing else |
| Stats.ExerciseVolume | FitnessTracker/Services/StatsEngine.swift:11-15 | zero when every set is a warm-up; that appending a warm-up set changes nothing is WarmupDoesNotChangeVolume |
| Stats.TotalSessionVolume | FitnessTracker/Services/StatsEngine.swift:4-9 | the volume of the working sets of all logged exercises equals the sum of the exercise volumes, by SessionVolumeIsSumOfExerciseVolumes |
| Stats.EstimatedOneRepMax | FitnessTracker/Services/StatsEngine.swift:18-21 | zero for non-positive reps; otherwise dividing by the Epley factor of the same reps gives the weight back, and for a non-negative weight the estimate is at least the weight |
| Stats.OneRepMaxExample | FitnessTracker/Services/StatsEngine.swift:18-21 | 100 kg for 5 reps estimates 350/3, between 116.666 and 116.667 |
| Stats.EpleyInverse | FitnessTracker/Services/ProgressiveOverloadEngine.swift:42 | the recommended weight for a rep count is the one whose estimate is exactly the one-rep maximum |
| Stats.EpleyInverseAntitone | FitnessTracker/Services/ProgressiveOverloadEngine.swift:41-44 | undoing the Epley factor for more reps yields a lighter weight |
| Stats.SessionVolumeIsSumOfExerciseVolumes | FitnessTracker/Services/StatsEngine.swift:4-15 | the session volume equals the sum of the per-exercise volumes |
| Stats.WarmupDoesNotChangeVolume | FitnessTracker/Services/StatsEngine.swift:7-13 | appending a warm-up set changes neither the exercise volume nor the session volume |
| Stats.NoWorkingSetsNoVolume | FitnessTracker/Services/StatsEngine.swift:4-9 | a session whose sets are all warm-ups has volume zero |
| Stats.VolumesNonNegative | FitnessTracker/Services/StatsEngine.swift:4-15 | with positive reps and non-negative weights, as the write path enforces, both volumes are non-negative |
| Coverage.RegionKeywords | FitnessTracker/Services/CoverageEngine.swift:106-159 | every region name yields at least one keyword to look for |
| Coverage.KeywordMatched | FitnessTracker/Services/CoverageEngine.swift:85-87 | keeps exactly the regions one of whose keywords occurs in the exercise name |
| Coverage.MatchedRegionIds | FitnessTracker/Services/CoverageEngine.swift:80-104 | an empty name matches nothing; keyword hits win; failing those, the muscle map counts only when exactly one mapped region lies in the split; every id returned is a region of the split |
| Coverage.KeywordsTakePrecedence | FitnessTracker/Services/CoverageEngine.swift:89-91 | once a keyword hits, replacing the exercise's muscle maps does not change the match |
| Coverage.RegionProgress | FitnessTracker/Services/CoverageEngine.swift:51-64 | progress lies in [0, 1]; it is 1 from four working sets on, 0 only without sets, and at least 0.75 exactly from three sets on |
| Coverage.BuildRegion | FitnessTracker/Services/CoverageEngine.swift:49-62 | a region entry keeps the region's identity and name; it is touched exactly when it counts a set; its progress lies in [0, 1] |
| Coverage.MeanProgress | FitnessTracker/Services/CoverageEngine.swift:65 | the mean is 0 for no regions and lies in [0, 1] when every region's progress does |
| Coverage.BuildGroup | FitnessTracker/Services/CoverageEngine.swift:48-75 | a group entry counts its covered regions, at most all of them, and its progress lies in [0, 1] |
| Coverage.BuildReport | FitnessTracker/Services/CoverageEngine.swift:30-78 | the report carries the split's name, one group entry per split group and one region entry per region, both in order |
| CoverageProperties.ReportMatchesReference | FitnessTracker/Services/CoverageEngine.swift:34-62 | each region entry counts exactly the working sets that the tally-free reference assigns to it; it lists exactly the contributing exercises, sorted and without repetition, and lists one exactly when it counts a set |
| CoverageProperties.WarmupOnlySessionCoversNothing | FitnessTracker/Services/CoverageEngine.swift:35-36 | a session of warm-ups only leaves every region at zero sets and progress with no contributors, and every group at zero covered regions and zero progress |
| CoverageProperties.WarmupLeavesReport | FitnessTracker/Services/CoverageEngine.swift:35-36 | logging a warm-up set anywhere leaves the report unchanged |
| CoverageProperties.AddingWorkingSetRaisesCoverage | FitnessTracker/Services/CoverageEngine.swift:34-51 | one more working set adds one set per match to the regions its exercise matches, lowers no region's progress and drops no contributor |
| CoverageProperties.ReportIgnoresLoggingOrder | FitnessTracker/Services/CoverageEngine.swift:34-46 | two sessions logging the same exercises in any order get the same report |
| CoverageProperties.CoveredMeansThreeSets | FitnessTracker/Services/CoverageEngine.swift:64 | a group's covered count is the number of its regions with at least three working sets |
| CoverageProperties.RegionProgressMonotone | FitnessTracker/Services/CoverageEngine.swift:51 | more working sets never lower a region's progress |
| CoverageProperties.SameExerciseSameMatch | FitnessTracker/Services/CoverageEngine.swift:80-82 | matching and the shown name depend only on the exercise, not on the logged exercise around it |
| Overload.RoundToFive | FitnessTracker/Services/ProgressiveOverloadEngine.swift:70-72 | the result is a multiple of five within 2.5 of the input |
| Overload.RoundToFiveIdempotent | FitnessTracker/Services/ProgressiveOverloadEngine.swift:70-72 | rounding twice equals rounding once |
| Overload.RoundToFiveMonotone | FitnessTracker/Services/ProgressiveOverloadEngine.swift:70-72 | rounding preserves order |
| Overload.SuggestedIncrement | FitnessTracker/Services/ProgressiveOverloadEngine.swift:62-68 | the increment is 10 exactly when the lower-cased category contains "legs" or "back", otherwise 5, and 5 without an exercise |
| Overload.EstimateOneRM | FitnessTracker/Services/ProgressiveOverloadEngine.swift:56-60 | absent exactly when no set qualifies; otherwise the largest Epley estimate of a qualifying set, and positive |
| Overload.NonQualifyingIgnored | FitnessTracker/Services/ProgressiveOverloadEngine.swift:57 | a warm-up or non-positive set added at the end never moves the estimate |
| Overload.AdviceFor | FitnessTracker/Services/ProgressiveOverloadEngine.swift:25-36 | below ten reps, keep the weight and aim one rep higher; from ten reps, increase to the rounded weight plus increment, strictly heavier than now |
| Overload.Recommendations | FitnessTracker/Services/ProgressiveOverloadEngine.swift:40-45 | three recommendations for 5, 8 and 10 reps, each the rounded Epley inverse, weights non-increasing |
| Overload.Suggest | FitnessTracker/Services/ProgressiveOverloadEngine.swift:18-54 | nothing without a latest set; otherwise advice from the latest set, the estimate over recent plus latest sets, and recommendations exactly when there is an estimate |
| Overload.AdviceIgnoresWarmupFlag | FitnessTracker/Services/ProgressiveOverloadEngine.swift:25-38 | flagging the latest set as warm-up keeps the advice but drops that set from the estimate |
| Numeric.RoundHalfAway | FitnessTracker/Services/ProgressiveOverloadEngine.swift:71 | `.rounded()` lands within one half of its input, and a tie goes away from zero |
| Numeric.RoundHalfAwayMonotone | FitnessTracker/Services/ProgressiveOverloadEngine.swift:71 | rounding preserves order |
| Numeric.RoundHalfAwayOdd | FitnessTracker/Services/ProgressiveOverloadEngine.swift:71 | rounding is symmetric about zero |
| Numeric.TruncDivMod | FitnessTracker/Features/Train/TrainView.swift:48-49 | truncating quotient and remainder recombine to the dividend; the remainder is smaller than the divisor and takes the dividend's sign |
| WeeklyGoal.CompletedSessionsThisWeek | FitnessTracker/Services/WeeklyGoalEngine.swift:4-14 | zero without a week; otherwise zero exactly when no session started in it, and all sessions exactly when all did |
| WeeklyGoal.CompletedSessionsSnoc | FitnessTracker/Services/WeeklyGoalEngine.swift:13 | one more session adds one exactly when it started in the week, so the count never drops |
| WeeklyGoal.CompletedSessionsIgnoreEnd | FitnessTracker/Services/WeeklyGoalEngine.swift:13 | ending or reopening a session leaves the count unchanged |
| WeeklyGoal.RemainingSessions | FitnessTracker/Services/WeeklyGoalEngine.swift:16-18 | never negative; the gap to the target when below it; completed plus remaining reaches the target |
| WeeklyGoal.RemainingSessionsExamples | FitnessTracker/Services/WeeklyGoalEngine.swift:16-18 | five targeted after three done leaves two; three targeted after five done leaves none |
| Insight.Progress | FitnessTracker/Services/InsightEngine.swift:12-15 | zero without a positive target; otherwise in [0, 1] for a non-negative count, 1 exactly when the target is met, and the exact fraction below it |
| Insight.WeeklyConsistency | FitnessTracker/Services/InsightEngine.swift:19-31 | the target passes through and the count is the week's started sessions |
| Insight.RecentSessions | FitnessTracker/Services/InsightEngine.swift:43-44 | at most four sessions drawn from the input, oldest first |
| Insight.RecentAreLatest | FitnessTracker/Services/InsightEngine.swift:43-44 | every session left out started no later than any kept one |
| Insight.RecentAverageVolume | FitnessTracker/Services/InsightEngine.swift:43-46 | one to four recent volumes, whose total the average gives back when spread evenly over them; no less than zero when no session's volume is negative |
| Insight.SomeStillRunning | FitnessTracker/Services/InsightEngine.swift:77-78 | fewer ended than total exactly when some session has no end |
| Insight.ConsistencyTip | FitnessTracker/Services/InsightEngine.swift:52-66 | below the target, the "Consistency Opportunity" tip carrying the count and the target; otherwise the "Consistency Strong" tip |
| Insight.Tips | FitnessTracker/Services/InsightEngine.swift:33-88 | only the baseline tip without sessions; otherwise one to three tips in the fixed order consistency, volume, hygiene, led by the consistency tip |
| Insight.TipsOpenWithWeek | FitnessTracker/Services/InsightEngine.swift:50-66 | with some history the list opens with "Consistency Strong" exactly when four sessions started this week, and otherwise with the opportunity reporting the week's count against four |
| Insight.TipsVolumeAndHygiene | FitnessTracker/Services/InsightEngine.swift:43-85 | the volume tip appears exactly when the recent mean volume is positive, and reports it rounded; the hygiene tip appears exactly when a session is still running |
| Insight.NoHistoryStartsBaseline | FitnessTracker/Services/InsightEngine.swift:34-41 | with no history the single tip is titled "Start Your Baseline" |
| Dashboard.TodayVolume | FitnessTracker/Features/Home/DashboardViewModel.swift:8-11 | zero when no session started today; TodayVolumeSnoc states how each session adds to it |
| Dashboard.TodayVolumeSnoc | FitnessTracker/Features/Home/DashboardViewModel.swift:8-11 | one more session adds its volume exactly when it started today |
| Dashboard.DashboardConsistency | FitnessTracker/Features/Home/DashboardViewModel.swift:13-15 | the target is always 4 and the count is the week's |
| Dashboard.Group | FitnessTracker/Features/Home/DashboardViewModel.swift:19-20 | one entry per distinct name, holding how often it occurs; the counts sum to the number of names |
| Dashboard.LatestSessions | FitnessTracker/Features/Home/DashboardViewModel.swift:18 | the limit or all sessions, drawn from the input |
| Dashboard.LatestSessionsAreLatest | FitnessTracker/Features/Home/DashboardViewModel.swift:18 | no session left out started after one counted |
| Dashboard.SplitDistribution | FitnessTracker/Features/Home/DashboardViewModel.swift:17-24 | entries most frequent first, names distinct, counts summing to min(limit, sessions) |
| Dashboard.SplitDistributionCounts | FitnessTracker/Features/Home/DashboardViewModel.swift:19-20 | each entry counts the latest sessions of its split, missing types as "Unknown", and the count is positive |
| Dashboard.SplitDistributionNames | FitnessTracker/Features/Home/DashboardViewModel.swift:19-22 | exactly the split names among the latest sessions have an entry |
| Dashboard.PeakEstimate | FitnessTracker/Features/Home/DashboardViewModel.swift:31-32 | zero without working sets, and no working set estimates higher; PeakEstimateIsMax adds that it is one of the estimates |
| Dashboard.PeakEstimateIsMax | FitnessTracker/Features/Home/DashboardViewModel.swift:31-32 | zero without working sets; otherwise the estimate of one working set, and no working set estimates higher |
| Dashboard.TrendSessions | FitnessTracker/Features/Home/DashboardViewModel.swift:27-29 | min(limit, sessions) sessions from the input, oldest first |
| Dashboard.TrendSessionsAreLatest | FitnessTracker/Features/Home/DashboardViewModel.swift:27-29 | no session left out started after one shown |
| Dashboard.StrengthTrend | FitnessTracker/Features/Home/DashboardViewModel.swift:26-35 | one point per shown session, dates ascending, each point the session's start and peak estimate |
| Dashboard.FirstBeforeIsOldest | FitnessTracker/Features/Home/DashboardViewModel.swift:46 | on dated points, the first point before a week ago is the oldest point if that one is old enough |
| Dashboard.LastRecentIsNewest | FitnessTracker/Features/Home/DashboardViewModel.swift:43-45 | on dated points, the latest recent point is the newest one if that one is recent |
| Dashboard.PercentChange | FitnessTracker/Features/Home/DashboardViewModel.swift:46-47 | zero for a non-positive baseline or no change; otherwise positive for a rise and negative for a fall |
| Dashboard.DeltaOf | FitnessTracker/Features/Home/DashboardViewModel.swift:38-47 | the delta over given points; its closed form on points in date order is DeltaClosedForm |
| Dashboard.DeltaClosedForm | FitnessTracker/Features/Home/DashboardViewModel.swift:37-49 | zero with fewer than two points, with no recent point, or with a non-positive baseline; otherwise the percentage change of the newest point over the oldest point if that is older than a week, else over the next-to-newest |
| Dashboard.StrengthDelta | FitnessTracker/Features/Home/DashboardViewModel.swift:36-49 | the delta over the twenty-session trend; its closed form is StrengthDeltaClosedForm |
| Dashboard.StrengthDeltaClosedForm | FitnessTracker/Features/Home/DashboardViewModel.swift:37-49 | the same closed form, stated over the twenty-session trend |
| Dashboard.ConsistencyLast7Days | FitnessTracker/Features/Home/DashboardViewModel.swift:51-56 | seven flags, six days ago first, each set exactly when the calendar yields that day and some session started on it |
| Dashboard.ConsistencyLast7DaysSnoc | FitnessTracker/Features/Home/DashboardViewModel.swift:51-56 | one more session sets the flags of its days and clears none |
| Train.ErrorDescription | FitnessTracker/Features/Train/TrainViewModel.swift:106-115 | every error has a non-empty message ending in a full stop |
| Train.ErrorDescriptionDistinct | FitnessTracker/Features/Train/TrainViewModel.swift:106-115 | two errors have the same message exactly when they are the same error |
| Train.InitialConsistent | FitnessTracker/Features/Train/TrainViewModel.swift:7-9 | the initial screen state satisfies the invariants |
| Train.Refresh | FitnessTracker/Features/Train/TrainViewModel.swift:29-32 | rebuilds the report exactly when a workout and a split are present, otherwise changes nothing |
| Train.RefreshOfConsistent | FitnessTracker/Features/Train/TrainViewModel.swift:29-32 | on a consistent state a refresh is a no-op |
| Train.SelectSplit | FitnessTracker/Features/Train/TrainView.swift:153-158 | the split picker's binding: the split becomes the picked one while the session and the report stay as they were |
| Train.SelectSplitStale | FitnessTracker/Features/Train/TrainView.swift:153-158 | during a workout, picking a split keeps the state consistent exactly when the shown report already is that split's report; picking no split leaves it inconsistent even after a refresh |
| Train.SelectSplitThenRefresh | FitnessTracker/Features/Train/TrainViewModel.swift:29-32 | from a consistent state, picking a split and then refreshing gives a consistent state |
| Train.TemplateOrder | FitnessTracker/Features/Train/TrainViewModel.swift:18 | a permutation of the template, in name order |
| Train.StartWorkout | FitnessTracker/Features/Train/TrainViewModel.swift:11-27 | a fresh running session of the split, one logged exercise per template exercise in name order numbered from zero; the split is selected and the state is consistent |
| Train.StartWorkoutDistinct | FitnessTracker/Features/Train/TrainViewModel.swift:18-23 | a template without repeats starts a workout without repeats |
| Train.AddExercise | FitnessTracker/Features/Train/TrainViewModel.swift:34-47 | no-op without a workout; refused exactly when the exercise is already logged; otherwise appended last with the next order index; invariants kept |
| Train.RemoveExercise | FitnessTracker/Features/Train/TrainViewModel.swift:49-55 | removes exactly the logged exercises with that identity, others in order and not renumbered; invariants kept |
| Train.AddThenRemove | FitnessTracker/Features/Train/TrainViewModel.swift:34-55 | removing an exercise just added under a fresh identity restores the state |
| Train.Validate | FitnessTracker/Features/Train/TrainViewModel.swift:64-65 | passes exactly for positive reps and a non-negative weight; reps are checked first |
| Train.AddSet | FitnessTracker/Features/Train/TrainViewModel.swift:57-72 | refused exactly when validation fails, with its error; otherwise exactly one set appended to the addressed logged exercise; invariants kept |
| Train.WarmupKeepsCoverage | FitnessTracker/Features/Train/TrainViewModel.swift:57-72 | adding a warm-up set leaves the coverage report unchanged |
| Train.AddThenDeleteSet | FitnessTracker/Features/Train/TrainViewModel.swift:57-90 | deleting a set just added under a fresh identity restores the state |
| Train.UpdateSet | FitnessTracker/Features/Train/TrainViewModel.swift:74-83 | refused like addSet; otherwise only the set with that identity takes the new values, all else unchanged; invariants kept |
| Train.DeleteSet | FitnessTracker/Features/Train/TrainViewModel.swift:85-90 | removes exactly the sets with that identity from the addressed logged exercise, others in order; invariants kept |
| Train.EndWorkout | FitnessTracker/Features/Train/TrainViewModel.swift:92-98 | no-op without a workout; otherwise the session is stamped ended and the screen drops the session and report but keeps the split |
| ExportImport.SessionToDTO | FitnessTracker/Services/ExportImportService.swift:50-72 | identity, dates and notes copied, one entry per logged exercise, ordered by order index |
| ExportImport.ExportData | FitnessTracker/Services/ExportImportService.swift:49-81 | schema version 1 and one transfer object per session, in order |
| ExportImport.ImportSession | FitnessTracker/Services/ExportImportService.swift:92-122 | identity, dates and notes copied; split looked up by name; logged exercises in bundle order, each with its sets |
| ExportImport.ImportData | FitnessTracker/Services/ExportImportService.swift:83-126 | refused with the bundle's version exactly when it is not 1; otherwise one session per transfer object, in order |
| ExportImport.LoggedRoundTrip | FitnessTracker/Services/ExportImportService.swift:49-126 | exporting then importing one logged exercise gives it back, up to the identities invented for it and its sets |
| ExportImport.SessionRoundTrip | FitnessTracker/Services/ExportImportService.swift:49-126 | exporting then importing a session gives it back, up to the identities invented on import |
| ExportImport.RoundTrip | FitnessTracker/Services/ExportImportService.swift:49-126 | exporting then importing a list of sessions succeeds and gives every session back, up to invented identities |
| ExportImport.OtherVersionRefused | FitnessTracker/Services/ExportImportService.swift:85-87 | any other version is refused, whatever the bundle holds |
| SeedData.RegionLookup | FitnessTracker/Services/SeedDataService.swift:22 | absent exactly when no region has that lower-cased name; otherwise a region with that name after which none has it |
| SeedData.Resolve | FitnessTracker/Services/SeedDataService.swift:51-67 | every map carries the given role and a region of the index |
| SeedData.ResolvePicksLookups | FitnessTracker/Services/SeedDataService.swift:51-67 | one map per known name, in order, unknown names skipped: the k-th map has the given role and the index's region for the k-th known name |
| SeedData.GroupNamed | FitnessTracker/Services/SeedDataService.swift:71-73 | the first group whose name equals the category ignoring case, or none |
| SeedData.Fallback | FitnessTracker/Services/SeedDataService.swift:69-80 | one primary map per region of that group, none without it |
| SeedData.SeedLinks | FitnessTracker/Services/SeedDataService.swift:47-80 | primary then secondary maps when any name is known, otherwise the fallback |
| SeedData.PrimaryBeforeSecondary | FitnessTracker/Services/SeedDataService.swift:51-67 | no secondary map precedes a primary one |
| SeedData.BuildIndexSpec | FitnessTracker/Services/SeedDataService.swift:24 | every stored exercise is indexed under its lower-cased name, and every entry points at an exercise with that name |
| SeedData.BuildIndexKeepsLast | FitnessTracker/Services/SeedDataService.swift:24 | among stored exercises sharing a name, the index keeps the last |
| SeedData.SeedOneSpec | FitnessTracker/Services/SeedDataService.swift:27-45 | a known key refreshes that exercise in place; an unknown key creates one at the end and indexes it; either way category, equipment and maps are replaced, and other exercises are untouched |
| SeedData.SeedPrefixKeys | FitnessTracker/Services/SeedDataService.swift:26-39 | merging only adds index entries, and every merged key ends up indexed |
| SeedData.SeedPrefixKeeps | FitnessTracker/Services/SeedDataService.swift:26-81 | stored exercises keep their positions, identities and names |
| SeedData.SeedPrefixFindsAll | FitnessTracker/Services/SeedDataService.swift:30-33 | nothing is created when every key is already indexed |
| SeedData.SeedIfNeeded | FitnessTracker/Services/SeedDataService.swift:7-84 | without a payload nothing changes; otherwise stored exercises keep position, identity and name, and new ones follow |
| SeedData.SeedPrefixCount | FitnessTracker/Services/SeedDataService.swift:26-39 | merging creates exactly one exercise per distinct key not indexed before |
| SeedData.SeedPrefixLands | FitnessTracker/Services/SeedDataService.swift:26-43 | the last seed with a key leaves its category, equipment and maps on the exercise filed under that key |
| SeedData.SeedPrefixCreates | FitnessTracker/Services/SeedDataService.swift:30-39 | the first seed with a key not indexed before creates the exercise filed under it, after the stored ones and those created for earlier new keys, with that seed's name; later seeds keep that filing |
| SeedData.SeedPrefixMerges | FitnessTracker/Services/SeedDataService.swift:24-81 | for any keys and maps: one exercise per new distinct key; a stored key's exercise, and otherwise the exercise appended for the key in order of first appearance, ends with the category, equipment and maps of the last seed with that key |
| SeedData.SeedPrefixLeaves | FitnessTracker/Services/SeedDataService.swift:24-81 | a stored exercise that no seed's key reaches through the index comes out exactly as it went in |
| SeedData.SeedIfNeededMerges | FitnessTracker/Services/SeedDataService.swift:7-84 | the whole run: seeds are keyed by trimmed lower-cased name and carry the maps of their own links; the result grows by the number of distinct seed keys missing from the stored index; the last seed of each key decides that exercise's category, equipment and maps, on the stored exercise when the key was indexed and otherwise on the one appended with the first such seed's name; every stored exercise no seed key reaches is unchanged |
| SeedDataProperties.SecondRunCreatesNothing | FitnessTracker/Services/SeedDataService.swift:24-39 | seeding again with trimmed seed names creates no exercise |
| SeedDataProperties.PaddedNameCreatedTwice | FitnessTracker/Services/SeedDataService.swift:24-38 | a seed whose trimmed lower-cased lookup key differs from its lower-cased name is stored by the first run and created a second time by the next, because the rebuilt index is keyed by the untrimmed name |
| SeedDataProperties.PaddedKeyDiffers | FitnessTracker/Services/SeedDataService.swift:24-38 | a seed named " A" is such a seed: its lookup key and its indexed name differ |
| Bootstrap.BootstrapIfNeeded | FitnessTracker/Services/BootstrapService.swift:5-63 | a store with any group is left alone; otherwise seven groups and four more splits after the existing ones |
| Bootstrap.BootstrapIdempotent | FitnessTracker/Services/BootstrapService.swift:6-7 | running twice equals running once, whatever identities the second run would use |
| Bootstrap.FreshGroups | FitnessTracker/Services/BootstrapService.swift:9-52 | the seven groups in order with their regions in order, Legs with four regions and the others three |
| Bootstrap.FreshSplits | FitnessTracker/Services/BootstrapService.swift:55-58 | Push, Pull, Lower and Full Body target the listed groups; Full Body targets every group |
| TaxonomyRegions.BootstrappedIndexKeepsLast | FitnessTracker/Services/SeedDataService.swift:22 | over the default taxonomy, "lateral" resolves to the Shoulders region and "long" to the Biceps region, the later of each duplicated pair |
| RestTimer.Clamp | FitnessTracker/Services/RestTimerSettings.swift:22-24 | the result lies in [30, 300]; identity inside, the nearer bound outside |
| RestTimer.ClampIdempotent | FitnessTracker/Services/RestTimerSettings.swift:22-24 | clamping twice equals clamping once |
| RestTimer.Load | FitnessTracker/Services/RestTimerSettings.swift:4-16 | always in [30, 300]; 90 when nothing or nothing usable is stored; a number or a parseable string is clamped; a stored Bool reads as 1 or 0 and so loads as 30 |
| RestTimer.Save | FitnessTracker/Services/RestTimerSettings.swift:18-20 | a number within [30, 300] is stored under the key |
| RestTimer.LoadAfterSave | FitnessTracker/Services/RestTimerSettings.swift:7-20 | loading after saving gives the saved value clamped |
| RestTimer.SaveTouchesOnlyKey | FitnessTracker/Services/RestTimerSettings.swift:18-20 | saving changes no other key |
| RestTimer.SaveOfLoadIsStable | FitnessTracker/Services/RestTimerSettings.swift:7-20 | saving what was loaded changes nothing a later load sees |
| RestTimer.LoadNumericString | FitnessTracker/Services/RestTimerSettings.swift:11-13 | a stored "120" loads as 120 |
| RestTimer.LoadLongString | FitnessTracker/Services/RestTimerSettings.swift:11-13 | a stored "600" loads as 300 |
| RestTimer.LoadWordString | FitnessTracker/Services/RestTimerSettings.swift:11-15 | a stored "soon" loads as 90 |
| TrainView.FilterExercises | FitnessTracker/Features/Train/TrainView.swift:33-39 | an exercise is kept exactly when the trimmed, lower-cased query is empty or occurs in its lower-cased name, category or equipment |
| TrainView.BlankSearchKeepsAll | FitnessTracker/Features/Train/TrainView.swift:33-35 | a blank search keeps the whole list in order |
| TrainView.Categories | FitnessTracker/Features/Train/TrainView.swift:41-42 | the distinct categories, strictly ascending |
| TrainView.GroupOf | FitnessTracker/Features/Train/TrainView.swift:43 | a group holds the kept exercises of its category, in name order |
| TrainView.Grouped | FitnessTracker/Features/Train/TrainView.swift:32-45 | groups in strictly ascending category order, each of one category and sorted by name |
| TrainView.GroupedPartition | FitnessTracker/Features/Train/TrainView.swift:41-44 | a group holds every copy of each kept exercise of its category and nothing else, and every kept exercise's category has a group |
| TrainView.GroupsNonEmpty | FitnessTracker/Features/Train/TrainView.swift:41-44 | no group is empty |
| TrainView.FormattedRest | FitnessTracker/Features/Train/TrainView.swift:47-51 | for a non-negative count, at least four characters, with the colon just before the last two |
| TrainView.FormattedRestRoundTrip | FitnessTracker/Features/Train/TrainView.swift:47-51 | for a non-negative count the label is minutes, a colon and exactly two digits, and reading both back gives the minutes and the leftover seconds |
| TrainView.SaveEnabled | FitnessTracker/Features/Train/TrainView.swift:297-312 | enabled exactly when the reps parse to a positive number that fits in a 64-bit `Int` and the weight does not parse to a negative one |
| TrainView.SaveDisabledPastInt64 | FitnessTracker/Features/Train/TrainView.swift:312 | reps text denoting a number past the 64-bit range keeps Save disabled, whatever the weight |
| Text.ParseInt64OfString | FitnessTracker/Features/Train/TrainView.swift:297 | a rendered integer reads back through `Int(text)` exactly when it fits in 64 bits, and then as itself |
| TrainView.SaveEnabledMatchesValidate | FitnessTracker/Features/Train/TrainView.swift:297-312 | the button is enabled exactly when the submitted values pass the view model's checks |
| HistoryView.Intensity | FitnessTracker/Features/History/HistoryView.swift:181 | shading lies in [0, 1], is full exactly from three sessions on and empty exactly with none |
| HistoryView.DayIntensity | FitnessTracker/Features/History/HistoryView.swift:178-181 | the shading of a day is in [0, 1], and full exactly when three or more sessions started that day |
| HistoryView.IntensityMonotone | FitnessTracker/Features/History/HistoryView.swift:181 | more sessions never shade a day lighter |
| HistoryView.DayShadedIffSession | FitnessTracker/Features/History/HistoryView.swift:179-181 | a day is shaded exactly when some session started on it |
| HistoryView.Days | FitnessTracker/Features/History/HistoryView.swift:226 | the set of start days of the sessions, no larger than the list |
| HistoryView.ActiveDays | FitnessTracker/Features/History/HistoryView.swift:221-227 | at most the month's sessions, and zero exactly when the month has none |
| HistoryView.ActiveDaysAreShaded | FitnessTracker/Features/History/HistoryView.swift:221-227 | every active day of the month is shaded in the calendar |
| HistoryView.SessionDuration | FitnessTracker/Features/History/HistoryView.swift:231-238 | absent exactly while the session runs |
| HistoryView.DurationRoundTrip | FitnessTracker/Features/History/HistoryView.swift:231-238 | reading a finished session's label back gives the whole minutes it lasted |
| HistoryView.SameLabelSameMinutes | FitnessTracker/Features/History/HistoryView.swift:231-238 | two finished sessions get the same label exactly when they lasted the same whole minutes |

The three `sessionDuration` helpers of HistoryView.swift (lines 231-238,
308-315 and 386-393) have the same text. `HistoryView.SessionDuration`
models all three.

## Left out

- SwiftData persistence is not modelled: `ModelContext` insert, delete, fetch and save, and the relationship bookkeeping. Operations return new values instead.
- JSON encoding and decoding, bundle resource lookup and file reading are not modelled. Export and import work on the bundle value; seeding takes the decoded payload, or its absence.
- The clock and calendar are parameters: `.now`, `Date()`, week intervals, `startOfDay`, `isDateInToday`, same-day tests, the displayed month, and dates days back. Locale week rules are not modelled.
- UUID generation is not modelled; fresh identities are parameters.
- The trap of `Dictionary(uniqueKeysWithValues:)` on repeated names is not modelled. Import requires distinct split and exercise names instead.
- The Timer-driven rest countdown in TrainView.swift (lines 318-335) is not modelled, being run-loop behaviour.
- The SwiftUI views, navigation, sheets, charts and theming are not modelled.
- StorageVersionService is not part of this model.
- Message texts that interpolate numbers are not modelled; tips and advice are variants carrying their numbers.
- `Double` is modelled as exact `real`. IEEE-754 rounding, infinities and NaN are not modelled.
- `Double(text)` is modelled for plain decimals only: an optional sign, digits and an optional fraction. Exponents, hexadecimal, "inf" and "nan" are not accepted.
- Lower-casing and whitespace cover ASCII only.
- Swift's `String` comparison orders canonically equivalent (NFC-normalised) forms; the model compares code points. The two agree on ASCII and on names already in NFC, but not on decomposed text. This affects template, category and name ordering.
- Swift's `Int` is 64 bits wide. The model's integers are unbounded. `Int(text)` is modelled with its 64-bit range (`Text.ParseInt64`), so over-long reps disable Save. The traps of `Int(Double)` on out-of-range values are not modelled; examples are the elapsed minutes in HistoryView.swift and the rounded average volume in InsightEngine.swift. Reading a duration label back (`ParseDuration`) is a model-only reader and is unbounded.
- The muscle groups and their regions are fetched with no sort order. The model takes them in creation order, which is the order the taxonomy bootstrap inserts them. TaxonomyRegions.BootstrappedIndexKeepsLast rests on that order: with another fetch order, "lateral" and "long" could resolve to other regions.
- An empty needle is taken to occur in every string (`Text.Contains`). With Foundation's `contains`, an empty needle has been reported to match nothing. The difference arises only for a region with an empty name, whose default keyword is that name; the taxonomy bootstrap never creates one.
- Swift's `sorted(by:)` is not documented as stable. The model sorts stably, so tie order is one valid outcome of the source's sort.
- Dictionary iteration order is not modelled. The model groups split names in order of first appearance, and only the count order is promised.
- ExportImport.RoundTrip: dates are encoded with the `.iso8601` strategy (ExportImportService.swift lines 40-43), which keeps whole seconds only, so a date with fractional seconds comes back truncated. The model's timestamps are whole seconds, so its round trip is exact.
- Train.AddSet, Train.UpdateSet, Train.DeleteSet: the source mutates the logged exercise or set it is handed, whichever session holds it. The model addresses the target by identity inside the active session instead. AddSet and UpdateSet still validate their input first. Past that, without an active session, or when the target is not in it, the state comes back unchanged, refreshed at most. The screen only hands over targets from the active session.
- Train.Consistent: the split picker changes the split without a refresh, so the report can be stale until the next operation that refreshes (SelectSplitStale).
- SeedDataProperties.SecondRunCreatesNothing: holds only for seed names without surrounding whitespace. The stored index is keyed by the untrimmed lower-cased name, so a padded name is created again on each run, as PaddedNameCreatedTwice shows.
- TrainView.FormattedRestRoundTrip: proved for non-negative counts only. `FormattedRest` itself models negative counts with truncating division.
- HistoryView.SessionDuration: its own contract states only when the label is absent. The label's content is stated by DurationRoundTrip.
- Coverage.RegionKeywords: its contract states only that the list is non-empty. The keyword table is transcribed in the body, and the matching contracts are stated over it.
- Dashboard.SplitDistribution: the order among equal counts is not promised, as in the source.

=== FILE: bootstrap.dfy ===
/** BootstrapService: the fixed muscle taxonomy and the four default splits
    created on first launch.  The store is a value holding the groups and
    splits; the identities the app generates are parameters. */
module Bootstrap {
  import opened Domain

  /** The groups, in creation order. */
  const GroupNames: seq<string> := ["Chest", "Triceps", "Shoulders", "Back", "Biceps", "Legs", "Core"]

  /** The regions of each group, in creation order. */
  const RegionNames: seq<seq<string>> := [
    ["Upper", "Mid", "Lower"],
    ["Long", "Lateral", "Medial"],
    ["Anterior", "Lateral", "Posterior"],
    ["Lats", "Upper Back", "Lower Back"],
    ["Long", "Short", "Brachialis"],
    ["Quads", "Hamstrings", "Glutes", "Calves"],
    ["Upper Abs", "Lower Abs", "Obliques"]]

  const SplitNames: seq<string> := ["Push", "Pull", "Lower", "Full Body"]

  /** The groups the first three splits target, as positions in
      `GroupNames`; Full Body targets every group. */
  const SplitGroups: seq<seq<nat>> := [[0, 1, 2], [3, 4, 2], [5, 6]]

  datatype Store = Store(groups: seq<MuscleGroup>, splits: seq<WorkoutType>)

  /** Group number `i` of the taxonomy. */
  function MakeGroup(i: nat, groupId: nat -> Uuid, regionId: (nat, nat) -> Uuid): (g: MuscleGroup)
    requires i < |GroupNames|
    ensures g.name == GroupNames[i]
    ensures |g.regions| == |RegionNames[i]|
    ensures forall j :: 0 <= j < |g.regions| ==> g.regions[j].name == RegionNames[i][j]
  {
    var names := RegionNames[i];
    MuscleGroup(groupId(i), GroupNames[i],
      seq(|names|, j requires 0 <= j < |names| => MuscleRegion(regionId(i, j), names[j])))
  }

  function MakeGroups(groupId: nat -> Uuid, regionId: (nat, nat) -> Uuid): (r: seq<MuscleGroup>)
    ensures |r| == |GroupNames|
    ensures forall i :: 0 <= i < |r| ==> r[i] == MakeGroup(i, groupId, regionId)
  {
    seq(|GroupNames|, i requires 0 <= i < |GroupNames| => MakeGroup(i, groupId, regionId))
  }

  /** Split `i` of the first three, over the created groups. */
  function MakeSplit(i: nat, groups: seq<MuscleGroup>, splitId: nat -> Uuid): (t: WorkoutType)
    requires i < |SplitGroups| && |groups| == |GroupNames|
    ensures t.name == SplitNames[i] && t.templateExercises == []
    ensures |t.includedMuscleGroups| == |SplitGroups[i]|
    ensures forall k :: 0 <= k < |SplitGroups[i]| ==> t.includedMuscleGroups[k] == groups[SplitGroups[i][k]]
  {
    var picks := SplitGroups[i];
    WorkoutType(splitId(i), SplitNames[i],
      seq(|picks|, k requires 0 <= k < |picks| => groups[picks[k]]), [])
  }

  /** The default splits over the created groups, without remembered
      exercises. */
  function MakeSplits(groups: seq<MuscleGroup>, splitId: nat -> Uuid): (r: seq<WorkoutType>)
    requires |groups| == |GroupNames|
    ensures |r| == |SplitNames|
    ensures forall i :: 0 <= i < |r| ==> r[i].name == SplitNames[i] && r[i].templateExercises == []
    ensures forall i :: 0 <= i < |SplitGroups| ==> r[i] == MakeSplit(i, groups, splitId)
    ensures r[3].includedMuscleGroups == groups
  {
    [MakeSplit(0, groups, splitId), MakeSplit(1, groups, splitId), MakeSplit(2, groups, splitId),
     WorkoutType(splitId(3), SplitNames[3], groups, [])]
  }

  /** `bootstrapIfNeeded(context:)`: a store holding any group is left
      alone; otherwise the seven groups are created and the four splits are
      added to whatever splits exist. */
  function BootstrapIfNeeded(st: Store, groupId: nat -> Uuid, regionId: (nat, nat) -> Uuid, splitId: nat -> Uuid)
    : (r: Store)
    ensures |st.groups| > 0 ==> r == st
    ensures |st.groups| == 0 ==> |r.groups| == 7 && |r.splits| == |st.splits| + 4
    ensures |st.groups| == 0 ==> r.splits[..|st.splits|] == st.splits
  {
    if |st.groups| > 0 then
      st
    else
      var groups := MakeGroups(groupId, regionId);
      Store(groups, st.splits + MakeSplits(groups, splitId))
  }

  /** Bootstrapping twice is bootstrapping once, whatever identities the
      second run would use. */
  lemma BootstrapIdempotent(st: Store, groupId: nat -> Uuid, regionId: (nat, nat) -> Uuid, splitId: nat -> Uuid,
                            groupId': nat -> Uuid, regionId': (nat, nat) -> Uuid, splitId': nat -> Uuid)
    ensures var once := BootstrapIfNeeded(st, groupId, regionId, splitId);
            BootstrapIfNeeded(once, groupId', regionId', splitId') == once
  {
  }

  function SplitGroupNames(t: WorkoutType): seq<string> {
    seq(|t.includedMuscleGroups|, k requires 0 <= k < |t.includedMuscleGroups| => t.includedMuscleGroups[k].name)
  }

  /** The names of the groups split `i` targets, read off the taxonomy. */
  lemma SplitTargets(groups: seq<MuscleGroup>, splitId: nat -> Uuid, i: nat)
    requires |groups| == |GroupNames| && i < |SplitGroups|
    requires forall g :: 0 <= g < |groups| ==> groups[g].name == GroupNames[g]
    ensures var t := MakeSplit(i, groups, splitId);
            |SplitGroupNames(t)| == |SplitGroups[i]| &&
            forall k :: 0 <= k < |SplitGroups[i]| ==> SplitGroupNames(t)[k] == GroupNames[SplitGroups[i][k]]
  {
  }

  /** A fresh store gets the seven groups in order, Legs with four regions
      and every other group with three. */
  lemma FreshGroups(groupId: nat -> Uuid, regionId: (nat, nat) -> Uuid, splitId: nat -> Uuid)
    ensures var r := BootstrapIfNeeded(Store([], []), groupId, regionId, splitId);
            && |r.groups| == 7
            && (forall i :: 0 <= i < 7 ==> r.groups[i].name == GroupNames[i])
            && (forall i, j :: 0 <= i < 7 && 0 <= j < |r.groups[i].regions| ==>
                  r.groups[i].regions[j].name == RegionNames[i][j])
            && |r.groups[5].regions| == 4
            && (forall i :: 0 <= i < 7 && i != 5 ==> |r.groups[i].regions| == 3)
  {
    var r := BootstrapIfNeeded(Store([], []), groupId, regionId, splitId);
    assert r.groups == MakeGroups(groupId, regionId);
  }

  /** A fresh store gets Push, Pull, Lower and Full Body, targeting the
      groups named below; Full Body targets every group. */
  lemma FreshSplits(groupId: nat -> Uuid, regionId: (nat, nat) -> Uuid, splitId: nat -> Uuid)
    ensures var r := BootstrapIfNeeded(Store([], []), groupId, regionId, splitId);
            && |r.splits| == 4
            && r.splits[0].name == "Push" && SplitGroupNames(r.splits[0]) == ["Chest", "Triceps", "Shoulders"]
            && r.splits[1].name == "Pull" && SplitGroupNames(r.splits[1]) == ["Back", "Biceps", "Shoulders"]
            && r.splits[2].name == "Lower" && SplitGroupNames(r.splits[2]) == ["Legs", "Core"]
            && r.splits[3].name == "Full Body" && r.splits[3].includedMuscleGroups == r.groups
  {
    var groups := MakeGroups(groupId, regionId);
    var r := BootstrapIfNeeded(Store([], []), groupId, regionId, splitId);
    assert r.groups == groups && r.splits == MakeSplits(groups, splitId);
    SplitTargets(groups, splitId, 0);
    SplitTargets(groups, splitId, 1);
    SplitTargets(groups, splitId, 2);
  }
}

=== FILE: coverage.dfy ===
/** The muscle-coverage engine: maps the working sets of one session onto the
    regions of the muscle groups its split targets.  Regions are matched by
    keywords in the exercise name first; only when no keyword matches does
    the explicit muscle map count, and only when it names exactly one region
    of the split.  Map roles are not consulted. */
module Coverage {
  import opened Wrappers
  import opened Domain
  import opened Text
  import opened Seqs
  import opened Numeric
  import Stats

  /** A region reads 100% at this many working sets. */
  const TargetWorkingSetsPerRegion: nat := 4

  /** Progress at or above this counts a region as covered in its group. */
  const CoveredThreshold: real := 0.75

  datatype RegionCoverage = RegionCoverage(
    id: Uuid,
    name: string,
    touched: bool,
    workingSetCount: nat,
    progress: real,
    contributingExercises: seq<string>)

  datatype GroupCoverage = GroupCoverage(
    id: Uuid,
    name: string,
    touchedRegions: nat,
    totalRegions: nat,
    progress: real,
    regions: seq<RegionCoverage>)

  datatype CoverageReport = CoverageReport(splitName: string, groups: seq<GroupCoverage>)

  // ------------------------------------------------------------- matching

  /** The keyword table: a known region name (ignoring case) maps to the
      fragments of exercise names that train it; any other name is its own
      keyword. */
  function RegionKeywords(regionName: string): (r: seq<string>)
    ensures |r| > 0
  {
    var key := ToLower(regionName);
    if key == "upper" then ["incline"]
    else if key == "mid" then ["bench", "press", "fly", "push-up"]
    else if key == "lower" then ["decline", "dip", "deadlift", "back extension"]
    else if key == "long" then ["overhead", "skull", "incline"]
    else if key == "lateral" then ["pushdown", "pressdown", "lateral", "kickback"]
    else if key == "medial" then ["close-grip", "close grip", "dip", "pushdown"]
    else if key == "anterior" then ["press", "front raise"]
    else if key == "posterior" then ["rear delt", "face pull", "reverse fly"]
    else if key == "lats" then ["pulldown", "pull-up", "chin-up", "straight-arm"]
    else if key == "upper back" then ["row", "face pull", "rear delt"]
    else if key == "lower back" then ["deadlift", "rdl", "back extension", "good morning"]
    else if key == "short" then ["preacher", "concentration", "cable curl"]
    else if key == "brachialis" then ["hammer", "reverse curl"]
    else if key == "quads" then ["squat", "leg press", "leg extension", "lunge", "split squat", "hack squat"]
    else if key == "hamstrings" then ["rdl", "romanian", "leg curl", "deadlift"]
    else if key == "glutes" then ["hip thrust", "glute", "lunge", "squat", "deadlift"]
    else if key == "calves" then ["calf"]
    else if key == "upper abs" then ["crunch", "sit-up"]
    else if key == "lower abs" then ["leg raise", "hanging knee", "reverse crunch"]
    else if key == "obliques" then ["twist", "side plank", "woodchop"]
    else [key]
  }

  /** `flatMap(\.regions)` over the split's groups, in order. */
  function RegionsOf(groups: seq<MuscleGroup>): seq<MuscleRegion> {
    if |groups| == 0 then [] else groups[0].regions + RegionsOf(groups[1..])
  }

  function SplitRegions(split: WorkoutType): seq<MuscleRegion> {
    RegionsOf(split.includedMuscleGroups)
  }

  function Ids(regions: seq<MuscleRegion>): (r: seq<Uuid>)
    ensures |r| == |regions|
    ensures forall i :: 0 <= i < |r| ==> r[i] == regions[i].id
  {
    if |regions| == 0 then [] else [regions[0].id] + Ids(regions[1..])
  }

  /** The lower-cased exercise name, or "" when the exercise is missing. */
  function MatchKey(le: LoggedExercise): string {
    match le.exercise
    case None => ""
    case Some(e) => ToLower(e.name)
  }

  /** `exercise?.name ?? "Exercise"`. */
  function DisplayName(le: LoggedExercise): string {
    match le.exercise
    case None => "Exercise"
    case Some(e) => e.name
  }

  predicate KeywordHit(key: string, region: MuscleRegion) {
    ContainsAny(key, RegionKeywords(region.name))
  }

  function KeywordMatched(key: string, regions: seq<MuscleRegion>): (r: seq<MuscleRegion>)
    ensures forall i :: 0 <= i < |r| ==> r[i] in regions && KeywordHit(key, r[i])
    ensures forall i :: 0 <= i < |regions| && KeywordHit(key, regions[i]) ==> regions[i] in r
  {
    Filter(regions, (region: MuscleRegion) => KeywordHit(key, region))
  }

  /** `compactMap { $0.muscleRegion }` over the exercise's muscle maps. */
  function MappedRegions(maps: seq<MuscleMap>): seq<MuscleRegion> {
    if |maps| == 0 then []
    else match maps[0].muscleRegion
      case None => MappedRegions(maps[1..])
      case Some(r) => [r] + MappedRegions(maps[1..])
  }

  function MappedInSplit(le: LoggedExercise, splitRegions: seq<MuscleRegion>): seq<MuscleRegion> {
    var mapped := match le.exercise
      case None => []
      case Some(e) => MappedRegions(e.muscleMaps);
    var splitIds := Ids(splitRegions);
    Filter(mapped, (region: MuscleRegion) => region.id in splitIds)
  }

  /** `matchedRegionIDs(for:in:)`.  An empty name matches nothing; keyword
      hits among the split's regions win; otherwise the explicit map is used
      only when exactly one mapped region lies in the split; otherwise
      nothing matches.  Every id returned belongs to a region of the split. */
  function MatchedRegionIds(le: LoggedExercise, split: WorkoutType): (r: seq<Uuid>)
    ensures MatchKey(le) == "" ==> r == []
    ensures MatchKey(le) != "" && KeywordMatched(MatchKey(le), SplitRegions(split)) != [] ==>
              r == Ids(KeywordMatched(MatchKey(le), SplitRegions(split)))
    ensures MatchKey(le) != "" && KeywordMatched(MatchKey(le), SplitRegions(split)) == [] ==>
              (r != [] <==> |MappedInSplit(le, SplitRegions(split))| == 1)
    ensures r != [] && KeywordMatched(MatchKey(le), SplitRegions(split)) == [] ==>
              r == [MappedInSplit(le, SplitRegions(split))[0].id]
    ensures forall id :: id in r ==> id in Ids(SplitRegions(split))
  {
    var key := MatchKey(le);
    if key == "" then
      []
    else
      var splitRegions := SplitRegions(split);
      var hits := KeywordMatched(key, splitRegions);
      if hits != [] then
        IdsWithin(hits, splitRegions);
        Ids(hits)
      else
        var inSplit := MappedInSplit(le, splitRegions);
        if |inSplit| == 1 then [inSplit[0].id] else []
  }

  lemma IdsWithin(sub: seq<MuscleRegion>, all: seq<MuscleRegion>)
    requires forall i :: 0 <= i < |sub| ==> sub[i] in all
    ensures forall id :: id in Ids(sub) ==> id in Ids(all)
  {
    forall id | id in Ids(sub) ensures id in Ids(all) {
      var i :| 0 <= i < |sub| && Ids(sub)[i] == id;
      var j :| 0 <= j < |all| && all[j] == sub[i];
      assert Ids(all)[j] == id;
    }
  }

  /** Keyword hits take precedence: when some region of the split is hit by
      a keyword, the exercise's muscle maps do not influence the match. */
  lemma KeywordsTakePrecedence(le: LoggedExercise, split: WorkoutType, maps: seq<MuscleMap>)
    requires le.exercise.Some?
    requires KeywordMatched(MatchKey(le), SplitRegions(split)) != []
    ensures MatchedRegionIds(le.(exercise := Some(le.exercise.value.(muscleMaps := maps))), split)
            == MatchedRegionIds(le, split)
  {
  }

  // ------------------------------------------------------------ the tally

  /** Running totals per region id, as the engine accumulates them:
      the working-set count and the sorted distinct contributing names. */
  datatype Tally = Tally(counts: map<Uuid, nat>, names: map<Uuid, seq<string>>)

  function CountOf(t: Tally, id: Uuid): nat {
    if id in t.counts then t.counts[id] else 0
  }

  function NamesOf(t: Tally, id: Uuid): seq<string> {
    if id in t.names then t.names[id] else []
  }

  ghost predicate TallyWellFormed(t: Tally) {
    forall id :: id in t.names ==> StrictlySorted(t.names[id])
  }

  /** Adds `n` working sets and the name `name` to region `id`. */
  function Bump(t: Tally, id: Uuid, n: nat, name: string): (r: Tally)
    requires TallyWellFormed(t)
    ensures TallyWellFormed(r)
  {
    Tally(t.counts[id := CountOf(t, id) + n], t.names[id := InsertUnique(name, NamesOf(t, id))])
  }

  /** Credits every id of `ids` in turn (an id listed twice is credited twice). */
  function Credit(t: Tally, ids: seq<Uuid>, n: nat, name: string): (r: Tally)
    requires TallyWellFormed(t)
    ensures TallyWellFormed(r)
    decreases |ids|
  {
    if |ids| == 0 then t else Credit(Bump(t, ids[0], n, name), ids[1..], n, name)
  }

  /** One iteration of the engine's loop over logged exercises. */
  function AddLogged(t: Tally, le: LoggedExercise, split: WorkoutType): (r: Tally)
    requires TallyWellFormed(t)
    ensures TallyWellFormed(r)
  {
    var working := Stats.WorkingSets(le.sets);
    if |working| == 0 then t
    else
      var ids := MatchedRegionIds(le, split);
      if |ids| == 0 then t else Credit(t, ids, |working|, DisplayName(le))
  }

  /** The loop over `session.loggedExercises`, in order. */
  function TallyFrom(t: Tally, les: seq<LoggedExercise>, split: WorkoutType): (r: Tally)
    requires TallyWellFormed(t)
    ensures TallyWellFormed(r)
    decreases |les|
  {
    if |les| == 0 then t else TallyFrom(AddLogged(t, les[0], split), les[1..], split)
  }

  const EmptyTally := Tally(map[], map[])

  // --------------------------------------------------------------- report

  /** `min(1, count / 4)`: reaches 1 at four sets and never exceeds it. */
  function RegionProgress(count: nat): (p: real)
    ensures 0.0 <= p <= 1.0
    ensures p == 1.0 <==> count >= TargetWorkingSetsPerRegion
    ensures p == 0.0 <==> count == 0
    ensures p >= CoveredThreshold <==> count >= 3
  {
    Min(1.0, count as real / TargetWorkingSetsPerRegion as real)
  }

  function BuildRegion(region: MuscleRegion, t: Tally): (r: RegionCoverage)
    ensures r.id == region.id && r.name == region.name
    ensures r.workingSetCount == CountOf(t, region.id)
    ensures r.touched <==> r.workingSetCount > 0
    ensures 0.0 <= r.progress <= 1.0
  {
    var setCount := CountOf(t, region.id);
    RegionCoverage(region.id, region.name, setCount > 0, setCount,
                   RegionProgress(setCount), NamesOf(t, region.id))
  }

  function BuildRegions(regions: seq<MuscleRegion>, t: Tally): (r: seq<RegionCoverage>)
    ensures |r| == |regions|
    ensures forall j :: 0 <= j < |r| ==> r[j] == BuildRegion(regions[j], t)
  {
    if |regions| == 0 then [] else [BuildRegion(regions[0], t)] + BuildRegions(regions[1..], t)
  }

  predicate IsCovered(r: RegionCoverage) {
    r.progress >= CoveredThreshold
  }

  function Progresses(regions: seq<RegionCoverage>): (r: seq<real>)
    ensures |r| == |regions|
    ensures forall j :: 0 <= j < |r| ==> r[j] == regions[j].progress
  {
    if |regions| == 0 then [] else [regions[0].progress] + Progresses(regions[1..])
  }

  /** The mean progress of the regions, 0 when there are none; within
      [0, 1] when every region's progress is. */
  function MeanProgress(regions: seq<RegionCoverage>): (p: real)
    ensures |regions| == 0 ==> p == 0.0
    ensures (forall j :: 0 <= j < |regions| ==> 0.0 <= regions[j].progress <= 1.0) ==> 0.0 <= p <= 1.0
  {
    if |regions| == 0 then 0.0
    else
      var n := |regions| as real;
      var total := Sum(Progresses(regions));
      assert (forall j :: 0 <= j < |regions| ==> 0.0 <= regions[j].progress <= 1.0) ==> 0.0 <= total <= n by {
        if forall j :: 0 <= j < |regions| ==> 0.0 <= regions[j].progress <= 1.0 {
          SumBounds(Progresses(regions), 0.0, 1.0);
        }
      }
      total / n
  }

  function BuildGroup(group: MuscleGroup, t: Tally): (g: GroupCoverage)
    ensures g.id == group.id && g.name == group.name
    ensures g.regions == BuildRegions(group.regions, t)
    ensures g.totalRegions == |group.regions|
    ensures g.touchedRegions == Count(g.regions, IsCovered) <= g.totalRegions
    ensures 0.0 <= g.progress <= 1.0
    ensures |group.regions| == 0 ==> g.progress == 0.0
  {
    var regions := BuildRegions(group.regions, t);
    GroupCoverage(group.id, group.name, Count(regions, IsCovered), |regions|,
                  MeanProgress(regions), regions)
  }

  function BuildGroups(groups: seq<MuscleGroup>, t: Tally): (r: seq<GroupCoverage>)
    ensures |r| == |groups|
    ensures forall i :: 0 <= i < |r| ==> r[i] == BuildGroup(groups[i], t)
  {
    if |groups| == 0 then [] else [BuildGroup(groups[0], t)] + BuildGroups(groups[1..], t)
  }

  /** `CoverageEngine.buildReport(for:split:)`: one group entry per group
      of the split and one region entry per region of the group, both in
      order, under the split's name. */
  function BuildReport(session: WorkoutSession, split: WorkoutType): (r: CoverageReport)
    ensures r.splitName == split.name
    ensures |r.groups| == |split.includedMuscleGroups|
    ensures forall i :: 0 <= i < |r.groups| ==>
              && r.groups[i].id == split.includedMuscleGroups[i].id
              && r.groups[i].name == split.includedMuscleGroups[i].name
              && |r.groups[i].regions| == r.groups[i].totalRegions == |split.includedMuscleGroups[i].regions|
    ensures forall i, j :: 0 <= i < |r.groups| && 0 <= j < |r.groups[i].regions| ==>
              && r.groups[i].regions[j].id == split.includedMuscleGroups[i].regions[j].id
              && r.groups[i].regions[j].name == split.includedMuscleGroups[i].regions[j].name
  {
    var t := TallyFrom(EmptyTally, session.loggedExercises, split);
    CoverageReport(split.name, BuildGroups(split.includedMuscleGroups, t))
  }
}

=== FILE: coverage_properties.dfy ===
/** What the coverage report means.  The engine folds the session's logged
    exercises into a tally; here the same numbers are defined exercise by
    exercise, without a tally, and the report is shown to agree with them.
    From that follow the report's promises: warm-ups never count, one more
    working set never lowers a region, and the order in which exercises were
    logged does not matter. */
module CoverageProperties {
  import opened Domain
  import opened Text
  import opened Seqs
  import opened Coverage
  import Stats

  // ------------------------------------------------- reference definitions

  /** How many times `id` occurs in `ids`. */
  function Occurrences(ids: seq<Uuid>, id: Uuid): nat {
    if |ids| == 0 then 0 else (if ids[0] == id then 1 else 0) + Occurrences(ids[1..], id)
  }

  /** `n` for every occurrence of `id` in `ids`. */
  function Credited(ids: seq<Uuid>, n: nat, id: Uuid): nat {
    if |ids| == 0 then 0 else (if ids[0] == id then n else 0) + Credited(ids[1..], n, id)
  }

  /** The working sets one logged exercise credits to region `id`: all of
      its working sets, once for every time the region is matched. */
  function Contribution(le: LoggedExercise, split: WorkoutType, id: Uuid): nat {
    Credited(MatchedRegionIds(le, split), |Stats.WorkingSets(le.sets)|, id)
  }

  /** The logged exercise has a working set and matches region `id`. */
  predicate Contributes(le: LoggedExercise, split: WorkoutType, id: Uuid) {
    |Stats.WorkingSets(le.sets)| > 0 && id in MatchedRegionIds(le, split)
  }

  /** The working sets all logged exercises credit to region `id`. */
  function RegionSetCount(les: seq<LoggedExercise>, split: WorkoutType, id: Uuid): nat {
    if |les| == 0 then 0 else Contribution(les[0], split, id) + RegionSetCount(les[1..], split, id)
  }

  /** The display names of the logged exercises that contribute to `id`. */
  ghost function Contributors(les: seq<LoggedExercise>, split: WorkoutType, id: Uuid): set<string> {
    set le | le in les && Contributes(le, split, id) :: DisplayName(le)
  }

  // ------------------------------------------------------ reference facts

  lemma {:induction false} OccurrencesPositive(ids: seq<Uuid>, id: Uuid)
    ensures Occurrences(ids, id) > 0 <==> id in ids
  {
    if |ids| > 0 {
      OccurrencesPositive(ids[1..], id);
      assert ids == [ids[0]] + ids[1..];
    }
  }

  lemma {:induction false} CreditedPositive(ids: seq<Uuid>, n: nat, id: Uuid)
    ensures Credited(ids, n, id) > 0 <==> n > 0 && id in ids
  {
    if |ids| > 0 {
      CreditedPositive(ids[1..], n, id);
      assert ids == [ids[0]] + ids[1..];
    }
  }

  /** One more set per match adds one per occurrence. */
  lemma {:induction false} CreditedSucc(ids: seq<Uuid>, n: nat, id: Uuid)
    ensures Credited(ids, n + 1, id) == Credited(ids, n, id) + Occurrences(ids, id)
  {
    if |ids| > 0 {
      CreditedSucc(ids[1..], n, id);
    }
  }

  lemma ContributionPositive(le: LoggedExercise, split: WorkoutType, id: Uuid)
    ensures Contribution(le, split, id) > 0 <==> Contributes(le, split, id)
  {
    CreditedPositive(MatchedRegionIds(le, split), |Stats.WorkingSets(le.sets)|, id);
  }

  lemma {:induction false} RegionSetCountIsSum(les: seq<LoggedExercise>, split: WorkoutType, id: Uuid)
    ensures RegionSetCount(les, split, id) == SumOf(les, (le: LoggedExercise) => Contribution(le, split, id))
  {
    if |les| > 0 {
      RegionSetCountIsSum(les[1..], split, id);
    }
  }

  /** The reference count does not depend on the order of the exercises. */
  lemma RegionSetCountPermutation(a: seq<LoggedExercise>, b: seq<LoggedExercise>, split: WorkoutType, id: Uuid)
    requires multiset(a) == multiset(b)
    ensures RegionSetCount(a, split, id) == RegionSetCount(b, split, id)
  {
    RegionSetCountIsSum(a, split, id);
    RegionSetCountIsSum(b, split, id);
    SumOfPermutation(a, b, (le: LoggedExercise) => Contribution(le, split, id));
  }

  lemma {:induction false} RegionSetCountPositive(les: seq<LoggedExercise>, split: WorkoutType, id: Uuid)
    ensures RegionSetCount(les, split, id) > 0 <==>
            exists k :: 0 <= k < |les| && Contributes(les[k], split, id)
  {
    if |les| > 0 {
      RegionSetCountPositive(les[1..], split, id);
      ContributionPositive(les[0], split, id);
      if exists k :: 0 <= k < |les| && Contributes(les[k], split, id) {
        var k :| 0 <= k < |les| && Contributes(les[k], split, id);
        if k > 0 {
          assert Contributes(les[1..][k - 1], split, id);
        }
      }
      if exists k :: 0 <= k < |les[1..]| && Contributes(les[1..][k], split, id) {
        var k :| 0 <= k < |les[1..]| && Contributes(les[1..][k], split, id);
        assert Contributes(les[k + 1], split, id);
      }
    }
  }

  lemma ContributorsStep(les: seq<LoggedExercise>, split: WorkoutType, id: Uuid, e: string)
    requires |les| > 0
    ensures e in Contributors(les, split, id) <==>
            (Contributes(les[0], split, id) && e == DisplayName(les[0])) || e in Contributors(les[1..], split, id)
  {
    assert les == [les[0]] + les[1..];
    if e in Contributors(les, split, id) {
      var le :| le in les && Contributes(le, split, id) && e == DisplayName(le);
      if le != les[0] {
        assert le in les[1..];
      }
    }
  }

  lemma ContributorsNonEmpty(les: seq<LoggedExercise>, split: WorkoutType, id: Uuid)
    ensures Contributors(les, split, id) != {} <==> RegionSetCount(les, split, id) > 0
  {
    RegionSetCountPositive(les, split, id);
    if RegionSetCount(les, split, id) > 0 {
      var k :| 0 <= k < |les| && Contributes(les[k], split, id);
      assert DisplayName(les[k]) in Contributors(les, split, id);
    }
    if Contributors(les, split, id) != {} {
      var e :| e in Contributors(les, split, id);
      var le :| le in les && Contributes(le, split, id) && e == DisplayName(le);
      var k :| 0 <= k < |les| && les[k] == le;
      assert Contributes(les[k], split, id);
    }
  }

  // ------------------------------------------------- the tally agrees

  lemma {:induction false} CreditCount(t: Tally, ids: seq<Uuid>, n: nat, name: string, id: Uuid)
    requires TallyWellFormed(t)
    ensures CountOf(Credit(t, ids, n, name), id) == CountOf(t, id) + Credited(ids, n, id)
    decreases |ids|
  {
    if |ids| > 0 {
      CreditCount(Bump(t, ids[0], n, name), ids[1..], n, name, id);
    }
  }

  lemma {:induction false} CreditNames(t: Tally, ids: seq<Uuid>, n: nat, name: string, id: Uuid, e: string)
    requires TallyWellFormed(t)
    ensures e in NamesOf(Credit(t, ids, n, name), id) <==> e in NamesOf(t, id) || (id in ids && e == name)
    decreases |ids|
  {
    if |ids| > 0 {
      CreditNames(Bump(t, ids[0], n, name), ids[1..], n, name, id, e);
      assert ids == [ids[0]] + ids[1..];
    }
  }

  lemma AddLoggedCount(t: Tally, le: LoggedExercise, split: WorkoutType, id: Uuid)
    requires TallyWellFormed(t)
    ensures CountOf(AddLogged(t, le, split), id) == CountOf(t, id) + Contribution(le, split, id)
  {
    var w := |Stats.WorkingSets(le.sets)|;
    var ids := MatchedRegionIds(le, split);
    if w > 0 && |ids| > 0 {
      CreditCount(t, ids, w, DisplayName(le), id);
    } else {
      CreditedPositive(ids, w, id);
    }
  }

  lemma AddLoggedNames(t: Tally, le: LoggedExercise, split: WorkoutType, id: Uuid, e: string)
    requires TallyWellFormed(t)
    ensures e in NamesOf(AddLogged(t, le, split), id) <==>
            e in NamesOf(t, id) || (Contributes(le, split, id) && e == DisplayName(le))
  {
    var w := |Stats.WorkingSets(le.sets)|;
    var ids := MatchedRegionIds(le, split);
    if w > 0 && |ids| > 0 {
      CreditNames(t, ids, w, DisplayName(le), id, e);
    }
  }

  lemma {:induction false} TallyFromCount(t: Tally, les: seq<LoggedExercise>, split: WorkoutType, id: Uuid)
    requires TallyWellFormed(t)
    ensures CountOf(TallyFrom(t, les, split), id) == CountOf(t, id) + RegionSetCount(les, split, id)
    decreases |les|
  {
    if |les| > 0 {
      AddLoggedCount(t, les[0], split, id);
      TallyFromCount(AddLogged(t, les[0], split), les[1..], split, id);
    }
  }

  lemma {:induction false} TallyFromNames(t: Tally, les: seq<LoggedExercise>, split: WorkoutType, id: Uuid, e: string)
    requires TallyWellFormed(t)
    ensures e in NamesOf(TallyFrom(t, les, split), id) <==>
            e in NamesOf(t, id) || e in Contributors(les, split, id)
    decreases |les|
  {
    if |les| > 0 {
      AddLoggedNames(t, les[0], split, id, e);
      TallyFromNames(AddLogged(t, les[0], split), les[1..], split, id, e);
      ContributorsStep(les, split, id, e);
    }
  }

  lemma NamesSorted(t: Tally, id: Uuid)
    requires TallyWellFormed(t)
    ensures StrictlySorted(NamesOf(t, id))
  {
  }

  // ------------------------------------------------------ report meaning

  /** Every region entry of the report counts exactly the working sets the
      reference assigns to the region, lists exactly the contributing
      exercises, sorted and without repetition, and lists one iff it counts
      a set. */
  lemma ReportMatchesReference(session: WorkoutSession, split: WorkoutType, i: nat, j: nat)
    requires i < |split.includedMuscleGroups|
    requires j < |split.includedMuscleGroups[i].regions|
    ensures var id := split.includedMuscleGroups[i].regions[j].id;
            var rc := BuildReport(session, split).groups[i].regions[j];
            && rc.workingSetCount == RegionSetCount(session.loggedExercises, split, id)
            && rc.progress == RegionProgress(rc.workingSetCount)
            && StrictlySorted(rc.contributingExercises)
            && (forall e :: e in rc.contributingExercises <==> e in Contributors(session.loggedExercises, split, id))
            && (rc.contributingExercises != [] <==> rc.workingSetCount > 0)
  {
    var les := session.loggedExercises;
    var id := split.includedMuscleGroups[i].regions[j].id;
    var t := TallyFrom(EmptyTally, les, split);
    var rc := BuildReport(session, split).groups[i].regions[j];
    assert rc == BuildRegion(split.includedMuscleGroups[i].regions[j], t);
    TallyFromCount(EmptyTally, les, split, id);
    forall e ensures e in rc.contributingExercises <==> e in Contributors(les, split, id) {
      TallyFromNames(EmptyTally, les, split, id, e);
    }
    ContributorsNonEmpty(les, split, id);
    if rc.contributingExercises != [] {
      assert rc.contributingExercises[0] in Contributors(les, split, id);
    }
    if Contributors(les, split, id) != {} {
      var e :| e in Contributors(les, split, id);
      assert e in rc.contributingExercises;
    }
  }

  /** A session whose every set is a warm-up covers nothing: every region
      reads zero sets, zero progress and no contributors, and every group
      zero covered regions and zero progress. */
  lemma WarmupOnlySessionCoversNothing(session: WorkoutSession, split: WorkoutType)
    requires forall i, j :: 0 <= i < |session.loggedExercises| && 0 <= j < |session.loggedExercises[i].sets| ==>
               session.loggedExercises[i].sets[j].isWarmup
    ensures var r := BuildReport(session, split);
            forall i :: 0 <= i < |r.groups| ==>
              && r.groups[i].touchedRegions == 0
              && r.groups[i].progress == 0.0
              && forall j :: 0 <= j < |r.groups[i].regions| ==>
                   && r.groups[i].regions[j].workingSetCount == 0
                   && !r.groups[i].regions[j].touched
                   && r.groups[i].regions[j].progress == 0.0
                   && r.groups[i].regions[j].contributingExercises == []
  {
    var les := session.loggedExercises;
    var t := TallyFrom(EmptyTally, les, split);
    forall id ensures CountOf(t, id) == 0 && NamesOf(t, id) == [] {
      WarmupsCreditNothing(les, split, id);
    }
    forall i | 0 <= i < |split.includedMuscleGroups| {
      IdleGroup(split.includedMuscleGroups[i], t);
    }
  }

  lemma WarmupsCreditNothing(les: seq<LoggedExercise>, split: WorkoutType, id: Uuid)
    requires forall i, j :: 0 <= i < |les| && 0 <= j < |les[i].sets| ==> les[i].sets[j].isWarmup
    ensures CountOf(TallyFrom(EmptyTally, les, split), id) == 0
    ensures NamesOf(TallyFrom(EmptyTally, les, split), id) == []
  {
    forall k | 0 <= k < |les| ensures Stats.WorkingSets(les[k].sets) == [] {
      Stats.NoWorkingSetsAmongWarmups(les[k].sets);
    }
    RegionSetCountPositive(les, split, id);
    TallyFromCount(EmptyTally, les, split, id);
    ContributorsNonEmpty(les, split, id);
    var names := NamesOf(TallyFrom(EmptyTally, les, split), id);
    if names != [] {
      TallyFromNames(EmptyTally, les, split, id, names[0]);
    }
  }

  /** A group built from a tally that credits nothing reads zero throughout. */
  lemma IdleGroup(group: MuscleGroup, t: Tally)
    requires forall id :: CountOf(t, id) == 0 && NamesOf(t, id) == []
    ensures var g := BuildGroup(group, t);
            && g.touchedRegions == 0
            && g.progress == 0.0
            && forall j :: 0 <= j < |g.regions| ==>
                 && g.regions[j].workingSetCount == 0
                 && !g.regions[j].touched
                 && g.regions[j].progress == 0.0
                 && g.regions[j].contributingExercises == []
  {
    var g := BuildGroup(group, t);
    NoneCovered(g.regions);
    if |g.regions| > 0 {
      SumBounds(Progresses(g.regions), 0.0, 0.0);
    }
  }

  lemma NoneCovered(regions: seq<RegionCoverage>)
    requires forall j :: 0 <= j < |regions| ==> regions[j].progress == 0.0
    ensures Count(regions, IsCovered) == 0
  {
    FilterNone(regions, IsCovered);
  }

  /** Swapping `le` for `le'` with the same exercise changes neither the
      regions matched nor the name shown. */
  lemma SameExerciseSameMatch(le: LoggedExercise, le': LoggedExercise, split: WorkoutType)
    requires le'.exercise == le.exercise
    ensures MatchedRegionIds(le', split) == MatchedRegionIds(le, split)
    ensures DisplayName(le') == DisplayName(le)
  {
    assert MatchKey(le') == MatchKey(le);
    assert MappedInSplit(le', SplitRegions(split)) == MappedInSplit(le, SplitRegions(split));
  }

  lemma {:induction false} RegionSetCountAppendSet(les: seq<LoggedExercise>, k: nat, s: LoggedSet,
                                                    split: WorkoutType, id: Uuid)
    requires k < |les| && !s.isWarmup
    ensures RegionSetCount(Stats.AppendSet(les, k, s), split, id) ==
            RegionSetCount(les, split, id) + Occurrences(MatchedRegionIds(les[k], split), id)
  {
    var les' := Stats.AppendSet(les, k, s);
    assert les'[1..] == if k == 0 then les[1..] else Stats.AppendSet(les[1..], k - 1, s);
    if k == 0 {
      ContributionAppendSet(les[0], s, split, id);
    } else {
      RegionSetCountAppendSet(les[1..], k - 1, s, split, id);
    }
  }

  /** One more working set on a logged exercise credits each matched region
      once more for every time it is matched. */
  lemma ContributionAppendSet(le: LoggedExercise, s: LoggedSet, split: WorkoutType, id: Uuid)
    requires !s.isWarmup
    ensures Contribution(le.(sets := le.sets + [s]), split, id) ==
            Contribution(le, split, id) + Occurrences(MatchedRegionIds(le, split), id)
  {
    var le' := le.(sets := le.sets + [s]);
    SameExerciseSameMatch(le, le', split);
    FilterAppend(le.sets, [s], Stats.IsWorking);
    assert |Stats.WorkingSets(le'.sets)| == |Stats.WorkingSets(le.sets)| + 1;
    CreditedSucc(MatchedRegionIds(le, split), |Stats.WorkingSets(le.sets)|, id);
  }

  /** A warm-up set added to any logged exercise leaves the tally as it
      was. */
  lemma {:induction false} WarmupLeavesTally(t: Tally, les: seq<LoggedExercise>, k: nat, w: LoggedSet,
                                              split: WorkoutType)
    requires TallyWellFormed(t)
    requires k < |les| && w.isWarmup
    ensures TallyFrom(t, Stats.AppendSet(les, k, w), split) == TallyFrom(t, les, split)
    decreases |les|
  {
    var les' := Stats.AppendSet(les, k, w);
    assert les'[1..] == if k == 0 then les[1..] else Stats.AppendSet(les[1..], k - 1, w);
    if k == 0 {
      SameExerciseSameMatch(les[0], les'[0], split);
      FilterAppend(les[0].sets, [w], Stats.IsWorking);
      assert Stats.WorkingSets(les'[0].sets) == Stats.WorkingSets(les[0].sets);
      assert AddLogged(t, les'[0], split) == AddLogged(t, les[0], split);
    } else {
      assert les'[0] == les[0];
      WarmupLeavesTally(AddLogged(t, les[0], split), les[1..], k - 1, w, split);
    }
  }

  /** A warm-up set changes nothing in the coverage report. */
  lemma WarmupLeavesReport(session: WorkoutSession, k: nat, w: LoggedSet, split: WorkoutType)
    requires k < |session.loggedExercises| && w.isWarmup
    ensures BuildReport(session.(loggedExercises := Stats.AppendSet(session.loggedExercises, k, w)), split) ==
            BuildReport(session, split)
  {
    WarmupLeavesTally(EmptyTally, session.loggedExercises, k, w, split);
  }

  lemma RegionProgressMonotone(a: nat, b: nat)
    requires a <= b
    ensures RegionProgress(a) <= RegionProgress(b)
  {
  }

  /** Logging one more working set on exercise `k` adds one set to every
      region that exercise matches (once per match), never lowers any
      region's progress, and keeps every contributor listed. */
  lemma AddingWorkingSetRaisesCoverage(session: WorkoutSession, split: WorkoutType, k: nat, s: LoggedSet,
                                       i: nat, j: nat)
    requires k < |session.loggedExercises| && !s.isWarmup
    requires i < |split.includedMuscleGroups|
    requires j < |split.includedMuscleGroups[i].regions|
    ensures var id := split.includedMuscleGroups[i].regions[j].id;
            var before := BuildReport(session, split).groups[i].regions[j];
            var after := BuildReport(session.(loggedExercises := Stats.AppendSet(session.loggedExercises, k, s)), split)
                           .groups[i].regions[j];
            && after.workingSetCount ==
                 before.workingSetCount + Occurrences(MatchedRegionIds(session.loggedExercises[k], split), id)
            && before.progress <= after.progress
            && (forall e :: e in before.contributingExercises ==> e in after.contributingExercises)
  {
    var les := session.loggedExercises;
    var les' := Stats.AppendSet(les, k, s);
    var id := split.includedMuscleGroups[i].regions[j].id;
    ReportMatchesReference(session, split, i, j);
    ReportMatchesReference(session.(loggedExercises := les'), split, i, j);
    RegionSetCountAppendSet(les, k, s, split, id);
    RegionProgressMonotone(RegionSetCount(les, split, id), RegionSetCount(les', split, id));
    forall e | e in Contributors(les, split, id) ensures e in Contributors(les', split, id) {
      ContributorsKept(les, k, s, split, id, e);
    }
  }

  lemma ContributorsKept(les: seq<LoggedExercise>, k: nat, s: LoggedSet, split: WorkoutType, id: Uuid, e: string)
    requires k < |les| && !s.isWarmup
    requires e in Contributors(les, split, id)
    ensures e in Contributors(Stats.AppendSet(les, k, s), split, id)
  {
    var les' := Stats.AppendSet(les, k, s);
    var le :| le in les && Contributes(le, split, id) && e == DisplayName(le);
    var m :| 0 <= m < |les| && les[m] == le;
    if m == k {
      SameExerciseSameMatch(les[k], les'[k], split);
      FilterAppend(les[k].sets, [s], Stats.IsWorking);
      assert Contributes(les'[k], split, id);
      assert les'[k] in les';
    } else {
      assert les'[m] == le;
    }
  }

  /** Building regions from two tallies that agree on every id gives the
      same entries. */
  lemma SameTallySameGroups(groups: seq<MuscleGroup>, t: Tally, t': Tally)
    requires forall id :: CountOf(t, id) == CountOf(t', id) && NamesOf(t, id) == NamesOf(t', id)
    ensures BuildGroups(groups, t) == BuildGroups(groups, t')
  {
    forall i | 0 <= i < |groups| ensures BuildGroup(groups[i], t) == BuildGroup(groups[i], t') {
      var rs := groups[i].regions;
      forall j | 0 <= j < |rs| ensures BuildRegion(rs[j], t) == BuildRegion(rs[j], t') {
      }
      assert BuildRegions(rs, t) == BuildRegions(rs, t');
    }
    assert BuildGroups(groups, t) == BuildGroups(groups, t');
  }

  /** The report depends on which exercises were logged, not on the order
      in which they were logged. */
  lemma ReportIgnoresLoggingOrder(a: WorkoutSession, b: WorkoutSession, split: WorkoutType)
    requires multiset(a.loggedExercises) == multiset(b.loggedExercises)
    ensures BuildReport(a, split) == BuildReport(b, split)
  {
    var ta := TallyFrom(EmptyTally, a.loggedExercises, split);
    var tb := TallyFrom(EmptyTally, b.loggedExercises, split);
    forall id ensures CountOf(ta, id) == CountOf(tb, id) && NamesOf(ta, id) == NamesOf(tb, id) {
      TallyFromCount(EmptyTally, a.loggedExercises, split, id);
      TallyFromCount(EmptyTally, b.loggedExercises, split, id);
      RegionSetCountPermutation(a.loggedExercises, b.loggedExercises, split, id);
      forall e ensures e in NamesOf(ta, id) <==> e in NamesOf(tb, id) {
        TallyFromNames(EmptyTally, a.loggedExercises, split, id, e);
        TallyFromNames(EmptyTally, b.loggedExercises, split, id, e);
        SameContributors(a.loggedExercises, b.loggedExercises, split, id, e);
      }
      NamesSorted(ta, id);
      NamesSorted(tb, id);
      StrictlySortedUnique(NamesOf(ta, id), NamesOf(tb, id));
    }
    SameTallySameGroups(split.includedMuscleGroups, ta, tb);
  }

  lemma SameContributors(a: seq<LoggedExercise>, b: seq<LoggedExercise>, split: WorkoutType, id: Uuid, e: string)
    requires multiset(a) == multiset(b)
    ensures e in Contributors(a, split, id) <==> e in Contributors(b, split, id)
  {
    if e in Contributors(a, split, id) {
      var le :| le in a && Contributes(le, split, id) && e == DisplayName(le);
      assert le in multiset(b);
      assert le in b;
    }
    if e in Contributors(b, split, id) {
      var le :| le in b && Contributes(le, split, id) && e == DisplayName(le);
      assert le in multiset(a);
      assert le in a;
    }
  }

  /** A group's covered count is the number of its regions with at least
      three working sets. */
  lemma CoveredMeansThreeSets(group: MuscleGroup, t: Tally)
    ensures var g := BuildGroup(group, t);
            g.touchedRegions == Count(g.regions, (rc: RegionCoverage) => rc.workingSetCount >= 3)
  {
    var g := BuildGroup(group, t);
    forall j | 0 <= j < |g.regions| ensures IsCovered(g.regions[j]) == (g.regions[j].workingSetCount >= 3) {
      assert g.regions[j] == BuildRegion(group.regions[j], t);
    }
    FilterCongruent(g.regions, IsCovered, (rc: RegionCoverage) => rc.workingSetCount >= 3);
  }
}

=== FILE: dashboard.dfy ===
/** DashboardViewModel: the aggregates on the home screen.  Calendar
    questions (is this instant today, which instant lies a given number of
    days back, do two instants fall on the same day, the instant a week
    ago) are parameters. */
module Dashboard {
  import opened Wrappers
  import opened Domain
  import opened Seqs
  import opened Numeric
  import opened WeeklyGoal
  import opened Insight
  import Stats

  /** The dashboard's fixed weekly session target. */
  const WeeklyTarget: int := 4

  // --------------------------------------------------------- today and week

  predicate StartedToday(isToday: Timestamp -> bool, s: WorkoutSession) {
    isToday(s.startedAt)
  }

  /** `todayVolume`: the total volume of the sessions that started today,
      so nothing when none did. */
  function TodayVolume(sessions: seq<WorkoutSession>, isToday: Timestamp -> bool): (r: real)
    ensures (forall i :: 0 <= i < |sessions| ==> !isToday(sessions[i].startedAt)) ==> r == 0.0
  {
    var today := Filter(sessions, (s: WorkoutSession) => StartedToday(isToday, s));
    assert |today| > 0 ==> today[0] in sessions;
    Sum(SessionVolumes(today))
  }

  lemma {:induction false} SessionVolumesAppend(a: seq<WorkoutSession>, b: seq<WorkoutSession>)
    ensures SessionVolumes(a + b) == SessionVolumes(a) + SessionVolumes(b)
  {
    if |a| > 0 {
      assert (a + b)[1..] == a[1..] + b;
      SessionVolumesAppend(a[1..], b);
    } else {
      assert a + b == b;
    }
  }

  /** One more session adds its volume exactly when it started today. */
  lemma TodayVolumeSnoc(sessions: seq<WorkoutSession>, s: WorkoutSession, isToday: Timestamp -> bool)
    ensures TodayVolume(sessions + [s], isToday) ==
            TodayVolume(sessions, isToday) + if isToday(s.startedAt) then Stats.TotalSessionVolume(s) else 0.0
  {
    var p := (x: WorkoutSession) => StartedToday(isToday, x);
    FilterAppend(sessions, [s], p);
    assert Filter([s], p) == if p(s) then [s] else [];
    SessionVolumesAppend(Filter(sessions, p), Filter([s], p));
    SumAppend(SessionVolumes(Filter(sessions, p)), SessionVolumes(Filter([s], p)));
  }

  /** `weeklyConsistency(from:)`: the week's count against the fixed
      target. */
  function DashboardConsistency(sessions: seq<WorkoutSession>, week: Option<Interval>): (c: ConsistencySummary)
    ensures c.target == WeeklyTarget
    ensures c.completed == CompletedSessionsThisWeek(sessions, week)
  {
    WeeklyConsistency(sessions, week, WeeklyTarget)
  }

  // ---------------------------------------------------- split distribution

  datatype SplitCount = SplitCount(name: string, count: nat)

  /** `workoutType?.name ?? "Unknown"`. */
  function SplitName(s: WorkoutSession): string {
    match s.workoutType
    case None => "Unknown"
    case Some(t) => t.name
  }

  function SplitNames(ss: seq<WorkoutSession>): (r: seq<string>)
    ensures |r| == |ss|
    ensures forall i :: 0 <= i < |ss| ==> r[i] == SplitName(ss[i])
  {
    if |ss| == 0 then [] else [SplitName(ss[0])] + SplitNames(ss[1..])
  }

  /** How many times `x` occurs in `names`. */
  function Occurrences(names: seq<string>, x: string): nat {
    if |names| == 0 then 0 else (if names[0] == x then 1 else 0) + Occurrences(names[1..], x)
  }

  function EntryName(e: SplitCount): string {
    e.name
  }

  function EntryCount(e: SplitCount): nat {
    e.count
  }

  /** The count stored under `name` (the first entry so named), zero when
      there is none. */
  function Lookup(es: seq<SplitCount>, name: string): nat {
    if |es| == 0 then 0 else if es[0].name == name then es[0].count else Lookup(es[1..], name)
  }

  predicate Named(es: seq<SplitCount>, name: string) {
    exists i :: 0 <= i < |es| && es[i].name == name
  }

  /** Counts one more `x`: its entry goes up by one, or an entry with count
      one is added at the end. */
  function Bump(x: string, es: seq<SplitCount>): (r: seq<SplitCount>)
    ensures SumOf(r, EntryCount) == SumOf(es, EntryCount) + 1
    ensures forall y :: Lookup(r, y) == Lookup(es, y) + if y == x then 1 else 0
    ensures forall y :: Named(r, y) <==> y == x || Named(es, y)
  {
    if |es| == 0 then
      [SplitCount(x, 1)]
    else if es[0].name == x then
      var r := [es[0].(count := es[0].count + 1)] + es[1..];
      assert forall i :: 0 < i < |r| ==> r[i] == es[i];
      assert r[0].name == es[0].name;
      r
    else
      var tail := Bump(x, es[1..]);
      var r := [es[0]] + tail;
      assert r[1..] == tail;
      assert forall y :: Named(r, y) <==> y == es[0].name || Named(tail, y) by {
        NamedCons(es[0], tail);
      }
      assert forall y :: Named(es, y) <==> y == es[0].name || Named(es[1..], y) by {
        assert es == [es[0]] + es[1..];
        NamedCons(es[0], es[1..]);
      }
      r
  }

  /** A name occurs in a sequence of counts with a given first entry exactly
      when it is that entry's or occurs in the rest. */
  lemma NamedCons(e: SplitCount, tail: seq<SplitCount>)
    ensures forall y :: Named([e] + tail, y) <==> y == e.name || Named(tail, y)
  {
    var r := [e] + tail;
    forall y ensures Named(r, y) <==> y == e.name || Named(tail, y) {
      if Named(r, y) {
        var i :| 0 <= i < |r| && r[i].name == y;
        if i > 0 {
          assert tail[i - 1].name == y;
        }
      }
      if Named(tail, y) {
        var i :| 0 <= i < |tail| && tail[i].name == y;
        assert r[i + 1].name == y;
      }
      assert r[0].name == e.name;
    }
  }

  /** Bumping keeps the names distinct. */
  lemma {:induction false} BumpDistinct(x: string, es: seq<SplitCount>)
    requires DistinctBy(es, EntryName)
    ensures DistinctBy(Bump(x, es), EntryName)
  {
    var r := Bump(x, es);
    if |es| > 0 && es[0].name == x {
      assert forall i :: 0 < i < |r| ==> r[i] == es[i];
    } else if |es| > 0 {
      var tail := es[1..];
      assert DistinctBy(tail, EntryName) by {
        forall i, j | 0 <= i < |tail| && 0 <= j < |tail| && tail[i].name == tail[j].name ensures i == j {
          assert es[i + 1].name == es[j + 1].name;
        }
      }
      BumpDistinct(x, tail);
      assert !Named(tail, es[0].name) by {
        forall i | 0 <= i < |tail| ensures tail[i].name != es[0].name {
          assert tail[i] == es[i + 1];
        }
      }
      assert forall i :: 0 < i < |r| ==> r[i] == Bump(x, tail)[i - 1];
      forall i | 0 < i < |r| ensures r[i].name != r[0].name {
        assert Named(Bump(x, tail), r[i].name);
      }
    }
  }

  /** `Dictionary(grouping:by:).mapValues(\.count)` as a list of entries:
      one entry per distinct name, holding how often it occurs. */
  function Group(names: seq<string>): (r: seq<SplitCount>)
    ensures SumOf(r, EntryCount) == |names|
    ensures forall y :: Lookup(r, y) == Occurrences(names, y)
    ensures forall y :: Named(r, y) <==> y in names
    ensures DistinctBy(r, EntryName)
  {
    if |names| == 0 then
      []
    else
      var rest := Group(names[1..]);
      BumpDistinct(names[0], rest);
      assert names == [names[0]] + names[1..];
      Bump(names[0], rest)
  }

  /** Under distinct names the lookup finds each entry's own count. */
  lemma {:induction false} LookupAt(es: seq<SplitCount>, i: nat)
    requires DistinctBy(es, EntryName) && i < |es|
    ensures Lookup(es, es[i].name) == es[i].count
  {
    if i > 0 {
      assert es[0].name != es[i].name;
      assert DistinctBy(es[1..], EntryName) by {
        forall a, b | 0 <= a < |es[1..]| && 0 <= b < |es[1..]| && es[1..][a].name == es[1..][b].name
          ensures a == b
        {
          assert es[a + 1].name == es[b + 1].name;
        }
      }
      LookupAt(es[1..], i - 1);
    }
  }

  lemma {:induction false} OccurrencesPositive(names: seq<string>, x: string)
    requires x in names
    ensures Occurrences(names, x) > 0
  {
    if names[0] != x {
      OccurrencesPositive(names[1..], x);
    }
  }

  /** Orders entries by count, larger first. */
  predicate CountNoLess(a: SplitCount, b: SplitCount) {
    a.count >= b.count
  }

  /** The most recent `limit` sessions, latest first. */
  function LatestSessions(sessions: seq<WorkoutSession>, limit: nat): (r: seq<WorkoutSession>)
    ensures |r| == MinInt(limit, |sessions|)
    ensures multiset(r) <= multiset(sessions)
  {
    var sorted := SortBy(sessions, StartedNoEarlier);
    var r := Prefix(sorted, limit);
    assert sorted == r + sorted[|r|..];
    r
  }

  /** `splitDistribution(from:limit:)`: how often each split was trained
      among the latest `limit` sessions, most frequent first, one entry per
      split name, sessions without a type counted as "Unknown". */
  function SplitDistribution(sessions: seq<WorkoutSession>, limit: nat): (r: seq<SplitCount>)
    ensures SortedBy(r, CountNoLess)
    ensures DistinctBy(r, EntryName)
    ensures SumOf(r, EntryCount) == MinInt(limit, |sessions|)
  {
    var names := SplitNames(LatestSessions(sessions, limit));
    var groups := Group(names);
    var r := SortBy(groups, CountNoLess);
    SortBySorted(groups, CountNoLess);
    DistinctByPermutation(groups, r, EntryName);
    SumOfPermutation(groups, r, EntryCount);
    r
  }

  /** Each entry counts the latest sessions of its split, and that count
      is positive. */
  lemma SplitDistributionCounts(sessions: seq<WorkoutSession>, limit: nat)
    ensures var names := SplitNames(LatestSessions(sessions, limit));
            var r := SplitDistribution(sessions, limit);
            forall i :: 0 <= i < |r| ==> r[i].count == Occurrences(names, r[i].name) > 0
  {
    var names := SplitNames(LatestSessions(sessions, limit));
    var groups := Group(names);
    var r := SplitDistribution(sessions, limit);
    forall i | 0 <= i < |r| ensures r[i].count == Occurrences(names, r[i].name) > 0 {
      assert r[i] in multiset(groups);
      var k :| 0 <= k < |groups| && groups[k] == r[i];
      LookupAt(groups, k);
      assert Named(groups, r[i].name);
      OccurrencesPositive(names, r[i].name);
    }
  }

  /** Every split among the latest sessions has an entry, and no other
      name does. */
  lemma SplitDistributionNames(sessions: seq<WorkoutSession>, limit: nat)
    ensures var names := SplitNames(LatestSessions(sessions, limit));
            forall y :: Named(SplitDistribution(sessions, limit), y) <==> y in names
  {
    var names := SplitNames(LatestSessions(sessions, limit));
    var groups := Group(names);
    var r := SplitDistribution(sessions, limit);
    forall y ensures Named(r, y) <==> Named(groups, y) {
      if Named(r, y) {
        var i :| 0 <= i < |r| && r[i].name == y;
        assert r[i] in multiset(groups);
      }
      if Named(groups, y) {
        var i :| 0 <= i < |groups| && groups[i].name == y;
        assert groups[i] in multiset(r);
      }
    }
  }

  /** The sessions counted are the latest: none left out started later
      than one counted. */
  lemma LatestSessionsAreLatest(sessions: seq<WorkoutSession>, limit: nat)
    ensures exists rest: seq<WorkoutSession> ::
              && multiset(LatestSessions(sessions, limit)) + multiset(rest) == multiset(sessions)
              && forall i, j :: 0 <= i < |LatestSessions(sessions, limit)| && 0 <= j < |rest| ==>
                   rest[j].startedAt <= LatestSessions(sessions, limit)[i].startedAt
  {
    SortedPrefixLeads(sessions, StartedNoEarlier, limit);
  }

  // ---------------------------------------------------------- strength trend

  /** A point of the strength chart: when the session started and its peak
      estimated one-rep maximum. */
  datatype TrendPoint = TrendPoint(date: Timestamp, value: real)

  function Estimates(sets: seq<LoggedSet>): (r: seq<real>)
    ensures |r| == |sets|
    ensures forall i :: 0 <= i < |sets| ==> r[i] == Stats.EstimatedOneRepMax(sets[i].weight, sets[i].reps)
  {
    if |sets| == 0 then [] else [Stats.EstimatedOneRepMax(sets[0].weight, sets[0].reps)] + Estimates(sets[1..])
  }

  /** The largest Epley estimate over the session's working sets, zero when
      it has none. */
  function PeakEstimate(s: WorkoutSession): (p: real)
    ensures var sets := Stats.WorkingSets(Stats.AllSets(s.loggedExercises));
            && (|sets| == 0 ==> p == 0.0)
            && (forall i :: 0 <= i < |sets| ==> Stats.EstimatedOneRepMax(sets[i].weight, sets[i].reps) <= p)
  {
    Max(Estimates(Stats.WorkingSets(Stats.AllSets(s.loggedExercises)))).GetOr(0.0)
  }

  /** The peak is zero without working sets; otherwise it is the estimate of
      one working set and no working set estimates higher. */
  lemma PeakEstimateIsMax(s: WorkoutSession)
    ensures var sets := Stats.WorkingSets(Stats.AllSets(s.loggedExercises));
            && (|sets| == 0 ==> PeakEstimate(s) == 0.0)
            && (|sets| > 0 ==>
                  exists i :: 0 <= i < |sets| && PeakEstimate(s) == Stats.EstimatedOneRepMax(sets[i].weight, sets[i].reps))
            && (forall i :: 0 <= i < |sets| ==> Stats.EstimatedOneRepMax(sets[i].weight, sets[i].reps) <= PeakEstimate(s))
  {
    var sets := Stats.WorkingSets(Stats.AllSets(s.loggedExercises));
    var m := Max(Estimates(sets));
    if m.Some? {
      var i :| 0 <= i < |sets| && Estimates(sets)[i] == m.value;
    }
  }

  function Points(ss: seq<WorkoutSession>): (r: seq<TrendPoint>)
    ensures |r| == |ss|
    ensures forall i :: 0 <= i < |ss| ==> r[i] == TrendPoint(ss[i].startedAt, PeakEstimate(ss[i]))
  {
    if |ss| == 0 then [] else [TrendPoint(ss[0].startedAt, PeakEstimate(ss[0]))] + Points(ss[1..])
  }

  /** The latest `limit` sessions, oldest first. */
  function TrendSessions(sessions: seq<WorkoutSession>, limit: nat): (r: seq<WorkoutSession>)
    ensures |r| == MinInt(limit, |sessions|)
    ensures SortedBy(r, StartedNoLater)
    ensures forall i :: 0 <= i < |r| ==> r[i] in sessions
  {
    SortedSuffix(sessions, StartedNoLater, limit);
    Suffix(SortBy(sessions, StartedNoLater), limit)
  }

  /** The sessions shown leave out none that started later than one shown. */
  lemma TrendSessionsAreLatest(sessions: seq<WorkoutSession>, limit: nat)
    ensures exists rest: seq<WorkoutSession> ::
              && multiset(rest) + multiset(TrendSessions(sessions, limit)) == multiset(sessions)
              && forall i, j :: 0 <= i < |rest| && 0 <= j < |TrendSessions(sessions, limit)| ==>
                   rest[i].startedAt <= TrendSessions(sessions, limit)[j].startedAt
  {
    SortedSuffixTrails(sessions, StartedNoLater, limit);
  }

  predicate DatesAscending(points: seq<TrendPoint>) {
    forall i, j :: 0 <= i < j < |points| ==> points[i].date <= points[j].date
  }

  /** `strengthTrend(from:limit:)`: one point for each of the latest `limit`
      sessions, oldest first; the i-th point is the date and peak of the i-th
      of `TrendSessions`. */
  function StrengthTrend(sessions: seq<WorkoutSession>, limit: nat): (r: seq<TrendPoint>)
    ensures |r| == MinInt(limit, |sessions|)
    ensures DatesAscending(r)
    ensures var latest := TrendSessions(sessions, limit);
            forall i :: 0 <= i < |r| ==> r[i] == TrendPoint(latest[i].startedAt, PeakEstimate(latest[i]))
  {
    var latest := TrendSessions(sessions, limit);
    PointsAscending(latest);
    Points(latest)
  }

  /** Sessions in start order give points in date order. */
  lemma PointsAscending(ss: seq<WorkoutSession>)
    requires SortedBy(ss, StartedNoLater)
    ensures DatesAscending(Points(ss))
  {
    var r := Points(ss);
    forall i, j | 0 <= i < j < |r| ensures r[i].date <= r[j].date {
      assert StartedNoLater(ss[i], ss[j]);
    }
  }

  // ---------------------------------------------------------- strength delta

  /** How many sessions the strength delta looks back over. */
  const DeltaWindow: nat := 20

  function Last<T>(s: seq<T>): (r: Option<T>)
    ensures r.None? <==> |s| == 0
    ensures r.Some? ==> r.value == s[|s| - 1]
  {
    if |s| == 0 then None else Some(s[|s| - 1])
  }

  function DropLast<T>(s: seq<T>): seq<T> {
    if |s| == 0 then [] else s[..|s| - 1]
  }

  predicate OnOrAfter(weekAgo: Timestamp, p: TrendPoint) {
    p.date >= weekAgo
  }

  function Since(weekAgo: Timestamp): TrendPoint -> bool {
    p => OnOrAfter(weekAgo, p)
  }

  /** `first(where: { $0.date < weekAgo })`. */
  function FirstBefore(points: seq<TrendPoint>, weekAgo: Timestamp): (r: Option<TrendPoint>)
    ensures r.None? <==> forall i :: 0 <= i < |points| ==> points[i].date >= weekAgo
    ensures r.Some? ==> exists i :: 0 <= i < |points| && points[i] == r.value && r.value.date < weekAgo &&
                          forall j :: 0 <= j < i ==> points[j].date >= weekAgo
  {
    if |points| == 0 then
      None
    else if points[0].date < weekAgo then
      Some(points[0])
    else
      var r := FirstBefore(points[1..], weekAgo);
      assert forall i :: 0 < i < |points| ==> points[i] == points[1..][i - 1];
      if r.Some? then
        var i :| 0 <= i < |points[1..]| && points[1..][i] == r.value && r.value.date < weekAgo &&
                 forall j :: 0 <= j < i ==> points[1..][j].date >= weekAgo;
        assert points[i + 1] == r.value;
        r
      else
        r
  }

  /** The value the week's change is measured against: the first point
      older than a week, else the next-to-last point, else `latest`. */
  function Baseline(points: seq<TrendPoint>, weekAgo: Timestamp, latest: real): real {
    match FirstBefore(points, weekAgo)
    case Some(p) => p.value
    case None =>
      match Last(DropLast(points))
      case Some(p) => p.value
      case None => latest
  }

  /** The change from `baseline` to `latest` in percent of the baseline;
      zero when the baseline is not positive. */
  function PercentChange(baseline: real, latest: real): (r: real)
    ensures baseline > 0.0 && latest > baseline ==> r > 0.0
    ensures baseline > 0.0 && latest < baseline ==> r < 0.0
    ensures latest == baseline || baseline <= 0.0 ==> r == 0.0
  {
    if baseline <= 0.0 then 0.0 else (latest - baseline) / baseline * 100.0
  }

  /** The week's change measured over points in date order. */
  function DeltaOf(points: seq<TrendPoint>, weekAgo: Timestamp): real {
    if |points| < 2 then
      0.0
    else
      match Last(Filter(points, Since(weekAgo)))
      case None => 0.0
      case Some(latest) =>
        var baseline := Baseline(points, weekAgo, latest.value);
        PercentChange(baseline, latest.value)
  }

  /** `strengthDeltaThisWeek(from:)`: the percentage change of the latest
      peak since the baseline over the last twenty sessions.  The instant a
      week ago is a parameter. */
  function StrengthDelta(sessions: seq<WorkoutSession>, weekAgo: Timestamp): real {
    DeltaOf(StrengthTrend(sessions, DeltaWindow), weekAgo)
  }

  /** On points in date order the delta compares the newest point with the
      oldest one when that is older than a week, otherwise with the
      next-to-newest one; it is zero with fewer than two points, when even
      the newest point is older than a week, and when the baseline is not
      positive. */
  lemma DeltaClosedForm(p: seq<TrendPoint>, weekAgo: Timestamp)
    requires DatesAscending(p)
    ensures var n := |p|;
            && (n < 2 ==> DeltaOf(p, weekAgo) == 0.0)
            && (n >= 2 && p[n - 1].date < weekAgo ==> DeltaOf(p, weekAgo) == 0.0)
            && (n >= 2 && p[n - 1].date >= weekAgo ==>
                  var base := if p[0].date < weekAgo then p[0].value else p[n - 2].value;
                  DeltaOf(p, weekAgo) == PercentChange(base, p[n - 1].value))
  {
    var n := |p|;
    if n >= 2 {
      LastRecentIsNewest(p, weekAgo);
      if p[n - 1].date >= weekAgo {
        var latest := p[n - 1].value;
        BaselineAscending(p, weekAgo, latest);
        var base := Baseline(p, weekAgo, latest);
      }
    }
  }

  /** The delta over sessions, in terms of the trend's oldest, next-to-newest
      and newest points. */
  lemma StrengthDeltaClosedForm(sessions: seq<WorkoutSession>, weekAgo: Timestamp)
    ensures var p := StrengthTrend(sessions, DeltaWindow);
            var n := |p|;
            && (n < 2 ==> StrengthDelta(sessions, weekAgo) == 0.0)
            && (n >= 2 && p[n - 1].date < weekAgo ==> StrengthDelta(sessions, weekAgo) == 0.0)
            && (n >= 2 && p[n - 1].date >= weekAgo ==>
                  var base := if p[0].date < weekAgo then p[0].value else p[n - 2].value;
                  StrengthDelta(sessions, weekAgo) == PercentChange(base, p[n - 1].value))
  {
    DeltaClosedForm(StrengthTrend(sessions, DeltaWindow), weekAgo);
  }

  /** In date order the baseline is the oldest point when that is older
      than a week, otherwise the next-to-newest point. */
  lemma BaselineAscending(p: seq<TrendPoint>, weekAgo: Timestamp, latest: real)
    requires DatesAscending(p) && |p| >= 2
    ensures Baseline(p, weekAgo, latest) == if p[0].date < weekAgo then p[0].value else p[|p| - 2].value
  {
    FirstBeforeIsOldest(p, weekAgo);
    assert Last(DropLast(p)) == Some(p[|p| - 2]);
  }

  /** In date order, the last point of the past week is the newest point,
      if that one is recent at all. */
  lemma LastRecentIsNewest(p: seq<TrendPoint>, weekAgo: Timestamp)
    requires DatesAscending(p) && |p| > 0
    ensures Last(Filter(p, Since(weekAgo))) ==
            if p[|p| - 1].date >= weekAgo then Some(p[|p| - 1]) else None
  {
    var n := |p|;
    if p[n - 1].date < weekAgo {
      assert forall i :: 0 <= i < n ==> p[i].date <= p[n - 1].date;
      FilterNone(p, Since(weekAgo));
    } else {
      FilterKeepsLast(p, Since(weekAgo));
    }
  }

  /** In date order, the first point older than a week is the oldest point,
      if that one is older at all. */
  lemma FirstBeforeIsOldest(p: seq<TrendPoint>, weekAgo: Timestamp)
    requires DatesAscending(p) && |p| > 0
    ensures FirstBefore(p, weekAgo) == if p[0].date < weekAgo then Some(p[0]) else None
  {
  }

  // ------------------------------------------------------- last seven days

  /** Whether some session started on the same day as `day`. */
  function TrainedOn(sessions: seq<WorkoutSession>, day: Timestamp, sameDay: (Timestamp, Timestamp) -> bool)
    : (b: bool)
    ensures b <==> exists k :: 0 <= k < |sessions| && sameDay(sessions[k].startedAt, day)
  {
    if |sessions| == 0 then
      false
    else
      assert forall k :: 0 < k < |sessions| ==> sessions[k] == sessions[1..][k - 1];
      sameDay(sessions[0].startedAt, day) || TrainedOn(sessions[1..], day, sameDay)
  }

  function DayFlag(sessions: seq<WorkoutSession>, day: Option<Timestamp>, sameDay: (Timestamp, Timestamp) -> bool)
    : bool
  {
    match day
    case None => false
    case Some(d) => TrainedOn(sessions, d, sameDay)
  }

  /** `consistencyLast7Days(from:)`: seven flags, six days ago first and
      today last, each set when some session started on that day.
      `dayBack(n)` is the calendar's date `n` days before now, absent when
      the calendar cannot produce it. */
  function ConsistencyLast7Days(sessions: seq<WorkoutSession>, dayBack: int -> Option<Timestamp>,
                                sameDay: (Timestamp, Timestamp) -> bool): (r: seq<bool>)
    ensures |r| == 7
    ensures forall i :: 0 <= i < 7 ==>
              (r[i] <==> dayBack(6 - i).Some? &&
                         exists k :: 0 <= k < |sessions| && sameDay(sessions[k].startedAt, dayBack(6 - i).value))
  {
    seq(7, i => DayFlag(sessions, dayBack(6 - i), sameDay))
  }

  /** Logging one more session sets the flag of the days it falls on and
      clears none. */
  lemma ConsistencyLast7DaysSnoc(sessions: seq<WorkoutSession>, s: WorkoutSession,
                                 dayBack: int -> Option<Timestamp>, sameDay: (Timestamp, Timestamp) -> bool)
    ensures var before := ConsistencyLast7Days(sessions, dayBack, sameDay);
            var after := ConsistencyLast7Days(sessions + [s], dayBack, sameDay);
            forall i :: 0 <= i < 7 ==>
              (after[i] <==> before[i] || (dayBack(6 - i).Some? && sameDay(s.startedAt, dayBack(6 - i).value)))
  {
    var grown := sessions + [s];
    assert forall k :: 0 <= k < |sessions| ==> grown[k] == sessions[k];
    assert grown[|sessions|] == s;
  }
}

=== FILE: domain.dfy ===
/** The persisted object graph of the app, transcribed as immutable values.
    Relationships that the persistence layer navigates in both directions are
    kept only in the owning direction: a session holds its logged exercises,
    a logged exercise holds its sets and the exercise it refers to, a group
    holds its regions, and a split holds the groups it targets. */
module Domain {
  import opened Wrappers

  /** Opaque identity (a UUID in the app). */
  type Uuid = nat

  /** A point in time, as whole seconds. */
  type Timestamp = int

  datatype ExerciseRole = Primary | Secondary

  datatype MuscleRegion = MuscleRegion(id: Uuid, name: string)

  datatype MuscleGroup = MuscleGroup(id: Uuid, name: string, regions: seq<MuscleRegion>)

  /** Links an exercise to a region it trains; the region may be missing. */
  datatype MuscleMap = MuscleMap(id: Uuid, role: ExerciseRole, muscleRegion: Option<MuscleRegion>)

  datatype Exercise = Exercise(
    id: Uuid,
    name: string,
    category: string,
    equipment: string,
    muscleMaps: seq<MuscleMap>)

  /** A split: the muscle groups it targets and the exercises it remembers. */
  datatype WorkoutType = WorkoutType(
    id: Uuid,
    name: string,
    includedMuscleGroups: seq<MuscleGroup>,
    templateExercises: seq<Exercise>)

  datatype LoggedSet = LoggedSet(
    id: Uuid,
    reps: int,
    weight: real,
    isWarmup: bool,
    createdAt: Timestamp)

  datatype LoggedExercise = LoggedExercise(
    id: Uuid,
    orderIndex: int,
    exercise: Option<Exercise>,
    sets: seq<LoggedSet>)

  /** A workout; `endedAt` is absent while it is still running. */
  datatype WorkoutSession = WorkoutSession(
    id: Uuid,
    startedAt: Timestamp,
    endedAt: Option<Timestamp>,
    notes: string,
    workoutType: Option<WorkoutType>,
    loggedExercises: seq<LoggedExercise>)

  /** The write-path rule every logged set satisfies: positive reps and a
      non-negative weight. */
  predicate ValidSet(s: LoggedSet) {
    s.reps > 0 && s.weight >= 0.0
  }

  /** Sessions ordered by start time (`$0.startedAt < $1.startedAt`). */
  predicate StartedNoLater(a: WorkoutSession, b: WorkoutSession) {
    a.startedAt <= b.startedAt
  }

  /** Sessions ordered newest first (`$0.startedAt > $1.startedAt`). */
  predicate StartedNoEarlier(a: WorkoutSession, b: WorkoutSession) {
    a.startedAt >= b.startedAt
  }
}

=== FILE: export_import.dfy ===
/** ExportImportService: the export bundle and its transfer objects, the
    export of sessions into a bundle and the import of a bundle back into
    sessions.  JSON encoding and decoding, the store and the clock are not
    modelled: export produces the bundle value, import consumes one, and the
    identities import invents for logged exercises and sets are parameters. */
module ExportImport {
  import opened Wrappers
  import opened Domain
  import opened Seqs

  /** The only bundle version this code writes and reads. */
  const SchemaVersion: int := 1

  /** The name written for a missing split or exercise. */
  const UnknownName: string := "Unknown"

  datatype LoggedSetDTO = LoggedSetDTO(reps: int, weight: real, isWarmup: bool, createdAt: Timestamp)

  datatype LoggedExerciseDTO = LoggedExerciseDTO(name: string, orderIndex: int, sets: seq<LoggedSetDTO>)

  datatype WorkoutSessionDTO = WorkoutSessionDTO(
    id: Uuid,
    startedAt: Timestamp,
    endedAt: Option<Timestamp>,
    notes: string,
    workoutTypeName: string,
    exercises: seq<LoggedExerciseDTO>)

  datatype WorkoutExportBundle = WorkoutExportBundle(
    schemaVersion: int,
    exportedAt: Timestamp,
    sessions: seq<WorkoutSessionDTO>)

  datatype ImportError = UnsupportedSchema(version: int)

  // ---------------------------------------------------------------- export

  function SetToDTO(s: LoggedSet): LoggedSetDTO {
    LoggedSetDTO(s.reps, s.weight, s.isWarmup, s.createdAt)
  }

  /** Logged exercises ordered by `orderIndex`. */
  predicate OrderNoGreater(a: LoggedExercise, b: LoggedExercise) {
    a.orderIndex <= b.orderIndex
  }

  lemma OrderTotal()
    ensures TotalPreorder(OrderNoGreater)
  {
  }

  function ExerciseToDTO(le: LoggedExercise): (d: LoggedExerciseDTO)
    ensures |d.sets| == |le.sets|
    ensures forall j :: 0 <= j < |d.sets| ==> d.sets[j] == SetToDTO(le.sets[j])
  {
    LoggedExerciseDTO(
      match le.exercise case Some(e) => e.name case None => UnknownName,
      le.orderIndex,
      seq(|le.sets|, j requires 0 <= j < |le.sets| => SetToDTO(le.sets[j])))
  }

  /** One session's transfer object: its logged exercises in `orderIndex`
      order, names instead of references. */
  function SessionToDTO(s: WorkoutSession): (d: WorkoutSessionDTO)
    ensures d.id == s.id && d.startedAt == s.startedAt && d.endedAt == s.endedAt && d.notes == s.notes
    ensures |d.exercises| == |s.loggedExercises|
    ensures forall i, j :: 0 <= i < j < |d.exercises| ==> d.exercises[i].orderIndex <= d.exercises[j].orderIndex
  {
    var ordered := SortBy(s.loggedExercises, OrderNoGreater);
    OrderTotal();
    SortBySorted(s.loggedExercises, OrderNoGreater);
    WorkoutSessionDTO(
      s.id, s.startedAt, s.endedAt, s.notes,
      match s.workoutType case Some(t) => t.name case None => UnknownName,
      seq(|ordered|, i requires 0 <= i < |ordered| => ExerciseToDTO(ordered[i])))
  }

  /** `exportData(from:)` before encoding: the current schema version, the
      export instant, one transfer object per session in order. */
  function ExportData(sessions: seq<WorkoutSession>, now: Timestamp): (b: WorkoutExportBundle)
    ensures b.schemaVersion == SchemaVersion && b.exportedAt == now
    ensures |b.sessions| == |sessions|
    ensures forall i :: 0 <= i < |sessions| ==> b.sessions[i] == SessionToDTO(sessions[i])
  {
    WorkoutExportBundle(SchemaVersion, now,
      seq(|sessions|, i requires 0 <= i < |sessions| => SessionToDTO(sessions[i])))
  }

  // ---------------------------------------------------------------- import

  function TypeName(t: WorkoutType): string {
    t.name
  }

  function ExerciseName(e: Exercise): string {
    e.name
  }

  /** `typeIndex[name]` and `exerciseIndex[name]`: the entry with that
      name. */
  function FindNamed<T>(s: seq<T>, nameOf: T -> string, name: string): (r: Option<T>)
    ensures r.None? <==> forall i :: 0 <= i < |s| ==> nameOf(s[i]) != name
    ensures r.Some? ==> r.value in s && nameOf(r.value) == name
  {
    if |s| == 0 then None
    else if nameOf(s[0]) == name then Some(s[0])
    else
      assert forall i :: 0 < i < |s| ==> s[i] == s[1..][i - 1];
      FindNamed(s[1..], nameOf, name)
  }

  function ImportSet(d: LoggedSetDTO, id: Uuid): LoggedSet {
    LoggedSet(id, d.reps, d.weight, d.isWarmup, d.createdAt)
  }

  function ImportExercise(d: LoggedExerciseDTO, exercises: seq<Exercise>, id: Uuid, setId: nat -> Uuid)
    : (le: LoggedExercise)
    ensures |le.sets| == |d.sets|
    ensures forall j :: 0 <= j < |d.sets| ==> le.sets[j] == ImportSet(d.sets[j], setId(j))
  {
    LoggedExercise(id, d.orderIndex, FindNamed(exercises, ExerciseName, d.name),
      seq(|d.sets|, j requires 0 <= j < |d.sets| => ImportSet(d.sets[j], setId(j))))
  }

  /** One imported session: identity, dates and notes as exported, the
      split and exercises looked up by name, the logged exercises in bundle
      order.  `loggedId(i)` and `setId(i, j)` are the identities invented for
      the i-th logged exercise and its j-th set. */
  function ImportSession(d: WorkoutSessionDTO, types: seq<WorkoutType>, exercises: seq<Exercise>,
                         loggedId: nat -> Uuid, setId: (nat, nat) -> Uuid): (s: WorkoutSession)
    ensures s.id == d.id && s.startedAt == d.startedAt && s.endedAt == d.endedAt && s.notes == d.notes
    ensures s.workoutType == FindNamed(types, TypeName, d.workoutTypeName)
    ensures |s.loggedExercises| == |d.exercises|
    ensures forall i :: 0 <= i < |d.exercises| ==>
              s.loggedExercises[i] == ImportExercise(d.exercises[i], exercises, loggedId(i), j => setId(i, j))
  {
    WorkoutSession(d.id, d.startedAt, d.endedAt, d.notes, FindNamed(types, TypeName, d.workoutTypeName),
      seq(|d.exercises|, i requires 0 <= i < |d.exercises| =>
        ImportExercise(d.exercises[i], exercises, loggedId(i), j => setId(i, j))))
  }

  /** `importData(_:into:…)` after decoding: a bundle of another schema
      version is refused; otherwise one new session per transfer object, in
      bundle order.  The source builds its name indexes with
      `Dictionary(uniqueKeysWithValues:)`, which stops the program on a
      repeated name, so the names must be distinct. */
  function ImportData(bundle: WorkoutExportBundle, types: seq<WorkoutType>, exercises: seq<Exercise>,
                      loggedId: (nat, nat) -> Uuid, setId: (nat, nat, nat) -> Uuid)
    : (r: Result<seq<WorkoutSession>, ImportError>)
    requires DistinctBy(types, TypeName) && DistinctBy(exercises, ExerciseName)
    ensures r.Err? <==> bundle.schemaVersion != SchemaVersion
    ensures r.Err? ==> r.error == UnsupportedSchema(bundle.schemaVersion)
    ensures r.Ok? ==> |r.value| == |bundle.sessions|
    ensures r.Ok? ==> forall k :: 0 <= k < |bundle.sessions| ==>
              r.value[k] == ImportSession(bundle.sessions[k], types, exercises,
                                          i => loggedId(k, i), (i, j) => setId(k, i, j))
  {
    if bundle.schemaVersion != SchemaVersion then
      Err(UnsupportedSchema(bundle.schemaVersion))
    else
      Ok(seq(|bundle.sessions|, k requires 0 <= k < |bundle.sessions| =>
        ImportSession(bundle.sessions[k], types, exercises, i => loggedId(k, i), (i, j) => setId(k, i, j))))
  }

  // ------------------------------------------------------------ round trip

  /** A session with the identities of its logged exercises and sets
      erased: what survives an export and re-import. */
  function Anonymous(s: WorkoutSession): WorkoutSession {
    s.(loggedExercises := seq(|s.loggedExercises|, i requires 0 <= i < |s.loggedExercises| =>
      AnonymousLogged(s.loggedExercises[i])))
  }

  /** A logged exercise with its own and its sets' identities blanked. */
  function AnonymousLogged(le: LoggedExercise): LoggedExercise {
    le.(id := 0, sets := seq(|le.sets|, j requires 0 <= j < |le.sets| => le.sets[j].(id := 0)))
  }

  /** A session whose split and exercises are all among the available ones
      and whose logged exercises are already in `orderIndex` order. */
  ghost predicate Restorable(s: WorkoutSession, types: seq<WorkoutType>, exercises: seq<Exercise>) {
    && s.workoutType.Some? && s.workoutType.value in types
    && (forall i :: 0 <= i < |s.loggedExercises| ==>
          s.loggedExercises[i].exercise.Some? && s.loggedExercises[i].exercise.value in exercises)
    && SortedBy(s.loggedExercises, OrderNoGreater)
  }

  /** With distinct names, looking up a member's name finds that member. */
  lemma FindNamedDistinct<T>(s: seq<T>, nameOf: T -> string, x: T)
    requires DistinctBy(s, nameOf) && x in s
    ensures FindNamed(s, nameOf, nameOf(x)) == Some(x)
  {
    var r := FindNamed(s, nameOf, nameOf(x));
    DistinctKeysOfMembers(s, nameOf, r.value, x);
  }

  /** Exporting one logged exercise and importing it again gives it back,
      up to the identities invented for it and its sets. */
  lemma LoggedRoundTrip(le: LoggedExercise, exercises: seq<Exercise>, id: Uuid, setId: nat -> Uuid)
    requires DistinctBy(exercises, ExerciseName)
    requires le.exercise.Some? && le.exercise.value in exercises
    ensures AnonymousLogged(ImportExercise(ExerciseToDTO(le), exercises, id, setId)) == AnonymousLogged(le)
  {
    FindNamedDistinct(exercises, ExerciseName, le.exercise.value);
    var d := ExerciseToDTO(le);
    var back := ImportExercise(d, exercises, id, setId);
    assert back.exercise == le.exercise;
    forall j | 0 <= j < |back.sets| ensures back.sets[j].(id := 0) == le.sets[j].(id := 0) {
      assert back.sets[j] == ImportSet(d.sets[j], setId(j));
    }
  }

  /** Exporting one session and importing it again gives the session back,
      up to the identities invented for its logged exercises and sets. */
  lemma SessionRoundTrip(s: WorkoutSession, types: seq<WorkoutType>, exercises: seq<Exercise>,
                         loggedId: nat -> Uuid, setId: (nat, nat) -> Uuid)
    requires DistinctBy(types, TypeName) && DistinctBy(exercises, ExerciseName)
    requires Restorable(s, types, exercises)
    ensures Anonymous(ImportSession(SessionToDTO(s), types, exercises, loggedId, setId)) == Anonymous(s)
  {
    var les := s.loggedExercises;
    SortBySortedIsIdentity(les, OrderNoGreater);
    FindNamedDistinct(types, TypeName, s.workoutType.value);
    var back := ImportSession(SessionToDTO(s), types, exercises, loggedId, setId);
    assert back.workoutType == s.workoutType;
    forall i | 0 <= i < |les|
      ensures Anonymous(back).loggedExercises[i] == Anonymous(s).loggedExercises[i]
    {
      assert SessionToDTO(s).exercises[i] == ExerciseToDTO(les[i]);
      LoggedRoundTrip(les[i], exercises, loggedId(i), j => setId(i, j));
    }
  }

  /** Exporting sessions and importing the bundle gives the sessions back,
      up to invented identities. */
  lemma RoundTrip(sessions: seq<WorkoutSession>, now: Timestamp, types: seq<WorkoutType>, exercises: seq<Exercise>,
                  loggedId: (nat, nat) -> Uuid, setId: (nat, nat, nat) -> Uuid)
    requires DistinctBy(types, TypeName) && DistinctBy(exercises, ExerciseName)
    requires forall k :: 0 <= k < |sessions| ==> Restorable(sessions[k], types, exercises)
    ensures var r := ImportData(ExportData(sessions, now), types, exercises, loggedId, setId);
            && r.Ok? && |r.value| == |sessions|
            && forall k :: 0 <= k < |sessions| ==> Anonymous(r.value[k]) == Anonymous(sessions[k])
  {
    var r := ImportData(ExportData(sessions, now), types, exercises, loggedId, setId);
    forall k | 0 <= k < |sessions| ensures Anonymous(r.value[k]) == Anonymous(sessions[k]) {
      SessionRoundTrip(sessions[k], types, exercises, i => loggedId(k, i), (i, j) => setId(k, i, j));
    }
  }

  /** A bundle of any other version is refused whatever it holds. */
  lemma OtherVersionRefused(bundle: WorkoutExportBundle, types: seq<WorkoutType>, exercises: seq<Exercise>,
                            loggedId: (nat, nat) -> Uuid, setId: (nat, nat, nat) -> Uuid)
    requires DistinctBy(types, TypeName) && DistinctBy(exercises, ExerciseName)
    requires bundle.schemaVersion != SchemaVersion
    ensures ImportData(bundle, types, exercises, loggedId, setId) == Err(UnsupportedSchema(bundle.schemaVersion))
  {
  }
}

=== FILE: history_view.dfy ===
/** The pure helpers of the history calendar: how strongly a day is shaded,
    how many days of the displayed month saw a workout, and the duration
    label shown for a finished session.  The calendar itself (which month a
    moment falls in, where its day starts) is passed in as functions. */
module HistoryView {
  import opened Wrappers
  import opened Domain
  import opened Text
  import opened Seqs
  import opened Numeric

  // ------------------------------------------------------------ day shading

  predicate StartsOnDay(dayOf: Timestamp -> Timestamp, day: Timestamp, s: WorkoutSession) {
    dayOf(s.startedAt) == day
  }

  function StartsOn(dayOf: Timestamp -> Timestamp, day: Timestamp): WorkoutSession -> bool {
    s => StartsOnDay(dayOf, day, s)
  }

  /** The shading of a day cell: a third per session started that day, full
      from three sessions on. */
  function Intensity(count: nat): (r: real)
    ensures 0.0 <= r <= 1.0
    ensures r == 1.0 <==> count >= 3
    ensures r == 0.0 <==> count == 0
  {
    Min(1.0, count as real / 3.0)
  }

  /** More sessions never shade a day lighter. */
  lemma IntensityMonotone(a: nat, b: nat)
    requires a <= b
    ensures Intensity(a) <= Intensity(b)
  {
  }

  /** The shading of the cell for `day`: the sessions grouped under that
      day's start, none when the day has no group. */
  function DayIntensity(sessions: seq<WorkoutSession>, dayOf: Timestamp -> Timestamp, day: Timestamp): (r: real)
    ensures 0.0 <= r <= 1.0
    ensures r == 1.0 <==> Count(sessions, StartsOn(dayOf, day)) >= 3
  {
    Intensity(Count(sessions, StartsOn(dayOf, day)))
  }

  /** A day is shaded exactly when some session started on it. */
  lemma DayShadedIffSession(sessions: seq<WorkoutSession>, dayOf: Timestamp -> Timestamp, day: Timestamp)
    ensures DayIntensity(sessions, dayOf, day) > 0.0 <==>
              exists i :: 0 <= i < |sessions| && dayOf(sessions[i].startedAt) == day
  {
    CountNone(sessions, StartsOn(dayOf, day));
  }

  // ------------------------------------------------------------ active days

  predicate StartsIn(inMonth: Timestamp -> bool, s: WorkoutSession) {
    inMonth(s.startedAt)
  }

  function InMonth(inMonth: Timestamp -> bool): WorkoutSession -> bool {
    s => StartsIn(inMonth, s)
  }

  /** The distinct start-of-day values of the sessions. */
  function Days(ms: seq<WorkoutSession>, dayOf: Timestamp -> Timestamp): (r: set<Timestamp>)
    ensures |r| <= |ms|
    ensures forall d :: d in r <==> exists i :: 0 <= i < |ms| && dayOf(ms[i].startedAt) == d
  {
    if |ms| == 0 then
      {}
    else
      var n := |ms| - 1;
      var rest := Days(ms[..n], dayOf);
      var d := dayOf(ms[n].startedAt);
      assert forall i :: 0 <= i < n ==> ms[..n][i] == ms[i];
      assert |rest + {d}| <= |rest| + 1;
      rest + {d}
  }

  /** `activeDaysInDisplayedMonth`: the number of distinct days on which a
      session of the displayed month started. */
  function ActiveDays(sessions: seq<WorkoutSession>, inMonth: Timestamp -> bool, dayOf: Timestamp -> Timestamp)
    : (n: nat)
    ensures n <= Count(sessions, InMonth(inMonth))
    ensures n == 0 <==> Count(sessions, InMonth(inMonth)) == 0
  {
    var ms := Filter(sessions, InMonth(inMonth));
    var days := Days(ms, dayOf);
    assert |ms| > 0 ==> dayOf(ms[0].startedAt) in days;
    |days|
  }

  /** Every day counted as active is shaded in the calendar. */
  lemma ActiveDaysAreShaded(sessions: seq<WorkoutSession>, inMonth: Timestamp -> bool,
                            dayOf: Timestamp -> Timestamp, day: Timestamp)
    requires day in Days(Filter(sessions, InMonth(inMonth)), dayOf)
    ensures DayIntensity(sessions, dayOf, day) > 0.0
  {
    var ms := Filter(sessions, InMonth(inMonth));
    var i :| 0 <= i < |ms| && dayOf(ms[i].startedAt) == day;
    var j :| 0 <= j < |sessions| && sessions[j] == ms[i];
    DayShadedIffSession(sessions, dayOf, day);
  }

  // -------------------------------------------------------- duration label

  /** The whole minutes a finished session lasted, truncated toward zero. */
  function ElapsedMinutes(s: WorkoutSession): int
    requires s.endedAt.Some?
  {
    TruncDiv(s.endedAt.value - s.startedAt, 60)
  }

  /** `sessionDuration`: nothing while the session runs; under an hour,
      "<m> min"; otherwise whole hours, followed by the minutes left over
      when there are any. */
  function SessionDuration(s: WorkoutSession): (r: Option<string>)
    ensures r.None? <==> s.endedAt.None?
  {
    match s.endedAt
    case None => None
    case Some(endedAt) =>
      var minutes := TruncDiv(endedAt - s.startedAt, 60);
      if minutes < 60 then
        Some(IntToString(minutes) + " min")
      else
        var hours := TruncDiv(minutes, 60);
        var rem := TruncMod(minutes, 60);
        Some(if rem == 0 then IntToString(hours) + "h" else IntToString(hours) + "h " + IntToString(rem) + "m")
  }

  /** The position of the first `c` in `t`. */
  function IndexOf(t: string, c: char): (r: Option<nat>)
    ensures r.Some? ==> r.value < |t| && t[r.value] == c && forall j :: 0 <= j < r.value ==> t[j] != c
    ensures r.None? ==> forall j :: 0 <= j < |t| ==> t[j] != c
  {
    if |t| == 0 then None
    else if t[0] == c then Some(0)
    else match IndexOf(t[1..], c)
      case Some(k) => Some(k + 1)
      case None => None
  }

  /** Reads a duration label back into minutes. */
  function ParseDuration(t: string): Option<int> {
    if |t| >= 4 && t[|t| - 4..] == " min" then
      ParseInt(t[..|t| - 4])
    else if |t| >= 1 && t[|t| - 1] == 'h' then
      match ParseInt(t[..|t| - 1])
      case Some(h) => Some(60 * h)
      case None => None
    else if |t| >= 1 && t[|t| - 1] == 'm' then
      match IndexOf(t, 'h')
      case Some(i) =>
        if i + 2 <= |t| - 1 && t[i + 1] == ' ' then
          match (ParseInt(t[..i]), ParseInt(t[i + 2..|t| - 1]))
          case (Some(h), Some(m)) => Some(60 * h + m)
          case _ => None
        else
          None
      case None => None
    else
      None
  }

  lemma MinutesLabelRoundTrip(m: int)
    ensures ParseDuration(IntToString(m) + " min") == Some(m)
  {
    var t := IntToString(m) + " min";
    assert t[|t| - 4..] == " min";
    assert t[..|t| - 4] == IntToString(m);
    IntToStringRoundTrip(m);
  }

  lemma HoursLabelRoundTrip(h: nat)
    ensures ParseDuration(IntToString(h) + "h") == Some(60 * h)
  {
    var t := IntToString(h) + "h";
    assert t[|t| - 1] == 'h';
    assert t[..|t| - 1] == IntToString(h);
    IntToStringRoundTrip(h);
  }

  lemma HoursMinutesLabelRoundTrip(h: nat, m: nat)
    ensures ParseDuration(IntToString(h) + "h " + IntToString(m) + "m") == Some(60 * h + m)
  {
    IntToStringRoundTrip(h);
    IntToStringRoundTrip(m);
    HoursMinutesShape(IntToString(h), IntToString(m));
  }

  /** A label made of digits, "h ", some text and "m" reads back as the
      hours and the minutes that the two parts read as. */
  lemma HoursMinutesShape(hs: string, ms: string)
    requires AllDigits(hs)
    ensures ParseDuration(hs + "h " + ms + "m") ==
              match (ParseInt(hs), ParseInt(ms))
              case (Some(h), Some(m)) => Some(60 * h + m)
              case _ => None
  {
    var t := hs + "h " + ms + "m";
    assert t[|t| - 1] == 'm';
    assert !(|t| >= 4 && t[|t| - 4..] == " min") by {
      assert |t| >= 4 ==> t[|t| - 4..][3] == 'm';
    }
    assert IndexOf(t, 'h') == Some(|hs|) by {
      assert t == hs + ("h " + ms + "m");
      HourMarkAfterDigits(hs, "h " + ms + "m");
    }
    assert t[|hs| + 1] == ' ';
    assert t[..|hs|] == hs;
    assert t[|hs| + 2..|t| - 1] == ms;
  }

  /** The first 'h' after a run of digits is the one that follows them. */
  lemma HourMarkAfterDigits(hs: string, rest: string)
    requires AllDigits(hs)
    requires |rest| > 0 && rest[0] == 'h'
    ensures IndexOf(hs + rest, 'h') == Some(|hs|)
  {
    var t := hs + rest;
    assert t[|hs|] == 'h';
    assert forall j :: 0 <= j < |hs| ==> t[j] == hs[j] && IsDigit(hs[j]);
  }

  /** Reading a finished session's label back gives the minutes it lasted:
      under an hour the minutes themselves (negative when the clock ran
      backwards), otherwise hours and a remainder that recombine to them. */
  lemma {:induction false} DurationRoundTrip(s: WorkoutSession)
    requires s.endedAt.Some?
    ensures ParseDuration(SessionDuration(s).value) == Some(ElapsedMinutes(s))
  {
    var minutes := ElapsedMinutes(s);
    if minutes < 60 {
      MinutesLabelRoundTrip(minutes);
    } else {
      TruncDivMod(minutes, 60);
      var hours := TruncDiv(minutes, 60);
      var rem := TruncMod(minutes, 60);
      if rem == 0 {
        HoursLabelRoundTrip(hours);
      } else {
        HoursMinutesLabelRoundTrip(hours, rem);
      }
    }
  }

  /** Two finished sessions carry the same label exactly when they lasted
      the same number of whole minutes. */
  lemma SameLabelSameMinutes(a: WorkoutSession, b: WorkoutSession)
    requires a.endedAt.Some? && b.endedAt.Some?
    ensures SessionDuration(a) == SessionDuration(b) <==> ElapsedMinutes(a) == ElapsedMinutes(b)
  {
    DurationRoundTrip(a);
    DurationRoundTrip(b);
  }
}

=== FILE: insight.dfy ===
/** InsightEngine: the weekly consistency summary and the rule-based tips
    shown on the insights screen.  A tip is a variant carrying the numbers
    its message interpolates; the message wording is left to `Title`. */
module Insight {
  import opened Wrappers
  import opened Domain
  import opened Seqs
  import opened Numeric
  import opened WeeklyGoal
  import Stats

  datatype ConsistencySummary = ConsistencySummary(completed: int, target: int)

  /** `WeeklyConsistencySummary.progress`: zero without a positive target,
      otherwise the completed fraction capped at one. */
  function Progress(c: ConsistencySummary): (p: real)
    ensures c.target <= 0 ==> p == 0.0
    ensures c.target > 0 && c.completed >= 0 ==> 0.0 <= p <= 1.0
    ensures c.target > 0 ==> (p == 1.0 <==> c.completed >= c.target)
    ensures c.target > 0 && c.completed < c.target ==> p * c.target as real == c.completed as real
  {
    if c.target <= 0 then 0.0 else Min(1.0, c.completed as real / c.target as real)
  }

  /** The target `weeklyConsistency` uses unless told otherwise. */
  const DefaultTarget: int := 4

  /** `weeklyConsistency`: the target as given, and the count of sessions
      that started in `week`. */
  function WeeklyConsistency(sessions: seq<WorkoutSession>, week: Option<Interval>, target: int)
    : (c: ConsistencySummary)
    ensures c.target == target
    ensures c.completed == CompletedSessionsThisWeek(sessions, week)
    ensures 0 <= c.completed <= |sessions|
  {
    ConsistencySummary(CompletedSessionsThisWeek(sessions, week), target)
  }

  datatype Tip =
    | StartBaseline
    | ConsistencyOpportunity(completed: int, target: int)
    | ConsistencyStrong
    | VolumeTrend(roundedAverage: int)
    | SessionHygiene

  function Title(t: Tip): string {
    match t
    case StartBaseline => "Start Your Baseline"
    case ConsistencyOpportunity(_, _) => "Consistency Opportunity"
    case ConsistencyStrong => "Consistency Strong"
    case VolumeTrend(_) => "Volume Trend"
    case SessionHygiene => "Session Hygiene"
  }

  /** Where a tip of each kind stands in the list. */
  function Rank(t: Tip): nat {
    match t
    case VolumeTrend(_) => 1
    case SessionHygiene => 2
    case _ => 0
  }

  /** `map(StatsEngine.totalSessionVolume)`. */
  function SessionVolumes(ss: seq<WorkoutSession>): (r: seq<real>)
    ensures |r| == |ss|
    ensures forall i :: 0 <= i < |ss| ==> r[i] == Stats.TotalSessionVolume(ss[i])
  {
    if |ss| == 0 then [] else [Stats.TotalSessionVolume(ss[0])] + SessionVolumes(ss[1..])
  }

  /** The (at most) four latest sessions, oldest first. */
  function RecentSessions(sessions: seq<WorkoutSession>): (r: seq<WorkoutSession>)
    ensures |r| == if |sessions| < 4 then |sessions| else 4
    ensures SortedBy(r, StartedNoLater)
    ensures forall i :: 0 <= i < |r| ==> r[i] in sessions
  {
    SortedSuffix(sessions, StartedNoLater, 4);
    Suffix(SortBy(sessions, StartedNoLater), 4)
  }

  /** The recent sessions are the latest ones: every other session started
      no later than any of them. */
  lemma RecentAreLatest(sessions: seq<WorkoutSession>)
    ensures exists older: seq<WorkoutSession> ::
              && multiset(older) + multiset(RecentSessions(sessions)) == multiset(sessions)
              && forall i, j :: 0 <= i < |older| && 0 <= j < |RecentSessions(sessions)| ==>
                   older[i].startedAt <= RecentSessions(sessions)[j].startedAt
  {
    SortedSuffixTrails(sessions, StartedNoLater, 4);
  }

  /** The recent volumes add up to no less than zero when no session's
      volume is negative. */
  lemma RecentVolumeNonNegative(sessions: seq<WorkoutSession>)
    ensures (forall k :: 0 <= k < |sessions| ==> Stats.TotalSessionVolume(sessions[k]) >= 0.0) ==>
              Sum(SessionVolumes(RecentSessions(sessions))) >= 0.0
  {
    var recent := RecentSessions(sessions);
    var volumes := SessionVolumes(recent);
    if forall k :: 0 <= k < |sessions| ==> Stats.TotalSessionVolume(sessions[k]) >= 0.0 {
      forall i | 0 <= i < |volumes| ensures 0.0 <= volumes[i] {
        var k :| 0 <= k < |sessions| && sessions[k] == recent[i];
      }
      SumNonNegative(volumes);
    }
  }

  /** The mean session volume of the recent sessions: spread evenly over
      them it gives their total volume. */
  function RecentAverageVolume(sessions: seq<WorkoutSession>): (v: real)
    requires |sessions| > 0
    ensures var volumes := SessionVolumes(RecentSessions(sessions));
            1 <= |volumes| <= 4 && MeanOf(v, volumes)
    ensures (forall k :: 0 <= k < |sessions| ==> Stats.TotalSessionVolume(sessions[k]) >= 0.0) ==> v >= 0.0
  {
    RecentVolumeNonNegative(sessions);
    Mean(SessionVolumes(RecentSessions(sessions)))
  }

  /** `m` spread evenly over the list gives its total. */
  predicate MeanOf(m: real, xs: seq<real>) {
    m * |xs| as real == Sum(xs)
  }

  /** The arithmetic mean of a non-empty list. */
  function Mean(xs: seq<real>): (m: real)
    requires |xs| > 0
    ensures MeanOf(m, xs)
    ensures Sum(xs) >= 0.0 ==> m >= 0.0
  {
    QuotientNonNegative(Sum(xs), |xs| as real);
    Sum(xs) / |xs| as real
  }

  predicate IsEnded(s: WorkoutSession) {
    s.endedAt.Some?
  }

  /** Fewer sessions have ended than exist: some session is still running. */
  function SomeStillRunning(sessions: seq<WorkoutSession>): (b: bool)
    ensures b <==> exists k :: 0 <= k < |sessions| && sessions[k].endedAt.None?
  {
    CountAll(sessions, IsEnded);
    Count(sessions, IsEnded) < |sessions|
  }

  /** The first tip: an opportunity while the count is below the target,
      reporting the count against the target, otherwise strong. */
  function ConsistencyTip(c: ConsistencySummary): (t: Tip)
    ensures Rank(t) == 0
    ensures t.ConsistencyOpportunity? <==> c.completed < c.target
    ensures c.completed < c.target ==>
              Title(t) == "Consistency Opportunity" && t == ConsistencyOpportunity(c.completed, c.target)
    ensures c.target <= c.completed ==> Title(t) == "Consistency Strong" && t == ConsistencyStrong
  {
    if c.completed < c.target then ConsistencyOpportunity(c.completed, c.target) else ConsistencyStrong
  }

  /** `tips(from:)`.  With no sessions, only the baseline tip.  Otherwise a
      consistency tip first, then possibly a volume tip, then possibly a
      hygiene tip: one to three tips in that fixed order. */
  function Tips(sessions: seq<WorkoutSession>, week: Option<Interval>): (r: seq<Tip>)
    ensures |sessions| == 0 ==> r == [StartBaseline]
    ensures |sessions| > 0 ==> 1 <= |r| <= 3
    ensures |sessions| > 0 ==> r[0] == ConsistencyTip(WeeklyConsistency(sessions, week, DefaultTarget))
    ensures forall i, j :: 0 <= i < j < |r| ==> Rank(r[i]) < Rank(r[j])
  {
    if |sessions| == 0 then
      [StartBaseline]
    else
      var average := RecentAverageVolume(sessions);
      Assemble(ConsistencyTip(WeeklyConsistency(sessions, week, DefaultTarget)), VolumeOf(average),
               SomeStillRunning(sessions))
  }

  /** The average a volume tip reports: the rounded mean, when positive. */
  function VolumeOf(average: real): (v: Option<int>)
    ensures v.Some? <==> average > 0.0
    ensures v.Some? ==> v.value == RoundHalfAway(average)
  {
    if average > 0.0 then Some(RoundHalfAway(average)) else None
  }

  /** The volume tip appears exactly when the recent mean volume is
      positive and reports that mean rounded; the hygiene tip appears
      exactly when some session is still running. */
  lemma TipsVolumeAndHygiene(sessions: seq<WorkoutSession>, week: Option<Interval>)
    requires |sessions| > 0
    ensures var r := Tips(sessions, week);
            && ((exists i :: 0 <= i < |r| && r[i].VolumeTrend?) <==> RecentAverageVolume(sessions) > 0.0)
            && (forall i :: 0 <= i < |r| && r[i].VolumeTrend? ==>
                  r[i].roundedAverage == RoundHalfAway(RecentAverageVolume(sessions)))
            && ((exists i :: 0 <= i < |r| && r[i] == SessionHygiene) <==>
                exists k :: 0 <= k < |sessions| && sessions[k].endedAt.None?)
  {
    var volume := VolumeOf(RecentAverageVolume(sessions));
    var r := Tips(sessions, week);
    assert r == Assemble(ConsistencyTip(WeeklyConsistency(sessions, week, DefaultTarget)), volume,
                         SomeStillRunning(sessions));
  }

  /** The consistency tip, then the volume tip when there is an average to
      report, then the hygiene tip when asked for. */
  function Assemble(first: Tip, average: Option<int>, hygiene: bool): (r: seq<Tip>)
    requires Rank(first) == 0
    ensures 1 <= |r| <= 3 && r[0] == first
    ensures (exists i :: 0 <= i < |r| && r[i].VolumeTrend?) <==> average.Some?
    ensures forall i :: 0 <= i < |r| && r[i].VolumeTrend? ==> average == Some(r[i].roundedAverage)
    ensures (exists i :: 0 <= i < |r| && r[i] == SessionHygiene) <==> hygiene
    ensures forall i, j :: 0 <= i < j < |r| ==> Rank(r[i]) < Rank(r[j])
  {
    var volume := match average
      case Some(a) => [VolumeTrend(a)]
      case None => [];
    var r := [first] + volume + if hygiene then [SessionHygiene] else [];
    assert average.Some? ==> r[1].VolumeTrend?;
    assert hygiene ==> r[|r| - 1] == SessionHygiene;
    r
  }

  /** With no history the single tip is the baseline one. */
  /** With some history, the list opens with "Consistency Strong" exactly
      when four sessions started this week, and otherwise with the
      opportunity reporting the week's count against four. */
  lemma TipsOpenWithWeek(sessions: seq<WorkoutSession>, week: Option<Interval>)
    requires |sessions| > 0
    ensures var n := CompletedSessionsThisWeek(sessions, week);
            && (Title(Tips(sessions, week)[0]) == "Consistency Strong" <==> n >= 4)
            && (n < 4 ==> Tips(sessions, week)[0] == ConsistencyOpportunity(n, 4))
  {
  }

  lemma NoHistoryStartsBaseline(week: Option<Interval>)
    ensures |Tips([], week)| == 1
    ensures Title(Tips([], week)[0]) == "Start Your Baseline"
  {
  }
}

=== FILE: numeric.dfy ===
/** Arithmetic the source takes from Swift's standard library: `min`, `max`,
    `Double.rounded()`, whose default rule sends halves away from zero, and
    `Int` division, which truncates toward zero. */
module Numeric {

  function Min(a: real, b: real): real {
    if a <= b then a else b
  }

  function MinInt(a: int, b: int): int {
    if a <= b then a else b
  }

  function MaxInt(a: int, b: int): int {
    if a >= b then a else b
  }

  /** `x.rounded()`: the integer nearest `x`; of two equally near, the one
      farther from zero. */
  function RoundHalfAway(x: real): (r: int)
    ensures x - 0.5 <= r as real <= x + 0.5
    ensures r as real == x + 0.5 ==> x > 0.0
    ensures r as real == x - 0.5 ==> x < 0.0
  {
    if x >= 0.0 then (x + 0.5).Floor else -((-x + 0.5).Floor)
  }

  lemma QuotientNonNegative(a: real, b: real)
    requires b > 0.0
    ensures a >= 0.0 ==> a / b >= 0.0
    ensures (a / b) * b == a
  {
  }

  /** Whole numbers are left as they are. */
  lemma RoundHalfAwayOfInteger(n: int)
    ensures RoundHalfAway(n as real) == n
  {
  }

  /** Rounding is symmetric about zero. */
  lemma RoundHalfAwayOdd(x: real)
    ensures RoundHalfAway(-x) == -RoundHalfAway(x)
  {
  }

  lemma RoundHalfAwayMonotone(a: real, b: real)
    requires a <= b
    ensures RoundHalfAway(a) <= RoundHalfAway(b)
  {
    if a >= 0.0 {
      assert (a + 0.5).Floor <= (b + 0.5).Floor;
    } else if b < 0.0 {
      assert (-b + 0.5).Floor <= (-a + 0.5).Floor;
    }
  }

  /** `a / b` on Swift `Int` (and `Int(x / b)` on a whole `Double`): the
      quotient truncated toward zero. */
  function TruncDiv(a: int, b: int): int
    requires b > 0
  {
    if a >= 0 then a / b else -((-a) / b)
  }

  /** `a % b` on Swift `Int`: the remainder takes the sign of `a`. */
  function TruncMod(a: int, b: int): int
    requires b > 0
  {
    if a >= 0 then a % b else -((-a) % b)
  }

  /** Truncating division and remainder recombine to the dividend; the
      remainder is smaller than the divisor and never has the opposite sign
      of the dividend. */
  lemma TruncDivMod(a: int, b: int)
    requires b > 0
    ensures a == b * TruncDiv(a, b) + TruncMod(a, b)
    ensures -b < TruncMod(a, b) < b
    ensures a >= 0 ==> 0 <= TruncMod(a, b) && TruncDiv(a, b) == a / b && TruncMod(a, b) == a % b
    ensures a < 0 ==> TruncMod(a, b) <= 0 && TruncDiv(a, b) <= 0
  {
    if a < 0 {
      assert -a == b * ((-a) / b) + (-a) % b;
    }
  }
}

=== FILE: overload.dfy ===
/** ProgressiveOverloadEngine: advice for the next set of an exercise and
    working weights for 5, 8 and 10 reps derived from an estimated one-rep
    maximum.  The message is a variant carrying the numbers it would print. */
module Overload {
  import opened Wrappers
  import opened Domain
  import opened Text
  import opened Numeric
  import Stats

  /** Reps at which the advice switches from "more reps" to "more weight". */
  const RepGoal: int := 10

  /** What the message advises. */
  datatype Advice =
    | KeepWeight(reps: int, weight: real, targetReps: int)
    | IncreaseWeight(reps: int, weight: real, nextWeight: real)

  datatype Recommendation = Recommendation(reps: int, weight: real)

  datatype Suggestion = Suggestion(
    advice: Advice,
    estimatedOneRM: Option<real>,
    recommendations: seq<Recommendation>)

  // ------------------------------------------------------------- rounding

  predicate IsMultipleOfFive(x: real) {
    (x / 5.0).Floor as real * 5.0 == x
  }

  /** `roundedToNearestFive`: the multiple of five nearest `v`, halves
      going away from zero. */
  function RoundToFive(v: real): (r: real)
    ensures IsMultipleOfFive(r)
    ensures v - 2.5 <= r <= v + 2.5
  {
    var k := RoundHalfAway(v / 5.0);
    assert (k as real * 5.0 / 5.0).Floor == k;
    k as real * 5.0
  }

  /** Rounding a multiple of five changes nothing, so rounding twice is
      rounding once. */
  lemma RoundToFiveIdempotent(v: real)
    ensures RoundToFive(RoundToFive(v)) == RoundToFive(v)
  {
    var k := RoundHalfAway(v / 5.0);
    assert RoundToFive(v) / 5.0 == k as real;
    RoundHalfAwayOfInteger(k);
  }

  lemma RoundToFiveMonotone(a: real, b: real)
    requires a <= b
    ensures RoundToFive(a) <= RoundToFive(b)
  {
    RoundHalfAwayMonotone(a / 5.0, b / 5.0);
  }

  // ------------------------------------------------------------ increment

  /** `suggestedIncrement`: ten for leg and back exercises (judged by the
      lower-cased category), five for everything else and for no exercise. */
  function SuggestedIncrement(exercise: Option<Exercise>): (inc: real)
    ensures inc == 5.0 || inc == 10.0
    ensures exercise.None? ==> inc == 5.0
    ensures inc == 10.0 <==>
              exercise.Some? &&
              (Contains(ToLower(exercise.value.category), "legs") || Contains(ToLower(exercise.value.category), "back"))
  {
    match exercise
    case None => 5.0
    case Some(e) =>
      var category := ToLower(e.category);
      if Contains(category, "legs") || Contains(category, "back") then 10.0 else 5.0
  }

  // ------------------------------------------------------- one-rep maximum

  /** The sets `estimateOneRM` keeps: not a warm-up, positive reps and a
      positive weight. */
  predicate Qualifies(s: LoggedSet) {
    !s.isWarmup && s.reps > 0 && s.weight > 0.0
  }

  function SetEstimate(s: LoggedSet): real {
    Stats.EstimatedOneRepMax(s.weight, s.reps)
  }

  /** `estimateOneRM(from:)`: the largest Epley estimate among the
      qualifying sets, absent when none qualifies; always above the
      weight it was estimated from. */
  function EstimateOneRM(sets: seq<LoggedSet>): (r: Option<real>)
    ensures r.None? <==> forall i :: 0 <= i < |sets| ==> !Qualifies(sets[i])
    ensures r.Some? ==> exists i :: 0 <= i < |sets| && Qualifies(sets[i]) && r.value == SetEstimate(sets[i])
    ensures r.Some? ==> forall i :: 0 <= i < |sets| && Qualifies(sets[i]) ==> SetEstimate(sets[i]) <= r.value
    ensures r.Some? ==> r.value > 0.0
  {
    if |sets| == 0 then
      None
    else
      var rest := EstimateOneRM(sets[1..]);
      assert forall i :: 1 <= i < |sets| ==> sets[i] == sets[1..][i - 1];
      if !Qualifies(sets[0]) then
        rest
      else
        var here := SetEstimate(sets[0]);
        match rest
        case None => Some(here)
        case Some(m) => Some(if here >= m then here else m)
  }

  /** A set that does not qualify, appended at the end, never moves the
      estimate. */
  lemma {:induction false} NonQualifyingIgnored(sets: seq<LoggedSet>, w: LoggedSet)
    requires !Qualifies(w)
    ensures EstimateOneRM(sets + [w]) == EstimateOneRM(sets)
  {
    if |sets| > 0 {
      assert (sets + [w])[1..] == sets[1..] + [w];
      NonQualifyingIgnored(sets[1..], w);
    }
  }

  // ----------------------------------------------------------- suggestion

  /** The keep-or-increase advice for the latest set. */
  function AdviceFor(exercise: Option<Exercise>, latest: LoggedSet): (a: Advice)
    ensures latest.reps < RepGoal ==> a == KeepWeight(latest.reps, latest.weight, latest.reps + 1)
    ensures latest.reps >= RepGoal ==>
              && a.IncreaseWeight?
              && a.reps == latest.reps && a.weight == latest.weight
              && a.nextWeight == RoundToFive(latest.weight + SuggestedIncrement(exercise))
              && a.nextWeight > latest.weight
  {
    if latest.reps < RepGoal then
      KeepWeight(latest.reps, latest.weight, MinInt(RepGoal, latest.reps + 1))
    else
      IncreaseWeight(latest.reps, latest.weight, RoundToFive(latest.weight + SuggestedIncrement(exercise)))
  }

  /** The Epley inverse for 5, 8 and 10 reps, each rounded to five. */
  function Recommendations(oneRM: real): (r: seq<Recommendation>)
    requires oneRM >= 0.0
    ensures |r| == 3 && r[0].reps == 5 && r[1].reps == 8 && r[2].reps == 10
    ensures forall i :: 0 <= i < 3 ==> r[i].weight == RoundToFive(oneRM / Stats.EpleyFactor(r[i].reps))
    ensures r[0].weight >= r[1].weight >= r[2].weight
  {
    var w5 := oneRM / Stats.EpleyFactor(5);
    var w8 := oneRM / Stats.EpleyFactor(8);
    var w10 := oneRM / Stats.EpleyFactor(10);
    Stats.EpleyInverseAntitone(oneRM, 5, 8);
    Stats.EpleyInverseAntitone(oneRM, 8, 10);
    RoundToFiveMonotone(w8, w5);
    RoundToFiveMonotone(w10, w8);
    [Recommendation(5, RoundToFive(w5)), Recommendation(8, RoundToFive(w8)), Recommendation(10, RoundToFive(w10))]
  }

  /** `suggestion(exercise:latestWorkingSet:recentWorkingSets:)`: nothing
      without a latest set; otherwise advice from the latest set alone, the
      estimate over the recent sets and the latest one, and three
      recommendations exactly when there is an estimate. */
  function Suggest(exercise: Option<Exercise>, latest: Option<LoggedSet>, recent: seq<LoggedSet>)
    : (r: Option<Suggestion>)
    ensures r.None? <==> latest.None?
    ensures r.Some? ==> r.value.advice == AdviceFor(exercise, latest.value)
    ensures r.Some? ==> r.value.estimatedOneRM == EstimateOneRM(recent + [latest.value])
    ensures r.Some? ==> (r.value.recommendations == [] <==> r.value.estimatedOneRM.None?)
    ensures r.Some? && r.value.estimatedOneRM.Some? ==>
              r.value.recommendations == Recommendations(r.value.estimatedOneRM.value)
  {
    match latest
    case None => None
    case Some(s) =>
      var oneRM := EstimateOneRM(recent + [s]);
      var recommendations := match oneRM
        case None => []
        case Some(m) => Recommendations(m);
      Some(Suggestion(AdviceFor(exercise, s), oneRM, recommendations))
  }

  /** The advice reads only the latest set's reps and weight: marking it a
      warm-up leaves the advice as it was, while the estimate then ignores
      it. */
  lemma AdviceIgnoresWarmupFlag(exercise: Option<Exercise>, latest: LoggedSet, recent: seq<LoggedSet>)
    ensures var warm := latest.(isWarmup := true);
            && Suggest(exercise, Some(warm), recent).value.advice == Suggest(exercise, Some(latest), recent).value.advice
            && Suggest(exercise, Some(warm), recent).value.estimatedOneRM == EstimateOneRM(recent)
  {
    NonQualifyingIgnored(recent, latest.(isWarmup := true));
  }
}

=== FILE: rest_timer.dfy ===
/** RestTimerSettings: the rest duration between sets, kept in the user's
    key-value store and always between half a minute and five minutes.  The
    store is a map from keys to the property-list values it can hold. */
module RestTimer {
  import opened Wrappers
  import opened Text

  /** The store key. */
  const Key: string := "train.rest.seconds"

  /** Seconds used when nothing usable is stored. */
  const DefaultSeconds: real := 90.0

  const MinSeconds: real := 30.0
  const MaxSeconds: real := 300.0

  /** What `object(forKey:)` can hand back.  A stored Bool bridges to a
      number (1 or 0); any other kind of value (data, date, array,
      dictionary) is `Other`. */
  datatype StoredValue = Number(value: real) | Flag(flag: bool) | String(text: string) | Other

  type Store = map<string, StoredValue>

  /** `clamp`: the value pulled into [30, 300]. */
  function Clamp(value: real): (r: real)
    ensures MinSeconds <= r <= MaxSeconds
    ensures MinSeconds <= value <= MaxSeconds ==> r == value
    ensures value < MinSeconds ==> r == MinSeconds
    ensures value > MaxSeconds ==> r == MaxSeconds
  {
    if value < MinSeconds then MinSeconds else if value > MaxSeconds then MaxSeconds else value
  }

  /** The number a stored value reads as through `as? NSNumber`, if it is
      one. */
  function AsNumber(v: StoredValue): Option<real> {
    match v
    case Number(x) => Some(x)
    case Flag(b) => Some(if b then 1.0 else 0.0)
    case _ => None
  }

  /** `load`: a stored number is clamped; failing that, a stored string that
      parses as a number is clamped; otherwise the default. */
  function Load(store: Store): (r: real)
    ensures MinSeconds <= r <= MaxSeconds
    ensures Key !in store ==> r == DefaultSeconds
    ensures Key in store && store[Key].Number? ==> r == Clamp(store[Key].value)
    ensures Key in store && store[Key].Flag? ==> r == MinSeconds
    ensures Key in store && store[Key].String? ==>
              r == (match ParseDecimal(store[Key].text) case Some(x) => Clamp(x) case None => DefaultSeconds)
    ensures Key in store && store[Key].Other? ==> r == DefaultSeconds
  {
    if Key !in store then
      DefaultSeconds
    else
      var v := store[Key];
      match AsNumber(v)
      case Some(x) => Clamp(x)
      case None =>
        if v.String? then
          match ParseDecimal(v.text)
          case Some(parsed) => Clamp(parsed)
          case None => DefaultSeconds
        else
          DefaultSeconds
  }

  /** `save`: the clamped number is written under the key. */
  function Save(store: Store, seconds: real): (r: Store)
    ensures Key in r && r[Key].Number? && MinSeconds <= r[Key].value <= MaxSeconds
  {
    store[Key := Number(Clamp(seconds))]
  }

  /** Clamping twice is clamping once. */
  lemma ClampIdempotent(value: real)
    ensures Clamp(Clamp(value)) == Clamp(value)
  {
  }

  /** Clamping never moves a value further from the range: it is monotone. */
  lemma ClampMonotone(a: real, b: real)
    requires a <= b
    ensures Clamp(a) <= Clamp(b)
  {
  }

  /** What is saved is what loads back, clamped. */
  lemma LoadAfterSave(store: Store, seconds: real)
    ensures Load(Save(store, seconds)) == Clamp(seconds)
  {
  }

  /** Saving leaves every other key as it was. */
  lemma SaveTouchesOnlyKey(store: Store, seconds: real)
    ensures var r := Save(store, seconds);
            forall k :: k != Key ==> (k in r <==> k in store) && (k in store ==> r[k] == store[k])
  {
  }

  /** Saving what was loaded changes nothing a later load sees. */
  lemma SaveOfLoadIsStable(store: Store)
    ensures Load(Save(store, Load(store))) == Load(store)
  {
    ClampIdempotent(Load(store));
  }

  /** A stored "120" loads as 120 seconds. */
  lemma LoadNumericString()
    ensures Load(map[Key := String("120")]) == 120.0
  {
    assert DotIndex("120") == None by {
      assert "120"[1..] == "20" && "20"[1..] == "0" && "0"[1..] == "";
    }
    assert AllDigits("120");
    assert DigitsValue("120") == 120 by {
      assert "120"[..2] == "12" && "12"[..1] == "1" && "1"[..0] == "";
    }
  }

  /** A stored "600" is pulled down to 300 seconds. */
  lemma LoadLongString()
    ensures Load(map[Key := String("600")]) == MaxSeconds
  {
    assert DotIndex("600") == None by {
      assert "600"[1..] == "00" && "00"[1..] == "0" && "0"[1..] == "";
    }
    assert AllDigits("600");
    assert DigitsValue("600") == 600 by {
      assert "600"[..2] == "60" && "60"[..1] == "6" && "6"[..0] == "";
    }
  }

  /** A stored string that is not a number falls back to 90 seconds. */
  lemma LoadWordString()
    ensures Load(map[Key := String("soon")]) == DefaultSeconds
  {
    assert !IsDigit('s');
  }
}

=== FILE: seed_data.dfy ===
/** SeedDataService: merging the bundled exercise catalogue into the stored
    exercises.  A seed either refreshes the stored exercise of the same
    normalised name or creates one; either way its muscle maps are replaced
    by the regions the seed names, or by the regions of the group named like
    its category when none of those names is known.  Reading and decoding
    the bundled file is not modelled: the decoded payload is a parameter and
    its absence stands for a missing resource. */
module SeedData {
  import opened Wrappers
  import opened Domain
  import opened Text
  import opened Seqs

  datatype SeedExercise = SeedExercise(
    name: string,
    category: string,
    equipment: string,
    primaryRegions: Option<seq<string>>,
    secondaryRegions: Option<seq<string>>)

  /** A muscle map before it gets its identity. */
  datatype Link = Link(role: ExerciseRole, region: MuscleRegion)

  // ---------------------------------------------------------------- regions

  /** `groups.flatMap(\.regions)`. */
  function AllRegions(groups: seq<MuscleGroup>): (r: seq<MuscleRegion>)
    ensures forall x :: x in r ==> exists g :: g in groups && x in g.regions
  {
    if |groups| == 0 then [] else groups[0].regions + AllRegions(groups[1..])
  }

  /** Region `i` has the lower-cased name `key` and no later region has. */
  ghost predicate LastNamed(regions: seq<MuscleRegion>, key: string, i: int) {
    && 0 <= i < |regions|
    && ToLower(regions[i].name) == key
    && forall j :: i < j < |regions| ==> ToLower(regions[j].name) != key
  }

  /** A region last of its name before the final one stays last when the
      final one has another name. */
  lemma LastNamedExtend(regions: seq<MuscleRegion>, key: string, i: int)
    requires |regions| > 0 && ToLower(regions[|regions| - 1].name) != key
    requires LastNamed(regions[..|regions| - 1], key, i)
    ensures LastNamed(regions, key, i) && regions[i] == regions[..|regions| - 1][i]
  {
    var n := |regions| - 1;
    forall j | i < j < |regions| ensures ToLower(regions[j].name) != key {
      if j < n {
        assert regions[j] == regions[..n][j];
      }
    }
  }

  /** The region index: the region whose lower-cased name is `key`; when
      several share it, the last one wins. */
  function RegionLookup(regions: seq<MuscleRegion>, key: string): (r: Option<MuscleRegion>)
    ensures r.None? <==> forall i :: 0 <= i < |regions| ==> ToLower(regions[i].name) != key
    ensures r.Some? ==> exists i :: LastNamed(regions, key, i) && regions[i] == r.value
  {
    if |regions| == 0 then
      None
    else
      var n := |regions| - 1;
      if ToLower(regions[n].name) == key then
        assert LastNamed(regions, key, n);
        Some(regions[n])
      else
        var r := RegionLookup(regions[..n], key);
        assert forall i :: 0 <= i < n ==> regions[..n][i] == regions[i];
        assert r.Some? ==> exists i :: LastNamed(regions, key, i) && regions[i] == r.value by {
          if r.Some? {
            var i :| LastNamed(regions[..n], key, i) && regions[..n][i] == r.value;
            LastNamedExtend(regions, key, i);
          }
        }
        r
  }

  predicate KnownIn(regions: seq<MuscleRegion>, name: string) {
    RegionLookup(regions, ToLower(name)).Some?
  }

  function Known(regions: seq<MuscleRegion>): string -> bool {
    name => KnownIn(regions, name)
  }

  /** The maps one list of region names yields: one per known name, in
      order, unknown names skipped. */
  function Resolve(names: seq<string>, role: ExerciseRole, regions: seq<MuscleRegion>): (r: seq<Link>)
    ensures forall k :: 0 <= k < |r| ==> r[k].role == role && r[k].region in regions
  {
    if |names| == 0 then
      []
    else
      assert forall i :: 1 <= i < |names| ==> names[i] == names[1..][i - 1];
      var rest := Resolve(names[1..], role, regions);
      match RegionLookup(regions, ToLower(names[0]))
      case None => rest
      case Some(x) =>
        assert x in regions;
        [Link(role, x)] + rest
  }

  /** Link `k` of `r` carries `role` and the region the index holds for
      name `k` of `known`. */
  ghost predicate PicksLookups(r: seq<Link>, known: seq<string>, role: ExerciseRole, regions: seq<MuscleRegion>) {
    && |r| == |known|
    && forall k :: 0 <= k < |r| ==> r[k].role == role && RegionLookup(regions, ToLower(known[k])) == Some(r[k].region)
  }

  lemma PicksLookupsCons(x: Link, r: seq<Link>, name: string, known: seq<string>, role: ExerciseRole,
                         regions: seq<MuscleRegion>)
    requires PicksLookups(r, known, role, regions)
    requires x.role == role && RegionLookup(regions, ToLower(name)) == Some(x.region)
    ensures PicksLookups([x] + r, [name] + known, role, regions)
  {
    var r', known' := [x] + r, [name] + known;
    forall k | 0 <= k < |r'|
      ensures r'[k].role == role && RegionLookup(regions, ToLower(known'[k])) == Some(r'[k].region)
    {
      if k > 0 {
        assert r'[k] == r[k - 1] && known'[k] == known[k - 1];
      }
    }
  }

  /** Resolving names picks, for each known name in turn, the last region
      carrying it. */
  lemma {:induction false} ResolvePicksLookups(names: seq<string>, role: ExerciseRole, regions: seq<MuscleRegion>)
    ensures PicksLookups(Resolve(names, role, regions), Filter(names, Known(regions)), role, regions)
  {
    if |names| > 0 {
      ResolvePicksLookups(names[1..], role, regions);
      var rest := Resolve(names[1..], role, regions);
      var known := Filter(names[1..], Known(regions));
      match RegionLookup(regions, ToLower(names[0]))
      case None =>
        assert Filter(names, Known(regions)) == known;
      case Some(x) =>
        assert Filter(names, Known(regions)) == [names[0]] + known;
        PicksLookupsCons(Link(role, x), rest, names[0], known, role, regions);
    }
  }

  /** The first group whose name equals `category` ignoring case. */
  function GroupNamed(groups: seq<MuscleGroup>, category: string): (r: Option<MuscleGroup>)
    ensures r.None? <==> forall i :: 0 <= i < |groups| ==> !EqualIgnoringCase(groups[i].name, category)
    ensures r.Some? ==> exists i :: && 0 <= i < |groups| && groups[i] == r.value
                                    && EqualIgnoringCase(groups[i].name, category)
                                    && forall j :: 0 <= j < i ==> !EqualIgnoringCase(groups[j].name, category)
  {
    if |groups| == 0 then
      None
    else if EqualIgnoringCase(groups[0].name, category) then
      Some(groups[0])
    else
      var r := GroupNamed(groups[1..], category);
      assert forall i :: 1 <= i < |groups| ==> groups[i] == groups[1..][i - 1];
      r
  }

  /** The safety fallback: one primary map per region of the group named
      like the category, none when there is no such group. */
  function Fallback(groups: seq<MuscleGroup>, category: string): (r: seq<Link>)
    ensures GroupNamed(groups, category).None? ==> r == []
    ensures GroupNamed(groups, category).Some? ==>
              var g := GroupNamed(groups, category).value;
              |r| == |g.regions| && forall k :: 0 <= k < |r| ==> r[k] == Link(Primary, g.regions[k])
  {
    match GroupNamed(groups, category)
    case None => []
    case Some(g) => seq(|g.regions|, k requires 0 <= k < |g.regions| => Link(Primary, g.regions[k]))
  }

  /** The maps a seed gets: primary ones, then secondary ones; when neither
      list names a known region, the fallback instead. */
  function SeedLinks(seed: SeedExercise, groups: seq<MuscleGroup>): (r: seq<Link>)
    ensures var regions := AllRegions(groups);
            var primary := Resolve(seed.primaryRegions.GetOr([]), Primary, regions);
            var secondary := Resolve(seed.secondaryRegions.GetOr([]), Secondary, regions);
            && (|primary| + |secondary| > 0 ==> r == primary + secondary)
            && (|primary| + |secondary| == 0 ==> r == Fallback(groups, seed.category))
  {
    var regions := AllRegions(groups);
    var mapped := Resolve(seed.primaryRegions.GetOr([]), Primary, regions)
                + Resolve(seed.secondaryRegions.GetOr([]), Secondary, regions);
    if |mapped| > 0 then mapped else Fallback(groups, seed.category)
  }

  /** No secondary link precedes a primary one. */
  predicate PrimaryFirst(links: seq<Link>) {
    forall i, j :: 0 <= i < j < |links| && links[i].role == Secondary ==> links[j].role == Secondary
  }

  lemma ConcatPrimaryFirst(primary: seq<Link>, secondary: seq<Link>)
    requires forall k :: 0 <= k < |primary| ==> primary[k].role == Primary
    requires forall k :: 0 <= k < |secondary| ==> secondary[k].role == Secondary
    ensures PrimaryFirst(primary + secondary)
  {
    var r := primary + secondary;
    forall i, j | 0 <= i < j < |r| && r[i].role == Secondary ensures r[j].role == Secondary {
      assert i >= |primary|;
      assert r[j] == secondary[j - |primary|];
    }
  }

  /** Primary maps always come before secondary ones. */
  lemma PrimaryBeforeSecondary(seed: SeedExercise, groups: seq<MuscleGroup>)
    ensures PrimaryFirst(SeedLinks(seed, groups))
  {
    var regions := AllRegions(groups);
    var primary := Resolve(seed.primaryRegions.GetOr([]), Primary, regions);
    var secondary := Resolve(seed.secondaryRegions.GetOr([]), Secondary, regions);
    if |primary| + |secondary| > 0 {
      ConcatPrimaryFirst(primary, secondary);
    }
  }

  /** The maps of seed number `k`, with their identities. */
  function MapsOf(links: seq<Link>, k: nat, mapId: (nat, nat) -> Uuid): (r: seq<MuscleMap>)
    ensures |r| == |links|
    ensures forall j :: 0 <= j < |r| ==>
              r[j].role == links[j].role && r[j].muscleRegion == Some(links[j].region)
  {
    seq(|links|, j requires 0 <= j < |links| => MuscleMap(mapId(k, j), links[j].role, Some(links[j].region)))
  }

  // -------------------------------------------------------------- exercises

  /** The stored exercises and the index from a normalised name to a
      position among them. */
  datatype Catalogue = Catalogue(exercises: seq<Exercise>, index: map<string, nat>)

  ghost predicate IndexValid(c: Catalogue) {
    forall n :: n in c.index ==> c.index[n] < |c.exercises|
  }

  /** Every index entry names an exercise whose lower-cased name is the key. */
  ghost predicate IndexByName(c: Catalogue) {
    forall n {:trigger c.index[n]} :: n in c.index ==> c.index[n] < |c.exercises| && ToLower(c.exercises[c.index[n]].name) == n
  }

  /** The index built from the stored exercises: keyed by lower-cased name. */
  function BuildIndex(exercises: seq<Exercise>): map<string, nat> {
    if |exercises| == 0 then
      map[]
    else
      var n := |exercises| - 1;
      BuildIndex(exercises[..n])[ToLower(exercises[n].name) := n]
  }

  /** Every stored exercise is indexed under its lower-cased name, and
      every entry points at an exercise carrying the key. */
  lemma {:induction false} BuildIndexSpec(exercises: seq<Exercise>)
    ensures var index := BuildIndex(exercises);
            && (forall i :: 0 <= i < |exercises| ==> ToLower(exercises[i].name) in index)
            && (forall n :: n in index ==> index[n] < |exercises| && ToLower(exercises[index[n]].name) == n)
  {
    if |exercises| > 0 {
      var n := |exercises| - 1;
      var prefix := exercises[..n];
      BuildIndexSpec(prefix);
      var before := BuildIndex(prefix);
      var key := ToLower(exercises[n].name);
      var index := BuildIndex(exercises);
      assert index == before[key := n];
      forall i | 0 <= i < |exercises| ensures ToLower(exercises[i].name) in index {
        if i < n { assert exercises[i] == prefix[i]; }
      }
      forall m | m in index ensures index[m] < |exercises| && ToLower(exercises[index[m]].name) == m {
        if m != key { assert exercises[before[m]] == prefix[before[m]]; }
      }
    }
  }

  /** When several stored exercises share a lower-cased name, the index
      keeps the last of them. */
  lemma {:induction false} BuildIndexKeepsLast(exercises: seq<Exercise>)
    ensures var index := BuildIndex(exercises);
            forall n, j :: n in index && index[n] < j < |exercises| ==> ToLower(exercises[j].name) != n
  {
    if |exercises| > 0 {
      var n := |exercises| - 1;
      var prefix := exercises[..n];
      BuildIndexKeepsLast(prefix);
      BuildIndexSpec(prefix);
      var before := BuildIndex(prefix);
      var key := ToLower(exercises[n].name);
      var index := BuildIndex(exercises);
      assert index == before[key := n];
      forall m, j | m in index && index[m] < j < |exercises| ensures ToLower(exercises[j].name) != m {
        if m != key && j < n { assert exercises[j] == prefix[j]; }
      }
    }
  }

  /** The key a seed is looked up under: its name trimmed and lower-cased. */
  function Normalized(name: string): string {
    ToLower(Trim(name))
  }

  /** The maps each seed of the payload gets, with their identities. */
  function SeedMaps(seeds: seq<SeedExercise>, groups: seq<MuscleGroup>, mapId: (nat, nat) -> Uuid)
    : (r: seq<seq<MuscleMap>>)
    ensures |r| == |seeds|
  {
    seq(|seeds|, k requires 0 <= k < |seeds| => MapsOf(SeedLinks(seeds[k], groups), k, mapId))
  }

  /** Seed `k` gets the maps of its own links. (Kept out of the contract of
      `SeedMaps` for the same reason as `SeedKeysAt`.) */
  lemma SeedMapsAt(seeds: seq<SeedExercise>, groups: seq<MuscleGroup>, mapId: (nat, nat) -> Uuid, k: nat)
    requires k < |seeds|
    ensures SeedMaps(seeds, groups, mapId)[k] == MapsOf(SeedLinks(seeds[k], groups), k, mapId)
  {
  }

  /** The keys the seeds are looked up under. */
  function SeedKeys(seeds: seq<SeedExercise>): (r: seq<string>)
    ensures |r| == |seeds|
  {
    seq(|seeds|, k requires 0 <= k < |seeds| => Normalized(seeds[k].name))
  }

  /** Seed `k` is looked up under its trimmed, lower-cased name. (Kept out
      of the contract of `SeedKeys` so that the proofs about the merge order,
      which never look inside a key, do not reason about strings.) */
  lemma SeedKeysAt(seeds: seq<SeedExercise>, k: nat)
    requires k < |seeds|
    ensures SeedKeys(seeds)[k] == Normalized(seeds[k].name)
  {
  }

  /** One pass of the loop for seed number `k`, looked up under `key`: find
      or create the exercise, overwrite its category and equipment, replace
      its maps by `maps`. */
  function SeedOne(c: Catalogue, seed: SeedExercise, key: string, k: nat, exerciseId: nat -> Uuid,
                   maps: seq<MuscleMap>): (r: Catalogue)
    requires IndexValid(c)
    ensures IndexValid(r)
  {
    if key in c.index then
      var i := c.index[key];
      var e := c.exercises[i].(category := seed.category, equipment := seed.equipment, muscleMaps := maps);
      Catalogue(c.exercises[i := e], c.index)
    else
      var e := Exercise(exerciseId(k), seed.name, seed.category, seed.equipment, maps);
      Catalogue(c.exercises + [e], c.index[key := |c.exercises|])
  }

  /** A known key refreshes that exercise in place; an unknown key creates
      one at the end and indexes it; either way the exercise under the key
      carries the seed's category, equipment and maps, and every other
      stored exercise is left alone. */
  lemma SeedOneSpec(c: Catalogue, seed: SeedExercise, key: string, k: nat, exerciseId: nat -> Uuid,
                    maps: seq<MuscleMap>)
    requires IndexValid(c)
    ensures var r := SeedOne(c, seed, key, k, exerciseId, maps);
            && (key in r.index)
            && (key in c.index ==> r.index == c.index && |r.exercises| == |c.exercises|)
            && (key !in c.index ==>
                && r.index == c.index[key := |c.exercises|]
                && |r.exercises| == |c.exercises| + 1
                && r.exercises[|c.exercises|].id == exerciseId(k)
                && r.exercises[|c.exercises|].name == seed.name)
            && (var e := r.exercises[r.index[key]];
              e.category == seed.category && e.equipment == seed.equipment && e.muscleMaps == maps)
            && (forall i :: 0 <= i < |c.exercises| ==>
                r.exercises[i].id == c.exercises[i].id && r.exercises[i].name == c.exercises[i].name)
            && (forall i :: 0 <= i < |c.exercises| && i != r.index[key] ==> r.exercises[i] == c.exercises[i])
  {
  }

  /** The first `n` seeds merged in order, seed `k` looked up under
      `keys[k]` and getting `plans[k]`. */
  function SeedPrefix(c: Catalogue, seeds: seq<SeedExercise>, keys: seq<string>, plans: seq<seq<MuscleMap>>,
                      n: nat, exerciseId: nat -> Uuid): (r: Catalogue)
    requires IndexValid(c) && n <= |seeds| && |keys| == |plans| == |seeds|
    ensures IndexValid(r)
  {
    if n == 0 then
      c
    else
      SeedOne(SeedPrefix(c, seeds, keys, plans, n - 1, exerciseId), seeds[n - 1], keys[n - 1], n - 1, exerciseId, plans[n - 1])
  }

  /** One merge step indexes its key and keeps every other entry. */
  lemma SeedOneKeys(c: Catalogue, seed: SeedExercise, key: string, k: nat, exerciseId: nat -> Uuid,
                    maps: seq<MuscleMap>)
    requires IndexValid(c)
    ensures SeedOne(c, seed, key, k, exerciseId, maps).index.Keys == c.index.Keys + {key}
  {
    SeedOneSpec(c, seed, key, k, exerciseId, maps);
  }

  /** Merging only ever adds index entries and leaves every merged key
      indexed. */
  lemma {:induction false} SeedPrefixKeys(c: Catalogue, seeds: seq<SeedExercise>, keys: seq<string>,
                                         plans: seq<seq<MuscleMap>>, n: nat, exerciseId: nat -> Uuid)
    requires IndexValid(c) && n <= |seeds| && |keys| == |plans| == |seeds|
    ensures var r := SeedPrefix(c, seeds, keys, plans, n, exerciseId);
            && (forall k :: 0 <= k < n ==> keys[k] in r.index)
            && c.index.Keys <= r.index.Keys
  {
    if n > 0 {
      var before := SeedPrefix(c, seeds, keys, plans, n - 1, exerciseId);
      var r := SeedPrefix(c, seeds, keys, plans, n, exerciseId);
      assert (forall k :: 0 <= k < n - 1 ==> keys[k] in before.index) && c.index.Keys <= before.index.Keys by {
        SeedPrefixKeys(c, seeds, keys, plans, n - 1, exerciseId);
      }
      assert r.index.Keys == before.index.Keys + {keys[n - 1]} by {
        SeedOneKeys(before, seeds[n - 1], keys[n - 1], n - 1, exerciseId, plans[n - 1]);
      }
      forall k | 0 <= k < n
        ensures keys[k] in r.index
      {
        if k < n - 1 {
          assert keys[k] in before.index;
        }
      }
    }
  }

  /** Merging keeps the stored exercises in place with their identities and
      names. */
  lemma {:induction false} SeedPrefixKeeps(c: Catalogue, seeds: seq<SeedExercise>, keys: seq<string>,
                                          plans: seq<seq<MuscleMap>>, n: nat, exerciseId: nat -> Uuid)
    requires IndexValid(c) && n <= |seeds| && |keys| == |plans| == |seeds|
    ensures var r := SeedPrefix(c, seeds, keys, plans, n, exerciseId);
            && |c.exercises| <= |r.exercises|
            && forall i :: 0 <= i < |c.exercises| ==>
                 r.exercises[i].id == c.exercises[i].id && r.exercises[i].name == c.exercises[i].name
  {
    if n > 0 {
      SeedPrefixKeeps(c, seeds, keys, plans, n - 1, exerciseId);
      var before := SeedPrefix(c, seeds, keys, plans, n - 1, exerciseId);
      SeedOneSpec(before, seeds[n - 1], keys[n - 1], n - 1, exerciseId, plans[n - 1]);
    }
  }

  /** Merging creates nothing when every key was already indexed. */
  lemma {:induction false} SeedPrefixFindsAll(c: Catalogue, seeds: seq<SeedExercise>, keys: seq<string>,
                                             plans: seq<seq<MuscleMap>>, n: nat, exerciseId: nat -> Uuid)
    requires IndexValid(c) && n <= |seeds| && |keys| == |plans| == |seeds|
    requires forall k :: 0 <= k < n ==> keys[k] in c.index
    ensures |SeedPrefix(c, seeds, keys, plans, n, exerciseId).exercises| == |c.exercises|
  {
    if n > 0 {
      SeedPrefixFindsAll(c, seeds, keys, plans, n - 1, exerciseId);
      SeedPrefixKeys(c, seeds, keys, plans, n - 1, exerciseId);
      var before := SeedPrefix(c, seeds, keys, plans, n - 1, exerciseId);
      SeedOneSpec(before, seeds[n - 1], keys[n - 1], n - 1, exerciseId, plans[n - 1]);
    }
  }

  // ------------------------------------------------------- the whole merge

  /** Distinct keys sit at distinct positions. */
  ghost predicate IndexInjective(c: Catalogue) {
    forall m1, m2 :: m1 in c.index && m2 in c.index && m1 != m2 ==> c.index[m1] != c.index[m2]
  }

  /** The keys of the first `n` seeds. */
  ghost function KeySet(keys: seq<string>, n: nat): set<string>
    requires n <= |keys|
  {
    set j | 0 <= j < n :: keys[j]
  }

  /** Seed `k` is the last of the first `n` seeds with its key. */
  ghost predicate LastFor(keys: seq<string>, n: nat, k: int) {
    0 <= k < n <= |keys| && forall j :: k < j < n ==> keys[j] != keys[k]
  }

  /** Seed `f` is the first seed with its key. */
  ghost predicate FirstFor(keys: seq<string>, f: int) {
    0 <= f < |keys| && forall j :: 0 <= j < f ==> keys[j] != keys[f]
  }

  /** The exercise carries the seed's category and equipment and exactly
      the given maps. */
  predicate Lands(e: Exercise, seed: SeedExercise, maps: seq<MuscleMap>) {
    e.category == seed.category && e.equipment == seed.equipment && e.muscleMaps == maps
  }

  /** One merge step creates an exercise exactly when its key is new. */
  lemma SeedOneCount(c: Catalogue, seed: SeedExercise, key: string, k: nat, exerciseId: nat -> Uuid,
                     maps: seq<MuscleMap>)
    requires IndexValid(c)
    ensures |SeedOne(c, seed, key, k, exerciseId, maps).exercises| == |c.exercises| + if key in c.index then 0 else 1
  {
    SeedOneSpec(c, seed, key, k, exerciseId, maps);
  }

  /** One merge step leaves every other key where it was, and every stored
      exercise not filed under its key as it was. */
  lemma SeedOneElsewhere(c: Catalogue, seed: SeedExercise, key: string, k: nat, exerciseId: nat -> Uuid,
                         maps: seq<MuscleMap>, m: string)
    requires IndexValid(c) && m in c.index && m != key
    ensures var r := SeedOne(c, seed, key, k, exerciseId, maps);
            && m in r.index && r.index[m] == c.index[m]
            && r.exercises[c.index[m]].id == c.exercises[c.index[m]].id
            && r.exercises[c.index[m]].name == c.exercises[c.index[m]].name
            && (IndexInjective(c) ==> r.exercises[c.index[m]] == c.exercises[c.index[m]])
  {
    SeedOneSpec(c, seed, key, k, exerciseId, maps);
  }

  lemma KeySetStep(keys: seq<string>, n: nat)
    requires 0 < n <= |keys|
    ensures KeySet(keys, n) == KeySet(keys, n - 1) + {keys[n - 1]}
  {
  }

  /** Adding one element to a set grows its part outside `b` by one exactly
      when the element is in neither. */
  lemma OutsideStep<T>(a: set<T>, b: set<T>, x: T)
    ensures |(a + {x}) - b| == |a - b| + if x in a || x in b then 0 else 1
  {
    if x !in a && x !in b {
      assert (a + {x}) - b == (a - b) + {x};
    } else {
      assert (a + {x}) - b == a - b;
    }
  }

  lemma SeedOneInjective(c: Catalogue, seed: SeedExercise, key: string, k: nat, exerciseId: nat -> Uuid,
                         maps: seq<MuscleMap>)
    requires IndexValid(c) && IndexInjective(c)
    ensures IndexInjective(SeedOne(c, seed, key, k, exerciseId, maps))
  {
    SeedOneSpec(c, seed, key, k, exerciseId, maps);
  }

  /** The index built from stored exercises never files two names at one
      position. */
  lemma BuildIndexInjective(exercises: seq<Exercise>)
    ensures IndexInjective(Catalogue(exercises, BuildIndex(exercises)))
  {
    BuildIndexSpec(exercises);
  }

  lemma {:induction false} SeedPrefixInjective(c: Catalogue, seeds: seq<SeedExercise>, keys: seq<string>,
                                              plans: seq<seq<MuscleMap>>, n: nat, exerciseId: nat -> Uuid)
    requires IndexValid(c) && IndexInjective(c) && n <= |seeds| && |keys| == |plans| == |seeds|
    ensures IndexInjective(SeedPrefix(c, seeds, keys, plans, n, exerciseId))
  {
    if n > 0 {
      SeedPrefixInjective(c, seeds, keys, plans, n - 1, exerciseId);
      var before := SeedPrefix(c, seeds, keys, plans, n - 1, exerciseId);
      SeedOneInjective(before, seeds[n - 1], keys[n - 1], n - 1, exerciseId, plans[n - 1]);
    }
  }

  /** After merging `n` seeds a key is indexed exactly when it was stored
      before or belongs to one of the seeds, and a stored key is still at
      its position. */
  lemma {:induction false} SeedPrefixHas(c: Catalogue, seeds: seq<SeedExercise>, keys: seq<string>,
                                        plans: seq<seq<MuscleMap>>, n: nat, exerciseId: nat -> Uuid, m: string)
    requires IndexValid(c) && n <= |seeds| && |keys| == |plans| == |seeds|
    ensures var r := SeedPrefix(c, seeds, keys, plans, n, exerciseId);
            && (m in r.index <==> m in c.index || m in KeySet(keys, n))
            && (m in c.index ==> r.index[m] == c.index[m])
  {
    if n > 0 {
      SeedPrefixHas(c, seeds, keys, plans, n - 1, exerciseId, m);
      var before := SeedPrefix(c, seeds, keys, plans, n - 1, exerciseId);
      var key := keys[n - 1];
      KeySetStep(keys, n);
      SeedOneKeys(before, seeds[n - 1], key, n - 1, exerciseId, plans[n - 1]);
      if m == key {
        SeedOneSpec(before, seeds[n - 1], key, n - 1, exerciseId, plans[n - 1]);
      } else if m in before.index {
        SeedOneElsewhere(before, seeds[n - 1], key, n - 1, exerciseId, plans[n - 1], m);
      }
    }
  }

  /** How many of the first `n` keys are new: neither known nor equal to
      an earlier key. */
  ghost function NewKeys(keys: seq<string>, n: nat, known: set<string>): nat
    requires n <= |keys|
  {
    if n == 0 then 0
    else NewKeys(keys, n - 1, known) + if keys[n - 1] in known || keys[n - 1] in KeySet(keys, n - 1) then 0 else 1
  }

  /** The new keys are exactly the distinct keys that are not known. */
  lemma {:induction false} NewKeysCount(keys: seq<string>, n: nat, known: set<string>)
    requires n <= |keys|
    ensures NewKeys(keys, n, known) == |KeySet(keys, n) - known|
  {
    if n > 0 {
      NewKeysCount(keys, n - 1, known);
      KeySetStep(keys, n);
      OutsideStep(KeySet(keys, n - 1), known, keys[n - 1]);
    }
  }

  /** Merging `n` seeds creates one exercise per distinct key not stored
      before. */
  lemma {:induction false} SeedPrefixCount(c: Catalogue, seeds: seq<SeedExercise>, keys: seq<string>,
                                          plans: seq<seq<MuscleMap>>, n: nat, exerciseId: nat -> Uuid)
    requires IndexValid(c) && n <= |seeds| && |keys| == |plans| == |seeds|
    ensures |SeedPrefix(c, seeds, keys, plans, n, exerciseId).exercises| == |c.exercises| + NewKeys(keys, n, c.index.Keys)
  {
    if n > 0 {
      var before := SeedPrefix(c, seeds, keys, plans, n - 1, exerciseId);
      var key := keys[n - 1];
      var r := SeedPrefix(c, seeds, keys, plans, n, exerciseId);
      assert key in before.index <==> key in c.index || key in KeySet(keys, n - 1) by {
        SeedPrefixHas(c, seeds, keys, plans, n - 1, exerciseId, key);
      }
      assert |before.exercises| == |c.exercises| + NewKeys(keys, n - 1, c.index.Keys) by {
        SeedPrefixCount(c, seeds, keys, plans, n - 1, exerciseId);
      }
      assert |r.exercises| == |before.exercises| + if key in before.index then 0 else 1 by {
        SeedOneCount(before, seeds[n - 1], key, n - 1, exerciseId, plans[n - 1]);
      }
    }
  }

  /** The last seed with a key leaves its category, equipment and maps on
      the exercise filed under that key. */
  lemma {:induction false} SeedPrefixLands(c: Catalogue, seeds: seq<SeedExercise>, keys: seq<string>,
                                          plans: seq<seq<MuscleMap>>, n: nat, exerciseId: nat -> Uuid, k: nat)
    requires IndexValid(c) && IndexInjective(c) && n <= |seeds| && |keys| == |plans| == |seeds|
    requires LastFor(keys, n, k)
    ensures var r := SeedPrefix(c, seeds, keys, plans, n, exerciseId);
            keys[k] in r.index && Lands(r.exercises[r.index[keys[k]]], seeds[k], plans[k])
  {
    var before := SeedPrefix(c, seeds, keys, plans, n - 1, exerciseId);
    SeedOneSpec(before, seeds[n - 1], keys[n - 1], n - 1, exerciseId, plans[n - 1]);
    if k < n - 1 {
      SeedPrefixLands(c, seeds, keys, plans, n - 1, exerciseId, k);
      SeedPrefixInjective(c, seeds, keys, plans, n, exerciseId);
      var r := SeedPrefix(c, seeds, keys, plans, n, exerciseId);
      assert keys[n - 1] != keys[k];
      assert r.index[keys[k]] == before.index[keys[k]];
      assert r.index[keys[k]] != r.index[keys[n - 1]];
    }
  }

  /** `key` is filed under position `p`, which holds an exercise with the
      given identity and name. */
  ghost predicate FiledAt(r: Catalogue, key: string, p: nat, id: Uuid, name: string) {
    key in r.index && r.index[key] == p && p < |r.exercises| && r.exercises[p].id == id && r.exercises[p].name == name
  }

  /** The step of the first seed with a key not stored before: it creates
      the exercise filed under the key, after the stored exercises and those
      created for earlier new keys. */
  lemma {:induction false} SeedPrefixCreatesHere(c: Catalogue, seeds: seq<SeedExercise>, keys: seq<string>,
                                                plans: seq<seq<MuscleMap>>, n: nat, exerciseId: nat -> Uuid, f: nat)
    requires IndexValid(c) && n <= |seeds| && |keys| == |plans| == |seeds|
    requires FirstFor(keys, f) && f + 1 == n && keys[f] !in c.index
    ensures FiledAt(SeedPrefix(c, seeds, keys, plans, n, exerciseId), keys[f],
                    |c.exercises| + NewKeys(keys, f, c.index.Keys), exerciseId(f), seeds[f].name)
  {
    var before := SeedPrefix(c, seeds, keys, plans, f, exerciseId);
    var r := SeedPrefix(c, seeds, keys, plans, n, exerciseId);
    assert |before.exercises| == |c.exercises| + NewKeys(keys, f, c.index.Keys) by {
      SeedPrefixCount(c, seeds, keys, plans, f, exerciseId);
    }
    assert keys[f] !in before.index by {
      SeedPrefixHas(c, seeds, keys, plans, f, exerciseId, keys[f]);
      assert keys[f] !in KeySet(keys, f);
    }
    assert FiledAt(r, keys[f], |before.exercises|, exerciseId(f), seeds[f].name) by {
      assert r == SeedOne(before, seeds[f], keys[f], f, exerciseId, plans[f]);
      SeedOneSpec(before, seeds[f], keys[f], f, exerciseId, plans[f]);
    }
  }

  /** The first seed with a key not stored before creates the exercise
      filed under it, after the stored exercises and those created for
      earlier new keys, with its identity and name; later seeds leave that
      filing, identity and name alone. */
  lemma {:induction false} SeedPrefixCreates(c: Catalogue, seeds: seq<SeedExercise>, keys: seq<string>,
                                            plans: seq<seq<MuscleMap>>, n: nat, exerciseId: nat -> Uuid, f: nat)
    requires IndexValid(c) && n <= |seeds| && |keys| == |plans| == |seeds|
    requires FirstFor(keys, f) && f < n && keys[f] !in c.index
    ensures FiledAt(SeedPrefix(c, seeds, keys, plans, n, exerciseId), keys[f],
                    |c.exercises| + NewKeys(keys, f, c.index.Keys), exerciseId(f), seeds[f].name)
    decreases n
  {
    if f == n - 1 {
      SeedPrefixCreatesHere(c, seeds, keys, plans, n, exerciseId, f);
    } else {
      var before := SeedPrefix(c, seeds, keys, plans, n - 1, exerciseId);
      var r := SeedPrefix(c, seeds, keys, plans, n, exerciseId);
      var p := |c.exercises| + NewKeys(keys, f, c.index.Keys);
      SeedPrefixCreates(c, seeds, keys, plans, n - 1, exerciseId, f);
      assert FiledAt(before, keys[f], p, exerciseId(f), seeds[f].name);
      assert FiledAt(r, keys[f], p, exerciseId(f), seeds[f].name) by {
        assert r == SeedOne(before, seeds[n - 1], keys[n - 1], n - 1, exerciseId, plans[n - 1]);
        SeedOneSpec(before, seeds[n - 1], keys[n - 1], n - 1, exerciseId, plans[n - 1]);
      }
    }
  }

  /** `seedIfNeeded(context:)`: without a payload nothing changes; otherwise
      every seed is merged in order into the stored exercises, which keep
      their positions, identities and names, new exercises following them. */
  function SeedIfNeeded(existing: seq<Exercise>, groups: seq<MuscleGroup>, payload: Option<seq<SeedExercise>>,
                        exerciseId: nat -> Uuid, mapId: (nat, nat) -> Uuid): (r: seq<Exercise>)
    ensures payload.None? ==> r == existing
    ensures |existing| <= |r|
    ensures forall i :: 0 <= i < |existing| ==> r[i].id == existing[i].id && r[i].name == existing[i].name
  {
    match payload
    case None => existing
    case Some(seeds) =>
      BuildIndexSpec(existing);
      var start := Catalogue(existing, BuildIndex(existing));
      SeedPrefixKeeps(start, seeds, SeedKeys(seeds), SeedMaps(seeds, groups, mapId), |seeds|, exerciseId);
      SeedPrefix(start, seeds, SeedKeys(seeds), SeedMaps(seeds, groups, mapId), |seeds|, exerciseId).exercises
  }

  /** Seeds `f` and `k` are the first and the last with a key the index
      lacks. */
  ghost predicate NewPair(keys: seq<string>, n: nat, index: map<string, nat>, f: int, k: int) {
    FirstFor(keys, f) && LastFor(keys, n, k) && keys[f] == keys[k] && keys[k] !in index
  }

  /** The exercise created for a new key: placed after the stored exercises
      and those created for earlier new keys, with the identity and name of
      the first seed `f` with the key and the category, equipment and maps
      of the last seed `k` with it. */
  ghost predicate Appended(existing: seq<Exercise>, index: map<string, nat>, seeds: seq<SeedExercise>,
                           keys: seq<string>, plans: seq<seq<MuscleMap>>, exerciseId: nat -> Uuid,
                           r: seq<Exercise>, f: nat, k: nat)
    requires f < |seeds| && k < |seeds| && |keys| == |plans| == |seeds|
  {
    var p := |existing| + NewKeys(keys, f, index.Keys);
    && p < |r| && r[p].id == exerciseId(f) && r[p].name == seeds[f].name
    && Lands(r[p], seeds[k], plans[k])
  }

  /** After all seeds, the last seed with a stored key leaves its
      category, equipment and maps on the stored exercise. */
  lemma {:induction false} SeedPrefixRefreshes(c: Catalogue, seeds: seq<SeedExercise>, keys: seq<string>,
                                              plans: seq<seq<MuscleMap>>, exerciseId: nat -> Uuid, k: nat)
    requires IndexValid(c) && IndexInjective(c) && |keys| == |plans| == |seeds|
    requires LastFor(keys, |seeds|, k) && keys[k] in c.index
    ensures var r := SeedPrefix(c, seeds, keys, plans, |seeds|, exerciseId).exercises;
            c.index[keys[k]] < |r| && Lands(r[c.index[keys[k]]], seeds[k], plans[k])
  {
    var r := SeedPrefix(c, seeds, keys, plans, |seeds|, exerciseId);
    assert r.index[keys[k]] == c.index[keys[k]] by {
      SeedPrefixHas(c, seeds, keys, plans, |seeds|, exerciseId, keys[k]);
    }
    assert Lands(r.exercises[r.index[keys[k]]], seeds[k], plans[k]) by {
      SeedPrefixLands(c, seeds, keys, plans, |seeds|, exerciseId, k);
    }
  }

  /** After all seeds, a key not stored before is filed under the exercise
      its first seed `f` created, which the last seed `k` with the key
      leaves its category, equipment and maps on. */
  lemma {:induction false} SeedPrefixAppends(c: Catalogue, seeds: seq<SeedExercise>, keys: seq<string>,
                                            plans: seq<seq<MuscleMap>>, exerciseId: nat -> Uuid, f: nat, k: nat)
    requires IndexValid(c) && IndexInjective(c) && |keys| == |plans| == |seeds|
    requires NewPair(keys, |seeds|, c.index, f, k)
    ensures Appended(c.exercises, c.index, seeds, keys, plans, exerciseId,
                     SeedPrefix(c, seeds, keys, plans, |seeds|, exerciseId).exercises, f, k)
  {
    var r := SeedPrefix(c, seeds, keys, plans, |seeds|, exerciseId);
    var p := |c.exercises| + NewKeys(keys, f, c.index.Keys);
    assert FiledAt(r, keys[f], p, exerciseId(f), seeds[f].name) by {
      SeedPrefixCreates(c, seeds, keys, plans, |seeds|, exerciseId, f);
    }
    assert Lands(r.exercises[r.index[keys[k]]], seeds[k], plans[k]) by {
      SeedPrefixLands(c, seeds, keys, plans, |seeds|, exerciseId, k);
    }
  }

  /** Some of the first `n` seeds has a key the index files at position `i`. */
  ghost predicate Reached(index: map<string, nat>, keys: seq<string>, n: nat, i: int)
    requires n <= |keys|
  {
    exists k :: 0 <= k < n && keys[k] in index && index[keys[k]] == i
  }

  /** A key not stored before, once merged, is filed after the stored
      exercises. */
  lemma {:induction false} SeedPrefixBeyond(c: Catalogue, seeds: seq<SeedExercise>, keys: seq<string>,
                                           plans: seq<seq<MuscleMap>>, n: nat, exerciseId: nat -> Uuid, m: string)
    requires IndexValid(c) && n <= |seeds| && |keys| == |plans| == |seeds|
    requires m !in c.index
    ensures var r := SeedPrefix(c, seeds, keys, plans, n, exerciseId);
            m in r.index ==> |c.exercises| <= r.index[m]
  {
    if n > 0 {
      var before := SeedPrefix(c, seeds, keys, plans, n - 1, exerciseId);
      var key := keys[n - 1];
      var r := SeedPrefix(c, seeds, keys, plans, n, exerciseId);
      assert m in before.index ==> |c.exercises| <= before.index[m] by {
        SeedPrefixBeyond(c, seeds, keys, plans, n - 1, exerciseId, m);
      }
      assert |c.exercises| <= |before.exercises| by {
        SeedPrefixKeeps(c, seeds, keys, plans, n - 1, exerciseId);
      }
      if m == key {
        assert m in r.index ==> r.index[m] == if m in before.index then before.index[m] else |before.exercises| by {
          SeedOneSpec(before, seeds[n - 1], key, n - 1, exerciseId, plans[n - 1]);
        }
      } else {
        assert m in r.index <==> m in before.index by {
          SeedOneKeys(before, seeds[n - 1], key, n - 1, exerciseId, plans[n - 1]);
        }
        if m in before.index {
          assert r.index[m] == before.index[m] by {
            SeedOneElsewhere(before, seeds[n - 1], key, n - 1, exerciseId, plans[n - 1], m);
          }
        }
      }
    }
  }

  /** A stored exercise that no seed's key reaches through the index comes
      out of the merge exactly as it went in. */
  lemma {:induction false} SeedPrefixLeaves(c: Catalogue, seeds: seq<SeedExercise>, keys: seq<string>,
                                           plans: seq<seq<MuscleMap>>, n: nat, exerciseId: nat -> Uuid, i: nat)
    requires IndexValid(c) && n <= |seeds| && |keys| == |plans| == |seeds|
    requires i < |c.exercises| && !Reached(c.index, keys, n, i)
    ensures var r := SeedPrefix(c, seeds, keys, plans, n, exerciseId);
            i < |r.exercises| && r.exercises[i] == c.exercises[i]
  {
    if n > 0 {
      var before := SeedPrefix(c, seeds, keys, plans, n - 1, exerciseId);
      var key := keys[n - 1];
      assert !Reached(c.index, keys, n - 1, i);
      assert i < |before.exercises| && before.exercises[i] == c.exercises[i] by {
        SeedPrefixLeaves(c, seeds, keys, plans, n - 1, exerciseId, i);
      }
      assert key in before.index ==> before.index[key] != i by {
        if key in c.index {
          SeedPrefixHas(c, seeds, keys, plans, n - 1, exerciseId, key);
        } else {
          SeedPrefixBeyond(c, seeds, keys, plans, n - 1, exerciseId, key);
        }
      }
      SeedOneSpec(before, seeds[n - 1], key, n - 1, exerciseId, plans[n - 1]);
    }
  }

  /** `r` is what merging seeds with the given keys and maps into the
      exercises `existing`, indexed by `index`, must give: one exercise is
      created per distinct key the index lacks; the last seed with each key
      leaves its category, equipment and maps on the exercise filed under
      that key, which is the indexed one when the key was indexed, and
      otherwise the one created for it, placed after the stored exercises
      and those created for earlier new keys, with the identity and name of
      the first seed with the key; every stored exercise no seed's key
      reaches through the index is left exactly as it was. */
  ghost predicate Merged(existing: seq<Exercise>, index: map<string, nat>, seeds: seq<SeedExercise>,
                         keys: seq<string>, plans: seq<seq<MuscleMap>>, exerciseId: nat -> Uuid, r: seq<Exercise>)
    requires |keys| == |plans| == |seeds|
  {
    && |r| == |existing| + |KeySet(keys, |seeds|) - index.Keys|
    && (forall k :: LastFor(keys, |seeds|, k) && keys[k] in index ==>
          index[keys[k]] < |r| && Lands(r[index[keys[k]]], seeds[k], plans[k]))
    && (forall f: nat, k: nat :: NewPair(keys, |seeds|, index, f, k) ==>
          Appended(existing, index, seeds, keys, plans, exerciseId, r, f, k))
    && (forall i :: 0 <= i < |existing| && !Reached(index, keys, |seeds|, i) ==> i < |r| && r[i] == existing[i])
  }

  /** Merging all seeds, for any keys and maps, gives the `Merged` result. */
  lemma {:induction false} SeedPrefixMerges(c: Catalogue, seeds: seq<SeedExercise>, keys: seq<string>,
                                           plans: seq<seq<MuscleMap>>, exerciseId: nat -> Uuid)
    requires IndexValid(c) && IndexInjective(c) && |keys| == |plans| == |seeds|
    ensures Merged(c.exercises, c.index, seeds, keys, plans, exerciseId,
                   SeedPrefix(c, seeds, keys, plans, |seeds|, exerciseId).exercises)
  {
    var r := SeedPrefix(c, seeds, keys, plans, |seeds|, exerciseId).exercises;
    assert |r| == |c.exercises| + |KeySet(keys, |seeds|) - c.index.Keys| by {
      SeedPrefixCount(c, seeds, keys, plans, |seeds|, exerciseId);
      NewKeysCount(keys, |seeds|, c.index.Keys);
    }
    forall k | LastFor(keys, |seeds|, k) && keys[k] in c.index
      ensures c.index[keys[k]] < |r| && Lands(r[c.index[keys[k]]], seeds[k], plans[k])
    {
      SeedPrefixRefreshes(c, seeds, keys, plans, exerciseId, k);
    }
    forall f: nat, k: nat | NewPair(keys, |seeds|, c.index, f, k)
      ensures Appended(c.exercises, c.index, seeds, keys, plans, exerciseId, r, f, k)
    {
      SeedPrefixAppends(c, seeds, keys, plans, exerciseId, f, k);
    }
    forall i | 0 <= i < |c.exercises| && !Reached(c.index, keys, |seeds|, i)
      ensures i < |r| && r[i] == c.exercises[i]
    {
      SeedPrefixLeaves(c, seeds, keys, plans, |seeds|, exerciseId, i);
    }
  }

  /** The whole merge: seed `k` is filed under `Normalized` of its name and
      carries the maps of its own links; with those keys and maps the stored
      exercises and the seeds are `Merged` as described there. */
  lemma SeedIfNeededMerges(existing: seq<Exercise>, groups: seq<MuscleGroup>, seeds: seq<SeedExercise>,
                           exerciseId: nat -> Uuid, mapId: (nat, nat) -> Uuid)
    ensures forall k :: 0 <= k < |seeds| ==>
              && SeedKeys(seeds)[k] == Normalized(seeds[k].name)
              && SeedMaps(seeds, groups, mapId)[k] == MapsOf(SeedLinks(seeds[k], groups), k, mapId)
    ensures Merged(existing, BuildIndex(existing), seeds, SeedKeys(seeds), SeedMaps(seeds, groups, mapId),
                   exerciseId, SeedIfNeeded(existing, groups, Some(seeds), exerciseId, mapId))
  {
    forall k | 0 <= k < |seeds|
      ensures && SeedKeys(seeds)[k] == Normalized(seeds[k].name)
              && SeedMaps(seeds, groups, mapId)[k] == MapsOf(SeedLinks(seeds[k], groups), k, mapId)
    {
      SeedKeysAt(seeds, k);
      SeedMapsAt(seeds, groups, mapId, k);
    }
    assert Merged(existing, BuildIndex(existing), seeds, SeedKeys(seeds), SeedMaps(seeds, groups, mapId),
                  exerciseId, SeedIfNeeded(existing, groups, Some(seeds), exerciseId, mapId)) by {
      BuildIndexSpec(existing);
      BuildIndexInjective(existing);
      var start := Catalogue(existing, BuildIndex(existing));
      SeedPrefixMerges(start, seeds, SeedKeys(seeds), SeedMaps(seeds, groups, mapId), exerciseId);
    }
  }

  // ------------------------------------------------------------- properties

  /** A seed whose name carries no surrounding whitespace is filed under its
      own lower-cased name. */
  predicate Trimmed(seed: SeedExercise) {
    Trim(seed.name) == seed.name
  }

  lemma SeedOneByName(c: Catalogue, seed: SeedExercise, key: string, k: nat, exerciseId: nat -> Uuid,
                      maps: seq<MuscleMap>)
    requires IndexValid(c) && IndexByName(c) && ToLower(seed.name) == key
    ensures IndexByName(SeedOne(c, seed, key, k, exerciseId, maps))
  {
    var r := SeedOne(c, seed, key, k, exerciseId, maps);
    SeedOneSpec(c, seed, key, k, exerciseId, maps);
    forall n | n in r.index ensures ToLower(r.exercises[r.index[n]].name) == n {
      if n in c.index {
        assert r.exercises[r.index[n]].name == c.exercises[c.index[n]].name;
      }
    }
  }
}

=== FILE: seed_data_properties.dfy ===
/** Properties of merging the seed catalogue that span whole runs. */
module SeedDataProperties {
  import opened Wrappers
  import opened Domain
  import opened Text
  import opened SeedData

  lemma {:induction false} SeedPrefixByName(c: Catalogue, seeds: seq<SeedExercise>, keys: seq<string>,
                                           plans: seq<seq<MuscleMap>>, n: nat, exerciseId: nat -> Uuid)
    requires IndexValid(c) && IndexByName(c) && n <= |seeds| && |keys| == |plans| == |seeds|
    requires forall k :: 0 <= k < |seeds| ==> ToLower(seeds[k].name) == keys[k]
    ensures IndexByName(SeedPrefix(c, seeds, keys, plans, n, exerciseId))
  {
    if n > 0 {
      SeedPrefixByName(c, seeds, keys, plans, n - 1, exerciseId);
      var before := SeedPrefix(c, seeds, keys, plans, n - 1, exerciseId);
      SeedOneByName(before, seeds[n - 1], keys[n - 1], n - 1, exerciseId, plans[n - 1]);
      assert SeedPrefix(c, seeds, keys, plans, n, exerciseId)
          == SeedOne(before, seeds[n - 1], keys[n - 1], n - 1, exerciseId, plans[n - 1]);
    }
  }

  /** Seeding again with the same payload creates no exercise, provided the
      seed names carry no surrounding whitespace: the stored index is keyed
      by the untrimmed lower-cased name, so a padded seed name would never be
      found again and would be created on every run. */
  lemma SecondRunCreatesNothing(existing: seq<Exercise>, groups: seq<MuscleGroup>, seeds: seq<SeedExercise>,
                                exerciseId: nat -> Uuid, mapId: (nat, nat) -> Uuid)
    requires forall k :: 0 <= k < |seeds| ==> Trimmed(seeds[k])
    ensures var once := SeedIfNeeded(existing, groups, Some(seeds), exerciseId, mapId);
            |SeedIfNeeded(once, groups, Some(seeds), exerciseId, mapId)| == |once|
  {
    var keys := SeedKeys(seeds);
    var plans := SeedMaps(seeds, groups, mapId);
    var c := Catalogue(existing, BuildIndex(existing));
    BuildIndexSpec(existing);
    forall k | 0 <= k < |seeds| ensures ToLower(seeds[k].name) == keys[k] {
      SeedKeysAt(seeds, k);
    }
    SeedPrefixByName(c, seeds, keys, plans, |seeds|, exerciseId);
    var first := SeedPrefix(c, seeds, keys, plans, |seeds|, exerciseId);
    SeedPrefixKeys(c, seeds, keys, plans, |seeds|, exerciseId);
    assert SeedIfNeeded(existing, groups, Some(seeds), exerciseId, mapId) == first.exercises;
    var again := Catalogue(first.exercises, BuildIndex(first.exercises));
    BuildIndexSpec(first.exercises);
    forall k | 0 <= k < |seeds| ensures keys[k] in again.index {
      assert ToLower(first.exercises[first.index[keys[k]]].name) == keys[k];
    }
    SeedPrefixFindsAll(again, seeds, keys, plans, |seeds|, exerciseId);
    assert SeedIfNeeded(first.exercises, groups, Some(seeds), exerciseId, mapId)
        == SeedPrefix(again, seeds, keys, plans, |seeds|, exerciseId).exercises;
  }

  /** " A" is looked up under a key that differs from its lower-cased
      name: trimming drops the leading blank. */
  lemma PaddedKeyDiffers()
    ensures Normalized(" A") != ToLower(" A")
  {
    assert |TrimStart(" A")| <= 1;
    assert |Normalized(" A")| <= 1;
  }

  /** A run over a single seed is one merge step from the stored index. */
  lemma OneSeedRun(existing: seq<Exercise>, groups: seq<MuscleGroup>, seed: SeedExercise,
                   exerciseId: nat -> Uuid, mapId: (nat, nat) -> Uuid)
    requires IndexValid(Catalogue(existing, BuildIndex(existing)))
    ensures SeedIfNeeded(existing, groups, Some([seed]), exerciseId, mapId) ==
            SeedOne(Catalogue(existing, BuildIndex(existing)), seed, Normalized(seed.name), 0, exerciseId,
                    MapsOf(SeedLinks(seed, groups), 0, mapId)).exercises
  {
    var seeds := [seed];
    var c := Catalogue(existing, BuildIndex(existing));
    var keys := SeedKeys(seeds);
    var plans := SeedMaps(seeds, groups, mapId);
    SeedKeysAt(seeds, 0);
    assert SeedPrefix(c, seeds, keys, plans, 1, exerciseId) ==
           SeedOne(c, seed, keys[0], 0, exerciseId, plans[0]);
  }

  /** The first run over one seed from an empty catalogue stores it, and
      the rebuilt index holds it under its lower-cased name. */
  lemma FirstRunStoresSeed(seed: SeedExercise, groups: seq<MuscleGroup>,
                           exerciseId: nat -> Uuid, mapId: (nat, nat) -> Uuid)
    ensures var once := SeedIfNeeded([], groups, Some([seed]), exerciseId, mapId);
            |once| == 1 && BuildIndex(once) == map[ToLower(seed.name) := 0]
  {
    var maps := MapsOf(SeedLinks(seed, groups), 0, mapId);
    var empty := Catalogue([], map[]);
    var once := SeedOne(empty, seed, Normalized(seed.name), 0, exerciseId, maps).exercises;
    assert SeedIfNeeded([], groups, Some([seed]), exerciseId, mapId) == once by {
      assert BuildIndex([]) == map[];
      OneSeedRun([], groups, seed, exerciseId, mapId);
    }
    assert |once| == 1 && once[0].name == seed.name by {
      SeedOneSpec(empty, seed, Normalized(seed.name), 0, exerciseId, maps);
    }
    assert once[..0] == [];
  }

  /** A run over one seed whose key the stored index lacks adds an
      exercise. */
  lemma MissedKeyCreates(existing: seq<Exercise>, seed: SeedExercise, groups: seq<MuscleGroup>,
                         exerciseId: nat -> Uuid, mapId: (nat, nat) -> Uuid)
    requires IndexValid(Catalogue(existing, BuildIndex(existing)))
    requires Normalized(seed.name) !in BuildIndex(existing)
    ensures |SeedIfNeeded(existing, groups, Some([seed]), exerciseId, mapId)| == |existing| + 1
  {
    OneSeedRun(existing, groups, seed, exerciseId, mapId);
    SeedOneSpec(Catalogue(existing, BuildIndex(existing)), seed, Normalized(seed.name), 0, exerciseId,
                MapsOf(SeedLinks(seed, groups), 0, mapId));
  }

  /** A seed whose lookup key differs from its lower-cased name, such as
      one named " A", is created again on the second run: the first run
      stores it, the rebuilt index holds its lower-cased name, and the
      trimmed key misses that entry. */
  lemma PaddedNameCreatedTwice(seed: SeedExercise, groups: seq<MuscleGroup>,
                               exerciseId: nat -> Uuid, mapId: (nat, nat) -> Uuid)
    requires Normalized(seed.name) != ToLower(seed.name)
    ensures var once := SeedIfNeeded([], groups, Some([seed]), exerciseId, mapId);
            && |once| == 1
            && |SeedIfNeeded(once, groups, Some([seed]), exerciseId, mapId)| == 2
  {
    FirstRunStoresSeed(seed, groups, exerciseId, mapId);
    var once := SeedIfNeeded([], groups, Some([seed]), exerciseId, mapId);
    MissedKeyCreates(once, seed, groups, exerciseId, mapId);
  }
}

=== FILE: seqs.dfy ===
/** Sequence operations the source performs through Swift's collection
    library: `filter`, `prefix`, `suffix`, summation with `reduce(0, +)`, and
    a stable `sorted(by:)` under a caller-supplied total preorder. */
module Seqs {
  import opened Wrappers

  // --------------------------------------------------------------- filter

  /** `s.filter(p)`: the elements satisfying `p`, in their original order. */
  function Filter<T>(s: seq<T>, p: T -> bool): (r: seq<T>)
    ensures |r| <= |s|
    ensures forall i :: 0 <= i < |r| ==> r[i] in s && p(r[i])
    ensures forall i :: 0 <= i < |s| && p(s[i]) ==> s[i] in r
  {
    if |s| == 0 then []
    else
      var rest := Filter(s[1..], p);
      assert forall i :: 1 <= i < |s| ==> s[i] == s[1..][i - 1];
      if p(s[0]) then [s[0]] + rest else rest
  }

  lemma {:induction false} FilterAppend<T>(a: seq<T>, b: seq<T>, p: T -> bool)
    ensures Filter(a + b, p) == Filter(a, p) + Filter(b, p)
  {
    if |a| > 0 {
      assert (a + b)[1..] == a[1..] + b;
      FilterAppend(a[1..], b, p);
    } else {
      assert a + b == b;
    }
  }

  /** Filtering keeps the multiplicity of every element that satisfies `p`. */
  lemma {:induction false} FilterMultiset<T>(s: seq<T>, p: T -> bool, x: T)
    ensures multiset(Filter(s, p))[x] == if p(x) then multiset(s)[x] else 0
  {
    if |s| > 0 {
      FilterMultiset(s[1..], p, x);
      assert s == [s[0]] + s[1..];
    }
  }

  /** Predicates that agree on every element filter alike. */
  lemma {:induction false} FilterCongruent<T>(s: seq<T>, p: T -> bool, q: T -> bool)
    requires forall i :: 0 <= i < |s| ==> p(s[i]) == q(s[i])
    ensures Filter(s, p) == Filter(s, q)
  {
    if |s| > 0 {
      FilterCongruent(s[1..], p, q);
    }
  }

  lemma {:induction false} FilterAll<T>(s: seq<T>, p: T -> bool)
    requires forall i :: 0 <= i < |s| ==> p(s[i])
    ensures Filter(s, p) == s
  {
    if |s| > 0 {
      FilterAll(s[1..], p);
      assert s == [s[0]] + s[1..];
    }
  }

  lemma {:induction false} FilterNone<T>(s: seq<T>, p: T -> bool)
    requires forall i :: 0 <= i < |s| ==> !p(s[i])
    ensures Filter(s, p) == []
  {
    if |s| > 0 {
      FilterNone(s[1..], p);
    }
  }

  /** When the last element passes, it is the last one the filter keeps. */
  lemma FilterKeepsLast<T>(s: seq<T>, p: T -> bool)
    requires |s| > 0 && p(s[|s| - 1])
    ensures |Filter(s, p)| > 0 && Filter(s, p)[|Filter(s, p)| - 1] == s[|s| - 1]
  {
    var n := |s| - 1;
    assert s == s[..n] + [s[n]];
    FilterAppend(s[..n], [s[n]], p);
    assert Filter([s[n]], p) == [s[n]];
  }

  /** `s.filter(p).count`. */
  function Count<T>(s: seq<T>, p: T -> bool): (n: nat)
    ensures n <= |s|
  {
    |Filter(s, p)|
  }

  /** Everything passes the filter iff nothing is dropped. */
  lemma {:induction false} CountAll<T>(s: seq<T>, p: T -> bool)
    ensures Count(s, p) == |s| <==> forall i :: 0 <= i < |s| ==> p(s[i])
  {
    if |s| > 0 {
      CountAll(s[1..], p);
      if forall i :: 0 <= i < |s| ==> p(s[i]) {
        assert forall i :: 0 <= i < |s[1..]| ==> p(s[1..][i]);
      }
      if forall i :: 0 <= i < |s[1..]| ==> p(s[1..][i]) {
        assert forall i :: 1 <= i < |s| ==> s[i] == s[1..][i - 1];
      }
    }
  }

  /** Nothing passes the filter iff no element satisfies `p`. */
  lemma CountNone<T>(s: seq<T>, p: T -> bool)
    ensures Count(s, p) == 0 <==> forall i :: 0 <= i < |s| ==> !p(s[i])
  {
    if forall i :: 0 <= i < |s| ==> !p(s[i]) {
      FilterNone(s, p);
    }
  }

  /** Filtering an extended sequence adds at most the new element. */
  lemma CountSnoc<T>(s: seq<T>, x: T, p: T -> bool)
    ensures Count(s + [x], p) == Count(s, p) + if p(x) then 1 else 0
  {
    FilterAppend(s, [x], p);
    assert Filter([x], p) == if p(x) then [x] else [];
  }

  // ------------------------------------------------------ prefix and suffix

  /** `s.prefix(k)`: the first `min(k, |s|)` elements. */
  function Prefix<T>(s: seq<T>, k: nat): (r: seq<T>)
    ensures |r| == if k < |s| then k else |s|
    ensures r == s[..|r|]
  {
    if k < |s| then s[..k] else s
  }

  /** `s.suffix(k)`: the last `min(k, |s|)` elements. */
  function Suffix<T>(s: seq<T>, k: nat): (r: seq<T>)
    ensures |r| == if k < |s| then k else |s|
    ensures r == s[|s| - |r|..]
  {
    if k < |s| then s[|s| - k..] else s
  }

  // ------------------------------------------------------------------ sums

  /** `xs.reduce(0, +)`. */
  function Sum(xs: seq<real>): real {
    if |xs| == 0 then 0.0 else xs[0] + Sum(xs[1..])
  }

  lemma {:induction false} SumAppend(a: seq<real>, b: seq<real>)
    ensures Sum(a + b) == Sum(a) + Sum(b)
  {
    if |a| > 0 {
      assert (a + b)[1..] == a[1..] + b;
      SumAppend(a[1..], b);
    } else {
      assert a + b == b;
    }
  }

  /** `s.map(f).reduce(0, +)` for a natural-valued `f`. */
  function SumOf<T>(s: seq<T>, f: T -> nat): nat {
    if |s| == 0 then 0 else f(s[0]) + SumOf(s[1..], f)
  }

  lemma {:induction false} SumOfAppend<T>(a: seq<T>, b: seq<T>, f: T -> nat)
    ensures SumOf(a + b, f) == SumOf(a, f) + SumOf(b, f)
  {
    if |a| > 0 {
      assert (a + b)[1..] == a[1..] + b;
      SumOfAppend(a[1..], b, f);
    } else {
      assert a + b == b;
    }
  }

  /** Taking the element at `k` out of `b` removes one copy of it from the
      multiset and its term from the sum. */
  lemma RemoveAt<T>(b: seq<T>, k: nat, f: T -> nat)
    requires k < |b|
    ensures multiset(b) == multiset(b[..k] + b[k + 1..]) + multiset{b[k]}
    ensures SumOf(b, f) == SumOf(b[..k] + b[k + 1..], f) + f(b[k])
  {
    var pre, mid, post := b[..k], [b[k]], b[k + 1..];
    assert b == pre + (mid + post);
    MultisetOfSplit(pre, mid, post);
    SumOfAppend(pre, mid + post, f);
    SumOfAppend(mid, post, f);
    SumOfAppend(pre, post, f);
  }

  lemma MultisetOfSplit<T>(pre: seq<T>, mid: seq<T>, post: seq<T>)
    ensures multiset(pre + (mid + post)) == multiset(pre + post) + multiset(mid)
  {
    calc {
      multiset(pre + (mid + post));
      multiset(pre) + (multiset(mid) + multiset(post));
      multiset(pre) + multiset(post) + multiset(mid);
      multiset(pre + post) + multiset(mid);
    }
  }

  /** A sum does not depend on the order of its terms. */
  lemma {:induction false} SumOfPermutation<T>(a: seq<T>, b: seq<T>, f: T -> nat)
    requires multiset(a) == multiset(b)
    ensures SumOf(a, f) == SumOf(b, f)
  {
    if |a| > 0 {
      assert a[0] in multiset(b);
      var k :| 0 <= k < |b| && b[k] == a[0];
      var rest := b[..k] + b[k + 1..];
      RemoveAt(b, k, f);
      assert a == [a[0]] + a[1..];
      assert multiset(a) == multiset(a[1..]) + multiset{a[0]};
      forall x ensures multiset(a[1..])[x] == multiset(rest)[x] {
        assert multiset(a)[x] == multiset(b)[x];
      }
      assert multiset(a[1..]) == multiset(rest);
      SumOfPermutation(a[1..], rest, f);
    } else {
      assert multiset(b) == multiset{};
    }
  }

  lemma {:induction false} SumBounds(xs: seq<real>, lo: real, hi: real)
    requires forall i :: 0 <= i < |xs| ==> lo <= xs[i] <= hi
    ensures |xs| as real * lo <= Sum(xs) <= |xs| as real * hi
  {
    if |xs| > 0 {
      SumBounds(xs[1..], lo, hi);
    }
  }

  lemma {:induction false} SumNonNegative(xs: seq<real>)
    requires forall i :: 0 <= i < |xs| ==> 0.0 <= xs[i]
    ensures Sum(xs) >= 0.0
  {
    if |xs| > 0 {
      SumNonNegative(xs[1..]);
    }
  }

  // --------------------------------------------------------------- sorting

  ghost predicate TotalPreorder<T(!new)>(le: (T, T) -> bool) {
    && (forall a, b :: le(a, b) || le(b, a))
    && (forall a, b, c :: le(a, b) && le(b, c) ==> le(a, c))
  }

  ghost predicate SortedBy<T>(s: seq<T>, le: (T, T) -> bool) {
    forall i, j :: 0 <= i < j < |s| ==> le(s[i], s[j])
  }

  /** Inserts `x` before the first element it does not exceed. */
  function InsertBy<T>(x: T, s: seq<T>, le: (T, T) -> bool): (r: seq<T>)
    ensures |r| == |s| + 1
    ensures multiset(r) == multiset(s) + multiset{x}
  {
    if |s| == 0 || le(x, s[0]) then
      [x] + s
    else
      assert s == [s[0]] + s[1..];
      [s[0]] + InsertBy(x, s[1..], le)
  }

  /** `s.sorted(by:)` as a stable insertion sort: a permutation of `s`. */
  function SortBy<T>(s: seq<T>, le: (T, T) -> bool): (r: seq<T>)
    ensures |r| == |s|
    ensures multiset(r) == multiset(s)
  {
    if |s| == 0 then
      []
    else
      assert s == [s[0]] + s[1..];
      InsertBy(s[0], SortBy(s[1..], le), le)
  }

  lemma {:induction false} InsertBySorted<T(!new)>(x: T, s: seq<T>, le: (T, T) -> bool)
    requires TotalPreorder(le) && SortedBy(s, le)
    ensures SortedBy(InsertBy(x, s, le), le)
  {
    if |s| > 0 && !le(x, s[0]) {
      var rest := InsertBy(x, s[1..], le);
      InsertBySorted(x, s[1..], le);
      forall j | 0 <= j < |rest| ensures le(s[0], rest[j]) {
        assert rest[j] in multiset(rest);
        if rest[j] != x {
          assert rest[j] in multiset(s[1..]);
          assert rest[j] in s[1..];
        }
      }
    }
  }

  /** The result of `SortBy` is ordered under a total preorder. */
  lemma {:induction false} SortBySorted<T(!new)>(s: seq<T>, le: (T, T) -> bool)
    requires TotalPreorder(le)
    ensures SortedBy(SortBy(s, le), le)
  {
    if |s| > 0 {
      SortBySorted(s[1..], le);
      InsertBySorted(s[0], SortBy(s[1..], le), le);
    }
  }

  /** The stable sort leaves an already ordered sequence as it is. */
  lemma {:induction false} SortBySortedIsIdentity<T>(s: seq<T>, le: (T, T) -> bool)
    requires SortedBy(s, le)
    ensures SortBy(s, le) == s
  {
    if |s| > 0 {
      assert SortedBy(s[1..], le) by {
        forall i, j | 0 <= i < j < |s[1..]| ensures le(s[1..][i], s[1..][j]) {
          assert s[1..][i] == s[i + 1] && s[1..][j] == s[j + 1];
        }
      }
      SortBySortedIsIdentity(s[1..], le);
      assert s == [s[0]] + s[1..];
      if |s| > 1 {
        assert le(s[0], s[1]);
      }
    }
  }

  /** In an ordered sequence, everything before a cut comes no later than
      everything after it. */
  lemma SortedSplit<T>(sorted: seq<T>, le: (T, T) -> bool, cut: nat)
    requires SortedBy(sorted, le) && cut <= |sorted|
    ensures forall i, j :: 0 <= i < cut && 0 <= j < |sorted| - cut ==> le(sorted[..cut][i], sorted[cut..][j])
  {
    forall i, j | 0 <= i < cut && 0 <= j < |sorted| - cut ensures le(sorted[..cut][i], sorted[cut..][j]) {
      assert sorted[..cut][i] == sorted[i] && sorted[cut..][j] == sorted[cut + j];
    }
  }

  /** A tail of an ordered sequence is ordered. */
  lemma TailSorted<T>(sorted: seq<T>, le: (T, T) -> bool, cut: nat)
    requires SortedBy(sorted, le) && cut <= |sorted|
    ensures SortedBy(sorted[cut..], le)
  {
    var r := sorted[cut..];
    forall i, j | 0 <= i < j < |r| ensures le(r[i], r[j]) {
      assert r[i] == sorted[cut + i] && r[j] == sorted[cut + j];
    }
  }

  /** Every element of a tail is an element of the whole. */
  lemma TailDrawnFrom<T>(s: seq<T>, cut: nat)
    requires cut <= |s|
    ensures forall i :: 0 <= i < |s[cut..]| ==> s[cut..][i] in multiset(s)
  {
    forall i | 0 <= i < |s[cut..]| ensures s[cut..][i] in multiset(s) {
      assert s[cut..][i] == s[cut + i];
    }
  }

  /** The last `k` elements of a sorted copy are in order and drawn from
      the original. */
  lemma SortedSuffix<T(!new)>(s: seq<T>, le: (T, T) -> bool, k: nat)
    requires TotalPreorder(le)
    ensures SortedBy(Suffix(SortBy(s, le), k), le)
    ensures forall i :: 0 <= i < |Suffix(SortBy(s, le), k)| ==> Suffix(SortBy(s, le), k)[i] in multiset(s)
  {
    var sorted := SortBy(s, le);
    var r := Suffix(sorted, k);
    var cut := |sorted| - |r|;
    assert r == sorted[cut..];
    assert SortedBy(r, le) by {
      SortBySorted(s, le);
      TailSorted(sorted, le, cut);
    }
    TailDrawnFrom(sorted, cut);
  }

  /** Every element of `front` comes no later than every element of `back`. */
  ghost predicate AllPrecede<T>(front: seq<T>, back: seq<T>, le: (T, T) -> bool) {
    forall i, j :: 0 <= i < |front| && 0 <= j < |back| ==> le(front[i], back[j])
  }

  /** The first `k` elements of a sorted copy come no later than every
      element left out. */
  lemma SortedPrefixLeads<T(!new)>(s: seq<T>, le: (T, T) -> bool, k: nat)
    requires TotalPreorder(le)
    ensures exists rest: seq<T> ::
              && multiset(Prefix(SortBy(s, le), k)) + multiset(rest) == multiset(s)
              && AllPrecede(Prefix(SortBy(s, le), k), rest, le)
  {
    var sorted := SortBy(s, le);
    SortBySorted(s, le);
    var front := Prefix(sorted, k);
    var cut := |front|;
    var rest := sorted[cut..];
    assert multiset(front) + multiset(rest) == multiset(sorted) by {
      assert sorted == front + rest;
    }
    assert AllPrecede(front, rest, le) by {
      SortedSplit(sorted, le, cut);
    }
  }

  /** The last `k` elements of a sorted copy come no earlier than every
      element left out. */
  lemma SortedSuffixTrails<T(!new)>(s: seq<T>, le: (T, T) -> bool, k: nat)
    requires TotalPreorder(le)
    ensures exists rest: seq<T> ::
              && multiset(rest) + multiset(Suffix(SortBy(s, le), k)) == multiset(s)
              && AllPrecede(rest, Suffix(SortBy(s, le), k), le)
  {
    var sorted := SortBy(s, le);
    SortBySorted(s, le);
    var back := Suffix(sorted, k);
    var cut := |sorted| - |back|;
    var rest := sorted[..cut];
    assert multiset(rest) + multiset(back) == multiset(sorted) by {
      assert sorted == rest + back;
    }
    assert AllPrecede(rest, back, le) by {
      SortedSplit(sorted, le, cut);
    }
  }

  // ---------------------------------------------------------- distinctness

  /** No two positions of `s` carry the same key. */
  ghost predicate DistinctBy<T, K>(s: seq<T>, key: T -> K) {
    forall i, j :: 0 <= i < |s| && 0 <= j < |s| && key(s[i]) == key(s[j]) ==> i == j
  }

  lemma {:induction false} DistinctByAtMostOnce<T, K>(s: seq<T>, key: T -> K, x: T)
    requires DistinctBy(s, key)
    ensures multiset(s)[x] <= 1
  {
    if |s| > 0 {
      assert s == [s[0]] + s[1..];
      assert DistinctBy(s[1..], key) by {
        forall i, j | 0 <= i < |s[1..]| && 0 <= j < |s[1..]| && key(s[1..][i]) == key(s[1..][j])
          ensures i == j
        {
          assert key(s[i + 1]) == key(s[j + 1]);
        }
      }
      DistinctByAtMostOnce(s[1..], key, x);
    }
  }

  lemma TwiceCountsTwice<T>(s: seq<T>, i: nat, j: nat)
    requires i < j < |s| && s[i] == s[j]
    ensures multiset(s)[s[i]] >= 2
  {
    assert s == s[..i] + [s[i]] + s[i + 1..];
    assert s[j] == s[i + 1..][j - i - 1];
    assert s[i] in multiset(s[i + 1..]);
  }

  /** Under distinct keys, two members with one key are one element. */
  lemma DistinctKeysOfMembers<T, K>(s: seq<T>, key: T -> K, x: T, y: T)
    requires DistinctBy(s, key) && x in s && y in s && key(x) == key(y)
    ensures x == y
  {
    var p :| 0 <= p < |s| && s[p] == x;
    var q :| 0 <= q < |s| && s[q] == y;
  }

  /** An element occurring at most once sits at one position only. */
  lemma SameElementSameIndex<T>(s: seq<T>, i: nat, j: nat)
    requires i < |s| && j < |s| && s[i] == s[j] && multiset(s)[s[i]] <= 1
    ensures i == j
  {
    if i < j {
      TwiceCountsTwice(s, i, j);
    } else if j < i {
      TwiceCountsTwice(s, j, i);
    }
  }

  /** A rearrangement of a sequence with distinct keys has distinct keys. */
  lemma DistinctByPermutation<T, K>(a: seq<T>, b: seq<T>, key: T -> K)
    requires multiset(a) == multiset(b) && DistinctBy(a, key)
    ensures DistinctBy(b, key)
  {
    forall i, j | 0 <= i < |b| && 0 <= j < |b| && key(b[i]) == key(b[j]) ensures i == j {
      assert b[i] in multiset(a) && b[j] in multiset(a);
      DistinctKeysOfMembers(a, key, b[i], b[j]);
      DistinctByAtMostOnce(a, key, b[i]);
      SameElementSameIndex(b, i, j);
    }
  }

  /** Every two positions of `s` are related by `ok`. */
  ghost predicate Pairwise<T>(s: seq<T>, ok: (T, T) -> bool) {
    forall i, j :: 0 <= i < |s| && 0 <= j < |s| && i != j ==> ok(s[i], s[j])
  }

  /** Filtering keeps a pairwise property. */
  lemma {:induction false} FilterPairwise<T>(s: seq<T>, p: T -> bool, ok: (T, T) -> bool)
    requires Pairwise(s, ok)
    ensures Pairwise(Filter(s, p), ok)
  {
    if |s| > 0 {
      var tail := s[1..];
      assert Pairwise(tail, ok) by {
        forall i, j | 0 <= i < |tail| && 0 <= j < |tail| && i != j ensures ok(tail[i], tail[j]) {
          assert tail[i] == s[i + 1] && tail[j] == s[j + 1];
        }
      }
      FilterPairwise(tail, p, ok);
      if p(s[0]) {
        var r := Filter(s, p);
        var rest := Filter(tail, p);
        assert r == [s[0]] + rest;
        forall m | 0 <= m < |rest| ensures ok(s[0], rest[m]) && ok(rest[m], s[0]) {
          var n :| 0 <= n < |tail| && tail[n] == rest[m];
          assert s[n + 1] == rest[m];
        }
        forall i, j | 0 <= i < |r| && 0 <= j < |r| && i != j ensures ok(r[i], r[j]) {
          if i > 0 && j > 0 {
            assert r[i] == rest[i - 1] && r[j] == rest[j - 1];
          } else if i == 0 {
            assert r[j] == rest[j - 1];
          } else {
            assert r[i] == rest[i - 1];
          }
        }
      }
    }
  }

  // --------------------------------------------------------------- maximum

  /** `xs.max()`: absent for an empty sequence, otherwise an element no
      smaller than any other. */
  function Max(xs: seq<real>): (m: Option<real>)
    ensures m.None? <==> |xs| == 0
    ensures m.Some? ==> m.value in xs
    ensures m.Some? ==> forall i :: 0 <= i < |xs| ==> xs[i] <= m.value
  {
    if |xs| == 0 then
      None
    else
      match Max(xs[1..])
      case None => Some(xs[0])
      case Some(rest) =>
        assert forall i :: 1 <= i < |xs| ==> xs[i] == xs[1..][i - 1];
        Some(if xs[0] >= rest then xs[0] else rest)
  }
}

=== FILE: stats.dfy ===
/** Training volume and estimated one-rep maximum (StatsEngine and
    `LoggedSet.volume`). */
module Stats {
  import opened Domain
  import opened Seqs

  /** `LoggedSet.volume`: weight times reps; never negative for a
      non-negative weight and rep count, and nothing for zero reps or no
      weight. */
  function Volume(s: LoggedSet): (r: real)
    ensures s.weight >= 0.0 && s.reps >= 0 ==> r >= 0.0
    ensures s.reps == 0 || s.weight == 0.0 ==> r == 0.0
  {
    s.weight * s.reps as real
  }

  predicate IsWorking(s: LoggedSet) {
    !s.isWarmup
  }

  /** The non-warm-up sets, in order. */
  function WorkingSets(sets: seq<LoggedSet>): (r: seq<LoggedSet>)
    ensures |r| <= |sets|
    ensures forall i :: 0 <= i < |r| ==> !r[i].isWarmup && r[i] in sets
    ensures forall i :: 0 <= i < |sets| && !sets[i].isWarmup ==> sets[i] in r
  {
    Filter(sets, IsWorking)
  }

  /** Sum of the volumes of `sets`, warm-ups included. */
  function SumVolumes(sets: seq<LoggedSet>): real {
    if |sets| == 0 then 0.0 else Volume(sets[0]) + SumVolumes(sets[1..])
  }

  /** `flatMap(\.sets)` over logged exercises. */
  function AllSets(les: seq<LoggedExercise>): seq<LoggedSet> {
    if |les| == 0 then [] else les[0].sets + AllSets(les[1..])
  }

  /** `StatsEngine.exerciseVolume`: the volume of the working sets, so
      nothing when every set is a warm-up. */
  function ExerciseVolume(le: LoggedExercise): (r: real)
    ensures (forall i :: 0 <= i < |le.sets| ==> le.sets[i].isWarmup) ==> r == 0.0
  {
    var w := WorkingSets(le.sets);
    assert |w| > 0 ==> w[0] in le.sets;
    SumVolumes(w)
  }

  /** `StatsEngine.totalSessionVolume`: the working sets of all logged
      exercises together, which is the sum of the exercise volumes. */
  function TotalSessionVolume(s: WorkoutSession): (r: real)
    ensures r == SumExerciseVolumes(s.loggedExercises)
  {
    SessionVolumeIsSumOfExerciseVolumes(s.loggedExercises);
    SumVolumes(WorkingSets(AllSets(s.loggedExercises)))
  }

  /** Sum of `ExerciseVolume` over logged exercises. */
  function SumExerciseVolumes(les: seq<LoggedExercise>): real {
    if |les| == 0 then 0.0 else ExerciseVolume(les[0]) + SumExerciseVolumes(les[1..])
  }

  function EpleyFactor(reps: int): real {
    1.0 + reps as real / 30.0
  }

  /** `StatsEngine.estimatedOneRepMax` (Epley): zero for non-positive reps;
      otherwise the weight scaled so that dividing by the Epley factor of
      the same reps gives the weight back, and never below a non-negative
      weight. */
  function EstimatedOneRepMax(weight: real, reps: int): (r: real)
    ensures reps <= 0 ==> r == 0.0
    ensures reps > 0 ==> EpleyFactor(reps) > 0.0 && r / EpleyFactor(reps) == weight
    ensures reps > 0 && weight >= 0.0 ==> r >= weight
  {
    if reps <= 0 then 0.0 else weight * EpleyFactor(reps)
  }

  /** The worked example: 100 for 5 reps estimates 116.67. */
  lemma OneRepMaxExample()
    ensures EstimatedOneRepMax(100.0, 5) == 350.0 / 3.0
    ensures 116.666 < EstimatedOneRepMax(100.0, 5) < 116.667
  {
  }

  /** Undoing the Epley factor of more reps leaves a lighter weight. */
  lemma EpleyInverseAntitone(oneRM: real, fewer: int, more: int)
    requires oneRM >= 0.0 && 0 < fewer <= more
    ensures oneRM / EpleyFactor(more) <= oneRM / EpleyFactor(fewer)
  {
    var a := EpleyFactor(fewer);
    var b := EpleyFactor(more);
    assert 0.0 < a <= b;
    assert oneRM / b * b == oneRM;
    assert oneRM / a * a == oneRM;
    if oneRM / b > oneRM / a {
      assert oneRM / b * b > oneRM / a * b;
      assert oneRM / a * b >= oneRM / a * a;
    }
  }

  /** The weight that estimates exactly `oneRM` at `reps` reps. */
  lemma EpleyInverse(oneRM: real, reps: int)
    requires reps > 0
    ensures EstimatedOneRepMax(oneRM / EpleyFactor(reps), reps) == oneRM
  {
    assert oneRM / EpleyFactor(reps) * EpleyFactor(reps) == oneRM;
  }

  lemma {:induction false} SumVolumesAppend(a: seq<LoggedSet>, b: seq<LoggedSet>)
    ensures SumVolumes(a + b) == SumVolumes(a) + SumVolumes(b)
  {
    if |a| > 0 {
      assert (a + b)[1..] == a[1..] + b;
      SumVolumesAppend(a[1..], b);
    } else {
      assert a + b == b;
    }
  }

  /** The session volume is the sum of the volumes of its logged exercises. */
  lemma {:induction false} SessionVolumeIsSumOfExerciseVolumes(les: seq<LoggedExercise>)
    ensures SumVolumes(WorkingSets(AllSets(les))) == SumExerciseVolumes(les)
  {
    if |les| > 0 {
      FilterAppend(les[0].sets, AllSets(les[1..]), IsWorking);
      SumVolumesAppend(WorkingSets(les[0].sets), WorkingSets(AllSets(les[1..])));
      SessionVolumeIsSumOfExerciseVolumes(les[1..]);
    }
  }

  /** `les` with `extra` appended to the sets of logged exercise `k`. */
  function AppendSet(les: seq<LoggedExercise>, k: nat, extra: LoggedSet): (r: seq<LoggedExercise>)
    requires k < |les|
    ensures |r| == |les|
  {
    les[k := les[k].(sets := les[k].sets + [extra])]
  }

  lemma {:induction false} WarmupLeavesWorkingSets(les: seq<LoggedExercise>, k: nat, w: LoggedSet)
    requires k < |les| && w.isWarmup
    ensures WorkingSets(AllSets(AppendSet(les, k, w))) == WorkingSets(AllSets(les))
  {
    var les' := AppendSet(les, k, w);
    assert les'[1..] == if k == 0 then les[1..] else AppendSet(les[1..], k - 1, w);
    if k == 0 {
      FilterAppend(les[0].sets, [w], IsWorking);
      FilterAppend(les[0].sets + [w], AllSets(les[1..]), IsWorking);
      FilterAppend(les[0].sets, AllSets(les[1..]), IsWorking);
    } else {
      WarmupLeavesWorkingSets(les[1..], k - 1, w);
      FilterAppend(les[0].sets, AllSets(les'[1..]), IsWorking);
      FilterAppend(les[0].sets, AllSets(les[1..]), IsWorking);
    }
  }

  /** Logging a warm-up set changes neither the exercise's volume nor the
      session's volume. */
  lemma WarmupDoesNotChangeVolume(s: WorkoutSession, k: nat, w: LoggedSet)
    requires k < |s.loggedExercises| && w.isWarmup
    ensures ExerciseVolume(s.loggedExercises[k].(sets := s.loggedExercises[k].sets + [w]))
            == ExerciseVolume(s.loggedExercises[k])
    ensures TotalSessionVolume(s.(loggedExercises := AppendSet(s.loggedExercises, k, w)))
            == TotalSessionVolume(s)
  {
    var sets := s.loggedExercises[k].sets;
    FilterAppend(sets, [w], IsWorking);
    assert WorkingSets([w]) == [];
    assert WorkingSets(sets + [w]) == WorkingSets(sets);
    WarmupLeavesWorkingSets(s.loggedExercises, k, w);
  }

  /** Every set of `AllSets(les)` is a set of one of the logged exercises. */
  lemma {:induction false} AllSetsFrom(les: seq<LoggedExercise>)
    ensures forall x :: x in AllSets(les) ==> exists i :: 0 <= i < |les| && x in les[i].sets
  {
    if |les| > 0 {
      AllSetsFrom(les[1..]);
      forall x | x in AllSets(les) ensures exists i :: 0 <= i < |les| && x in les[i].sets {
        if x !in les[0].sets {
          assert x in AllSets(les[1..]);
          var i :| 0 <= i < |les[1..]| && x in les[1..][i].sets;
          assert x in les[i + 1].sets;
        }
      }
    }
  }

  /** A session whose sets are all warm-ups has volume zero. */
  lemma NoWorkingSetsNoVolume(s: WorkoutSession)
    requires forall i, j :: 0 <= i < |s.loggedExercises| && 0 <= j < |s.loggedExercises[i].sets|
               ==> s.loggedExercises[i].sets[j].isWarmup
    ensures TotalSessionVolume(s) == 0.0
  {
    var all := AllSets(s.loggedExercises);
    var w := WorkingSets(all);
    AllSetsFrom(s.loggedExercises);
    forall k | 0 <= k < |all| ensures all[k].isWarmup {
      assert all[k] in all;
      var i :| 0 <= i < |s.loggedExercises| && all[k] in s.loggedExercises[i].sets;
    }
    NoWorkingSetsAmongWarmups(all);
  }

  lemma {:induction false} NoWorkingSetsAmongWarmups(sets: seq<LoggedSet>)
    requires forall i :: 0 <= i < |sets| ==> sets[i].isWarmup
    ensures WorkingSets(sets) == []
  {
    if |sets| > 0 {
      NoWorkingSetsAmongWarmups(sets[1..]);
    }
  }

  lemma {:induction false} SumVolumesNonNegative(sets: seq<LoggedSet>)
    requires forall i :: 0 <= i < |sets| ==> ValidSet(sets[i])
    ensures SumVolumes(sets) >= 0.0
  {
    if |sets| > 0 {
      SumVolumesNonNegative(sets[1..]);
    }
  }

  /** With the write-path rules in force, volumes are never negative. */
  lemma VolumesNonNegative(s: WorkoutSession)
    requires forall i, j :: 0 <= i < |s.loggedExercises| && 0 <= j < |s.loggedExercises[i].sets|
               ==> ValidSet(s.loggedExercises[i].sets[j])
    ensures TotalSessionVolume(s) >= 0.0
    ensures forall i :: 0 <= i < |s.loggedExercises| ==> ExerciseVolume(s.loggedExercises[i]) >= 0.0
  {
    AllSetsFrom(s.loggedExercises);
    var all := AllSets(s.loggedExercises);
    var w := WorkingSets(all);
    forall k | 0 <= k < |w| ensures ValidSet(w[k]) {
      var i :| 0 <= i < |s.loggedExercises| && w[k] in s.loggedExercises[i].sets;
    }
    SumVolumesNonNegative(w);
    forall i | 0 <= i < |s.loggedExercises| ensures ExerciseVolume(s.loggedExercises[i]) >= 0.0 {
      var le := s.loggedExercises[i];
      var wi := WorkingSets(le.sets);
      forall k | 0 <= k < |wi| ensures ValidSet(wi[k]) {
        var j :| 0 <= j < |le.sets| && le.sets[j] == wi[k];
      }
      SumVolumesNonNegative(wi);
    }
  }
}

=== FILE: taxonomy_regions.dfy ===
/** How the seed merge's region index sees the taxonomy that bootstrapping
    creates: region names repeat across groups, and the index keeps the
    region created last. */
module TaxonomyRegions {
  import opened Wrappers
  import opened Domain
  import opened Text
  import opened SeedData
  import opened Bootstrap

  /** A region is what the index holds for its lower-cased name when no later
      region has a name of that length. */
  lemma LookupFindsLast(regions: seq<MuscleRegion>, key: string, i: nat)
    requires i < |regions| && ToLower(regions[i].name) == key
    requires forall j :: i < j < |regions| ==> |regions[j].name| != |key|
    ensures RegionLookup(regions, key) == Some(regions[i])
  {
    var r := RegionLookup(regions, key);
    assert r.Some?;
    var i' :| LastNamed(regions, key, i') && regions[i'] == r.value;
    assert |ToLower(regions[i'].name)| == |regions[i'].name|;
  }

  /** The same, for a region of the last group searched. */
  lemma LookupFindsInLastGroup(a: seq<MuscleRegion>, b: seq<MuscleRegion>, key: string, i: nat)
    requires i < |b| && ToLower(b[i].name) == key
    requires forall j :: i < j < |b| ==> |b[j].name| != |key|
    ensures RegionLookup(a + b, key) == Some(b[i])
  {
    assert (a + b)[|a| + i] == b[i];
    LookupFindsLast(a + b, key, |a| + i);
  }

  /** Regions appended after the ones searched cannot change what the index
      holds for a key when none of their names has the key's length. */
  lemma {:induction false} LookupSkipsTail(a: seq<MuscleRegion>, b: seq<MuscleRegion>, key: string)
    requires forall j :: 0 <= j < |b| ==> |b[j].name| != |key|
    ensures RegionLookup(a + b, key) == RegionLookup(a, key)
  {
    if |b| == 0 {
      assert a + b == a;
    } else {
      var n := |b| - 1;
      assert |ToLower(b[n].name)| == |b[n].name|;
      assert (a + b)[..|a + b| - 1] == a + b[..n];
      LookupSkipsTail(a, b[..n], key);
    }
  }

  lemma LowerLong()
    ensures ToLower("Long") == "long"
  {
    var r := ToLower("Long");
    assert r[0] == LowerChar('L') == 'l';
    assert r[1] == 'o' && r[2] == 'n' && r[3] == 'g';
  }

  lemma LowerLateral()
    ensures ToLower("Lateral") == "lateral"
  {
    var r := ToLower("Lateral");
    assert r[0] == LowerChar('L') == 'l';
    assert r[1] == 'a' && r[2] == 't' && r[3] == 'e' && r[4] == 'r' && r[5] == 'a' && r[6] == 'l';
  }

  function Names(regions: seq<MuscleRegion>): (r: seq<string>)
    ensures |r| == |regions|
    ensures forall j :: 0 <= j < |regions| ==> r[j] == regions[j].name
  {
    seq(|regions|, j requires 0 <= j < |regions| => regions[j].name)
  }

  /** The shape `MakeGroups` gives: seven groups whose regions carry the
      taxonomy's names in order. */
  ghost predicate Shaped(groups: seq<MuscleGroup>) {
    |groups| == |RegionNames| && forall i :: 0 <= i < |groups| ==> Names(groups[i].regions) == RegionNames[i]
  }

  lemma MadeGroupsShaped(groupId: nat -> Uuid, regionId: (nat, nat) -> Uuid)
    ensures Shaped(MakeGroups(groupId, regionId))
  {
    var groups := MakeGroups(groupId, regionId);
    forall i | 0 <= i < |groups| ensures Names(groups[i].regions) == RegionNames[i] {
      assert groups[i] == MakeGroup(i, groupId, regionId);
    }
  }

  predicate NoneOfLength(names: seq<string>, n: nat) {
    |names| == 0 || (|names[0]| != n && NoneOfLength(names[1..], n))
  }

  lemma {:induction false} NoneOfLengthAt(names: seq<string>, n: nat, k: nat)
    requires NoneOfLength(names, n) && k < |names|
    ensures |names[k]| != n
  {
    if k > 0 {
      NoneOfLengthAt(names[1..], n, k - 1);
    }
  }

  /** The name lengths the two lookups below depend on: no region created
      after Shoulders' Lateral has a seven-letter name, and none created after
      Biceps' Long has a four-letter one. */
  lemma TaxonomyNameLengths()
    ensures NoneOfLength(RegionNames[2][2..], 7) && NoneOfLength(RegionNames[3][0..], 7)
    ensures NoneOfLength(RegionNames[4][0..], 7) && NoneOfLength(RegionNames[5][0..], 7) && NoneOfLength(RegionNames[6][0..], 7)
    ensures NoneOfLength(RegionNames[4][1..], 4) && NoneOfLength(RegionNames[5][0..], 4) && NoneOfLength(RegionNames[6][0..], 4)
  {
  }

  /** No region from position `from` on has a name of length `n`. */
  lemma NamesNotOfLength(regions: seq<MuscleRegion>, from: nat, n: nat)
    requires from <= |regions| && NoneOfLength(Names(regions)[from..], n)
    ensures forall j :: from <= j < |regions| ==> |regions[j].name| != n
  {
    forall j | from <= j < |regions| ensures |regions[j].name| != n {
      NoneOfLengthAt(Names(regions)[from..], n, j - from);
    }
  }

  /** `flatMap` distributes over concatenation. */
  lemma {:induction false} AllRegionsAppend(a: seq<MuscleGroup>, b: seq<MuscleGroup>)
    ensures AllRegions(a + b) == AllRegions(a) + AllRegions(b)
  {
    if |a| == 0 {
      assert a + b == b;
    } else {
      assert (a + b)[0] == a[0] && (a + b)[1..] == a[1..] + b;
      AllRegionsAppend(a[1..], b);
    }
  }

  /** Groups created after the first `n` cannot change what the index holds
      for a key when none of their region names has the key's length. */
  lemma LookupSkipsGroups(groups: seq<MuscleGroup>, n: nat, key: string)
    requires n <= |groups|
    requires forall m, x :: n <= m < |groups| && x in groups[m].regions ==> |x.name| != |key|
    ensures RegionLookup(AllRegions(groups), key) == RegionLookup(AllRegions(groups[..n]), key)
  {
    assert groups == groups[..n] + groups[n..];
    AllRegionsAppend(groups[..n], groups[n..]);
    var tail := AllRegions(groups[n..]);
    forall j | 0 <= j < |tail| ensures |tail[j].name| != |key| {
      assert tail[j] in tail;
      var g :| g in groups[n..] && tail[j] in g.regions;
      var m :| 0 <= m < |groups[n..]| && groups[n..][m] == g;
      assert groups[n + m] == g;
    }
    LookupSkipsTail(AllRegions(groups[..n]), tail, key);
  }

  /** The index built from the first `n + 1` groups holds a region of
      group `n` when no later region of that group has a name of the key's
      length. */
  lemma LookupFindsInGroup(groups: seq<MuscleGroup>, n: nat, i: nat, key: string)
    requires n < |groups| && i < |groups[n].regions| && ToLower(groups[n].regions[i].name) == key
    requires forall j :: i < j < |groups[n].regions| ==> |groups[n].regions[j].name| != |key|
    ensures RegionLookup(AllRegions(groups[..n + 1]), key) == Some(groups[n].regions[i])
  {
    assert groups[..n + 1] == groups[..n] + [groups[n]];
    AllRegionsAppend(groups[..n], [groups[n]]);
    assert AllRegions([groups[n]]) == groups[n].regions by { assert [groups[n]][1..] == []; }
    LookupFindsInLastGroup(AllRegions(groups[..n]), groups[n].regions, key, i);
  }

  /** The groups after Shoulders hold no seven-letter region name. */
  lemma NoSevenLetterAfterShoulders(groups: seq<MuscleGroup>)
    requires Shaped(groups)
    ensures forall m, x :: 3 <= m < |groups| && x in groups[m].regions ==> |x.name| != 7
  {
    TaxonomyNameLengths();
    var g := groups;
    assert Names(g[3].regions) == RegionNames[3] && Names(g[4].regions) == RegionNames[4];
    assert Names(g[5].regions) == RegionNames[5] && Names(g[6].regions) == RegionNames[6];
    NamesNotOfLength(g[3].regions, 0, 7);
    NamesNotOfLength(g[4].regions, 0, 7);
    NamesNotOfLength(g[5].regions, 0, 7);
    NamesNotOfLength(g[6].regions, 0, 7);
  }

  /** The groups after Biceps hold no four-letter region name. */
  lemma NoFourLetterAfterBiceps(groups: seq<MuscleGroup>)
    requires Shaped(groups)
    ensures forall m, x :: 5 <= m < |groups| && x in groups[m].regions ==> |x.name| != 4
  {
    TaxonomyNameLengths();
    var g := groups;
    assert Names(g[5].regions) == RegionNames[5] && Names(g[6].regions) == RegionNames[6];
    NamesNotOfLength(g[5].regions, 0, 4);
    NamesNotOfLength(g[6].regions, 0, 4);
  }

  /** "Lateral" names a Triceps and a Shoulders region; the index resolves
      it to the Shoulders one, created later. */
  lemma LateralResolvesToShoulders(groups: seq<MuscleGroup>)
    requires Shaped(groups)
    ensures && groups[1].regions[1].name == groups[2].regions[1].name == "Lateral"
            && RegionLookup(AllRegions(groups), "lateral") == Some(groups[2].regions[1])
  {
    NoSevenLetterAfterShoulders(groups);
    LookupSkipsGroups(groups, 3, "lateral");
    LateralInShoulders(groups);
  }

  lemma LateralInShoulders(groups: seq<MuscleGroup>)
    requires Shaped(groups)
    ensures && groups[1].regions[1].name == groups[2].regions[1].name == "Lateral"
            && RegionLookup(AllRegions(groups[..3]), "lateral") == Some(groups[2].regions[1])
  {
    var g := groups;
    TaxonomyNameLengths();
    assert Names(g[1].regions) == RegionNames[1] && Names(g[2].regions) == RegionNames[2];
    LowerLateral();
    assert g[2].regions[1].name == "Lateral";
    NamesNotOfLength(g[2].regions, 2, 7);
    LookupFindsInGroup(g, 2, 1, "lateral");
  }

  /** "Long" names a Triceps and a Biceps region; the index resolves it to
      the Biceps one, created later. */
  lemma LongResolvesToBiceps(groups: seq<MuscleGroup>)
    requires Shaped(groups)
    ensures && groups[1].regions[0].name == groups[4].regions[0].name == "Long"
            && RegionLookup(AllRegions(groups), "long") == Some(groups[4].regions[0])
  {
    NoFourLetterAfterBiceps(groups);
    LookupSkipsGroups(groups, 5, "long");
    LongInBiceps(groups);
  }

  lemma LongInBiceps(groups: seq<MuscleGroup>)
    requires Shaped(groups)
    ensures && groups[1].regions[0].name == groups[4].regions[0].name == "Long"
            && RegionLookup(AllRegions(groups[..5]), "long") == Some(groups[4].regions[0])
  {
    var g := groups;
    TaxonomyNameLengths();
    assert Names(g[1].regions) == RegionNames[1] && Names(g[4].regions) == RegionNames[4];
    LowerLong();
    assert g[4].regions[0].name == "Long";
    NamesNotOfLength(g[4].regions, 1, 4);
    LookupFindsInGroup(g, 4, 0, "long");
  }

  /** On the taxonomy bootstrapping creates, the region index resolves
      "lateral" to Shoulders' region and "long" to Biceps' region. */
  lemma BootstrappedIndexKeepsLast(groupId: nat -> Uuid, regionId: (nat, nat) -> Uuid)
    ensures var groups := MakeGroups(groupId, regionId);
            && RegionLookup(AllRegions(groups), "lateral") == Some(groups[2].regions[1])
            && RegionLookup(AllRegions(groups), "long") == Some(groups[4].regions[0])
  {
    MadeGroupsShaped(groupId, regionId);
    LateralResolvesToShoulders(MakeGroups(groupId, regionId));
    LongResolvesToBiceps(MakeGroups(groupId, regionId));
  }
}

=== FILE: text.dfy ===
/** Character and string helpers the app relies on: case folding, whitespace
    trimming, substring search, lexicographic order, and decimal rendering
    and parsing of numbers.  Case folding and whitespace cover ASCII only. */
module Text {
  import opened Wrappers

  // ---------------------------------------------------------------- case

  /** ASCII lower-casing of one character; every other character is kept. */
  function LowerChar(c: char): char {
    if 'A' <= c <= 'Z' then (c as int - 'A' as int + 'a' as int) as char else c
  }

  /** `String.lowercased()`. */
  function ToLower(s: string): (r: string)
    ensures |r| == |s|
    ensures forall i :: 0 <= i < |s| ==> r[i] == LowerChar(s[i])
  {
    if |s| == 0 then "" else [LowerChar(s[0])] + ToLower(s[1..])
  }

  lemma ToLowerIdempotent(s: string)
    ensures ToLower(ToLower(s)) == ToLower(s)
  {
  }

  /** `a.caseInsensitiveCompare(b) == .orderedSame`. */
  predicate EqualIgnoringCase(a: string, b: string) {
    ToLower(a) == ToLower(b)
  }

  // ---------------------------------------------------------- whitespace

  predicate IsWhitespace(c: char) {
    c == ' ' || c == '\t' || c == '\n' || c == '\r' || c == '\U{000B}' || c == '\U{000C}'
  }

  predicate AllWhitespace(s: string) {
    forall i :: 0 <= i < |s| ==> IsWhitespace(s[i])
  }

  /** How many whitespace characters `s` starts with. */
  function LeadingBlanks(s: string): (k: nat)
    ensures k <= |s|
    ensures forall i :: 0 <= i < k ==> IsWhitespace(s[i])
    ensures k < |s| ==> !IsWhitespace(s[k])
  {
    if |s| > 0 && IsWhitespace(s[0]) then 1 + LeadingBlanks(s[1..]) else 0
  }

  /** How many whitespace characters `s` ends with. */
  function TrailingBlanks(s: string): (k: nat)
    ensures k <= |s|
    ensures forall i :: |s| - k <= i < |s| ==> IsWhitespace(s[i])
    ensures k < |s| ==> !IsWhitespace(s[|s| - k - 1])
  {
    if |s| > 0 && IsWhitespace(s[|s| - 1]) then 1 + TrailingBlanks(s[..|s| - 1]) else 0
  }

  function TrimStart(s: string): (r: string)
    ensures |r| <= |s| && r == s[|s| - |r|..]
    ensures AllWhitespace(s[..|s| - |r|])
    ensures |r| > 0 ==> !IsWhitespace(r[0])
  {
    s[LeadingBlanks(s)..]
  }

  function TrimEnd(s: string): (r: string)
    ensures |r| <= |s| && r == s[..|r|]
    ensures AllWhitespace(s[|r|..])
    ensures |r| > 0 ==> !IsWhitespace(r[|r| - 1])
  {
    s[..|s| - TrailingBlanks(s)]
  }

  /** `trimmingCharacters(in: .whitespacesAndNewlines)`: the text without its
      leading and trailing whitespace; empty exactly for blank text. */
  function Trim(s: string): (r: string)
    ensures |r| <= |s|
    ensures |r| > 0 ==> !IsWhitespace(r[0]) && !IsWhitespace(r[|r| - 1])
    ensures r == "" <==> AllWhitespace(s)
  {
    TrimBlank(s);
    TrimEnd(TrimStart(s))
  }

  lemma TrimBlank(s: string)
    ensures TrimEnd(TrimStart(s)) == "" <==> AllWhitespace(s)
  {
    var t := TrimStart(s);
    if TrimEnd(t) == "" {
      assert AllWhitespace(t);
      assert s == s[..|s| - |t|] + t;
    }
    if |t| > 0 {
      assert t[0] == s[|s| - |t|];
    }
  }

  // ----------------------------------------------------------- substrings

  ghost predicate OccursAt(needle: string, hay: string, i: int) {
    0 <= i <= |hay| - |needle| && hay[i..i + |needle|] == needle
  }

  predicate IsPrefix(p: string, s: string) {
    |p| <= |s| && s[..|p|] == p
  }

  lemma OccursShift(needle: string, hay: string)
    requires |hay| > 0 && !IsPrefix(needle, hay)
    ensures (exists i :: OccursAt(needle, hay, i)) <==> (exists i :: OccursAt(needle, hay[1..], i))
  {
    if exists i :: OccursAt(needle, hay, i) {
      var i :| OccursAt(needle, hay, i);
      assert i != 0;
      assert hay[1..][i - 1..i - 1 + |needle|] == hay[i..i + |needle|];
      assert OccursAt(needle, hay[1..], i - 1);
    }
    if exists i :: OccursAt(needle, hay[1..], i) {
      var i :| OccursAt(needle, hay[1..], i);
      assert hay[i + 1..i + 1 + |needle|] == hay[1..][i..i + |needle|];
      assert OccursAt(needle, hay, i + 1);
    }
  }

  /** `hay.contains(needle)`: some position of `hay` starts a copy of
      `needle`.  The empty needle occurs everywhere. */
  function Contains(hay: string, needle: string): (b: bool)
    ensures b <==> exists i :: OccursAt(needle, hay, i)
    decreases |hay|
  {
    if IsPrefix(needle, hay) then
      assert OccursAt(needle, hay, 0);
      true
    else if |hay| == 0 then
      false
    else
      OccursShift(needle, hay);
      Contains(hay[1..], needle)
  }

  /** Some keyword of `keywords` occurs in `hay`. */
  function ContainsAny(hay: string, keywords: seq<string>): (b: bool)
    ensures b <==> exists i :: 0 <= i < |keywords| && Contains(hay, keywords[i])
  {
    if |keywords| == 0 then false
    else if Contains(hay, keywords[0]) then true
    else
      var b := ContainsAny(hay, keywords[1..]);
      assert b ==> exists i :: 0 <= i < |keywords| && Contains(hay, keywords[i]) by {
        if b {
          var i :| 0 <= i < |keywords| - 1 && Contains(hay, keywords[1..][i]);
          assert Contains(hay, keywords[i + 1]);
        }
      }
      assert (exists i :: 0 <= i < |keywords| && Contains(hay, keywords[i])) ==> b by {
        if exists i :: 0 <= i < |keywords| && Contains(hay, keywords[i]) {
          var i :| 0 <= i < |keywords| && Contains(hay, keywords[i]);
          assert i != 0;
          assert Contains(hay, keywords[1..][i - 1]);
        }
      }
      b
  }

  // ---------------------------------------------------- lexicographic order

  /** Code-point lexicographic order, the model of Swift's `<=` on strings. */
  predicate LessEq(a: string, b: string)
    decreases |a|
  {
    |a| == 0 || (|b| > 0 && (a[0] < b[0] || (a[0] == b[0] && LessEq(a[1..], b[1..]))))
  }

  predicate Less(a: string, b: string) {
    LessEq(a, b) && a != b
  }

  lemma LessEqTotal(a: string, b: string)
    ensures LessEq(a, b) || LessEq(b, a)
  {
  }

  lemma LessEqTransitive(a: string, b: string, c: string)
    requires LessEq(a, b) && LessEq(b, c)
    ensures LessEq(a, c)
  {
  }

  lemma {:induction false} LessEqAntisymmetric(a: string, b: string)
    requires LessEq(a, b) && LessEq(b, a)
    ensures a == b
  {
    if |a| > 0 && |b| > 0 {
      LessEqAntisymmetric(a[1..], b[1..]);
      assert a == [a[0]] + a[1..];
      assert b == [b[0]] + b[1..];
    }
  }

  lemma LessTransitive(a: string, b: string, c: string)
    requires (LessEq(a, b) && Less(b, c)) || (Less(a, b) && LessEq(b, c))
    ensures Less(a, c)
  {
    LessEqTransitive(a, b, c);
    if a == c {
      LessEqAntisymmetric(a, b);
    }
  }

  predicate StrictlySorted(s: seq<string>) {
    forall i, j :: 0 <= i < j < |s| ==> Less(s[i], s[j])
  }

  /** Inserts `x` into a strictly increasing sequence, keeping it strictly
      increasing and free of duplicates: the model of inserting into a
      `Set<String>` that is later `sorted()`. */
  function InsertUnique(x: string, s: seq<string>): (r: seq<string>)
    requires StrictlySorted(s)
    ensures StrictlySorted(r)
    ensures forall e :: e in r <==> e in s || e == x
  {
    if |s| == 0 then
      [x]
    else if x == s[0] then
      s
    else if LessEq(x, s[0]) then
      InsertFront(x, s);
      [x] + s
    else
      var rest := InsertUnique(x, s[1..]);
      InsertBehind(x, s, rest);
      [s[0]] + rest
  }

  lemma InsertFront(x: string, s: seq<string>)
    requires StrictlySorted(s) && |s| > 0 && Less(x, s[0])
    ensures StrictlySorted([x] + s)
  {
    forall j | 0 < j < |s| ensures Less(x, s[j]) {
      LessTransitive(x, s[0], s[j]);
    }
  }

  lemma InsertBehind(x: string, s: seq<string>, rest: seq<string>)
    requires StrictlySorted(s) && |s| > 0 && !LessEq(x, s[0]) && StrictlySorted(rest)
    requires forall e :: e in rest <==> e in s[1..] || e == x
    ensures StrictlySorted([s[0]] + rest)
  {
    LessEqTotal(x, s[0]);
    forall j | 0 <= j < |rest| ensures Less(s[0], rest[j]) {
      if rest[j] != x {
        assert rest[j] in s[1..];
        var i :| 0 <= i < |s| - 1 && s[1..][i] == rest[j];
        assert Less(s[0], s[i + 1]);
      }
    }
  }

  lemma SameElementsSameEmptiness(a: seq<string>, b: seq<string>)
    requires forall e :: e in a <==> e in b
    ensures |a| == 0 <==> |b| == 0
  {
    if |a| > 0 { assert a[0] in b; }
    if |b| > 0 { assert b[0] in a; }
  }

  /** A strictly increasing sequence is determined by its elements. */
  lemma {:induction false} StrictlySortedUnique(a: seq<string>, b: seq<string>)
    requires StrictlySorted(a) && StrictlySorted(b)
    requires forall e :: e in a <==> e in b
    ensures a == b
  {
    SameElementsSameEmptiness(a, b);
    if |a| > 0 && |b| > 0 {
      if a[0] != b[0] {
        assert a[0] in b;
        assert b[0] in a;
        var i :| 0 <= i < |a| && a[i] == b[0];
        var j :| 0 <= j < |b| && b[j] == a[0];
        assert Less(a[0], a[i]);
        assert Less(b[0], b[j]);
        LessEqAntisymmetric(a[0], b[0]);
      }
      forall e ensures e in a[1..] <==> e in b[1..] {
        if e in a[1..] {
          var i :| 0 <= i < |a| - 1 && a[1..][i] == e;
          assert Less(a[0], a[i + 1]);
          assert e in b;
          var j :| 0 <= j < |b| && b[j] == e;
          assert j != 0;
          assert b[1..][j - 1] == e;
        }
        if e in b[1..] {
          var j :| 0 <= j < |b| - 1 && b[1..][j] == e;
          assert Less(b[0], b[j + 1]);
          assert e in a;
          var i :| 0 <= i < |a| && a[i] == e;
          assert i != 0;
          assert a[1..][i - 1] == e;
        }
      }
      StrictlySortedUnique(a[1..], b[1..]);
      assert a == [a[0]] + a[1..];
      assert b == [b[0]] + b[1..];
    }
  }

  // -------------------------------------------------------------- numbers

  predicate IsDigit(c: char) {
    '0' <= c <= '9'
  }

  predicate AllDigits(s: string) {
    forall i :: 0 <= i < |s| ==> IsDigit(s[i])
  }

  function DigitChar(d: nat): (c: char)
    requires d < 10
    ensures IsDigit(c)
  {
    ('0' as int + d) as char
  }

  function DigitValue(c: char): (d: nat)
    requires IsDigit(c)
    ensures d < 10
  {
    c as int - '0' as int
  }

  /** The value of a string of decimal digits (0 for the empty string). */
  function DigitsValue(s: string): nat
    requires AllDigits(s)
  {
    if |s| == 0 then 0 else DigitsValue(s[..|s| - 1]) * 10 + DigitValue(s[|s| - 1])
  }

  /** `"\(n)"` for a non-negative integer: its decimal digits. */
  function NatToString(n: nat): (r: string)
    ensures |r| > 0 && AllDigits(r)
  {
    if n < 10 then [DigitChar(n)] else NatToString(n / 10) + [DigitChar(n % 10)]
  }

  /** `"\(i)"` for any integer. */
  function IntToString(i: int): (r: string)
    ensures |r| > 0
  {
    if i < 0 then "-" + NatToString(-i) else NatToString(i)
  }

  lemma {:induction false} NatToStringRoundTrip(n: nat)
    ensures DigitsValue(NatToString(n)) == n
  {
    if n >= 10 {
      var s := NatToString(n);
      assert s[..|s| - 1] == NatToString(n / 10);
      NatToStringRoundTrip(n / 10);
    }
  }

  /** The integer an optional sign followed by at least one digit denotes,
      however large; `ParseInt64` adds the range of Swift's `Int`. */
  function ParseInt(s: string): (r: Option<int>)
    ensures r.Some? <==>
              ((|s| > 0 && AllDigits(s)) || (|s| > 1 && (s[0] == '-' || s[0] == '+') && AllDigits(s[1..])))
  {
    if |s| > 0 && (s[0] == '-' || s[0] == '+') then
      if |s| > 1 && AllDigits(s[1..]) then
        Some(if s[0] == '-' then -(DigitsValue(s[1..]) as int) else DigitsValue(s[1..]))
      else
        None
    else if |s| > 0 && AllDigits(s) then
      Some(DigitsValue(s))
    else
      None
  }

  /** The range of Swift's 64-bit `Int`. */
  const Int64Min: int := -0x8000_0000_0000_0000
  const Int64Max: int := 0x7FFF_FFFF_FFFF_FFFF

  predicate InInt64(n: int) {
    Int64Min <= n <= Int64Max
  }

  /** `Int(text)` as Swift evaluates it: the text must read as an integer
      and the integer must fit in 64 bits, otherwise there is no value. */
  function ParseInt64(s: string): (r: Option<int>)
    ensures r.Some? ==> ParseInt(s) == r && InInt64(r.value)
    ensures r.None? ==> ParseInt(s).None? || !InInt64(ParseInt(s).value)
  {
    match ParseInt(s)
    case Some(n) => if InInt64(n) then Some(n) else None
    case None => None
  }

  /** A rendered integer reads back through `Int(text)` exactly when it
      fits in 64 bits. */
  lemma ParseInt64OfString(i: int)
    ensures ParseInt64(IntToString(i)) == if InInt64(i) then Some(i) else None
  {
    IntToStringRoundTrip(i);
  }

  /** Rendering an integer and parsing it back gives the integer. */
  lemma IntToStringRoundTrip(i: int)
    ensures ParseInt(IntToString(i)) == Some(i)
  {
    if i < 0 {
      var digits := NatToString(-i);
      var s := "-" + digits;
      assert s[0] == '-' && s[1..] == digits;
      NatToStringRoundTrip(-i);
      assert ParseInt(s) == Some(-(DigitsValue(digits) as int));
    } else {
      var s := NatToString(i);
      assert IsDigit(s[0]);
      NatToStringRoundTrip(i);
      assert ParseInt(s) == Some(DigitsValue(s));
    }
  }

  function Pow10(k: nat): (p: nat)
    ensures p >= 1
  {
    if k == 0 then 1 else 10 * Pow10(k - 1)
  }

  /** The position of the first '.' in `s`, if any. */
  function DotIndex(s: string): (r: Option<nat>)
    ensures r.Some? ==> r.value < |s| && s[r.value] == '.' && '.' !in s[..r.value]
    ensures r.None? ==> '.' !in s
  {
    if |s| == 0 then None
    else if s[0] == '.' then Some(0)
    else match DotIndex(s[1..])
      case None => None
      case Some(k) =>
        assert s[..k + 1] == [s[0]] + s[1..][..k];
        Some(k + 1)
  }

  /** Digits with an optional fraction part, at least one digit overall. */
  function ParseUnsignedDecimal(s: string): Option<real> {
    match DotIndex(s)
    case None =>
      if |s| > 0 && AllDigits(s) then Some(DigitsValue(s) as real) else None
    case Some(k) =>
      var whole := s[..k];
      var fraction := s[k + 1..];
      if |whole| + |fraction| > 0 && AllDigits(whole) && AllDigits(fraction) then
        Some(DigitsValue(whole) as real + DigitsValue(fraction) as real / Pow10(|fraction|) as real)
      else
        None
  }

  /** `Double(text)` for plain decimal notation: an optional sign, digits and
      an optional fraction part. */
  function ParseDecimal(s: string): Option<real> {
    if |s| > 0 && (s[0] == '-' || s[0] == '+') then
      match ParseUnsignedDecimal(s[1..])
      case None => None
      case Some(v) => Some(if s[0] == '-' then -v else v)
    else
      ParseUnsignedDecimal(s)
  }

  /** A rendered non-negative integer parses back as the same number. */
  lemma ParseDecimalOfNat(n: nat)
    ensures ParseDecimal(NatToString(n)) == Some(n as real)
  {
    var s := NatToString(n);
    assert !IsDigit('.');
    assert '.' !in s;
    NatToStringRoundTrip(n);
  }
}

=== FILE: train.dfy ===
/** TrainViewModel: the state of the training screen and the operations
    that change the active workout.  Each operation returns the new state
    (or a `TrainError`); saving to the store is not modelled, and the clock
    and fresh identifiers are parameters. */
module Train {
  import opened Wrappers
  import opened Domain
  import opened Text
  import opened Seqs
  import opened Coverage
  import CoverageProperties
  import Stats

  datatype TrainError = ExerciseAlreadyAdded | InvalidReps | InvalidWeight

  function ErrorDescription(e: TrainError): (d: string)
    ensures |d| > 0 && d[|d| - 1] == '.'
  {
    match e
    case ExerciseAlreadyAdded => "Exercise already exists in this workout."
    case InvalidReps => "Reps must be greater than 0."
    case InvalidWeight => "Weight cannot be negative."
  }

  /** Each error has its own message. */
  lemma ErrorDescriptionDistinct(a: TrainError, b: TrainError)
    ensures ErrorDescription(a) == ErrorDescription(b) <==> a == b
  {
  }

  /** The view model's three published properties. */
  datatype TrainState = TrainState(
    activeSession: Option<WorkoutSession>,
    selectedSplit: Option<WorkoutType>,
    coverageReport: Option<CoverageReport>)

  const Initial := TrainState(None, None, None)

  /** The report is present exactly while a workout is active, and is then
      the report of the active session against the selected split. The
      split picker can break this (`SelectSplitStale`); the next refresh
      restores it (`SelectSplitThenRefresh`). */
  predicate Consistent(st: TrainState) {
    match st.activeSession
    case None => st.coverageReport.None?
    case Some(s) => st.selectedSplit.Some? && st.coverageReport == Some(BuildReport(s, st.selectedSplit.value))
  }

  /** Every set of the active session passed the write-path checks. */
  predicate SetsValid(st: TrainState) {
    st.activeSession.Some? ==>
      forall i, j :: 0 <= i < |st.activeSession.value.loggedExercises| &&
                     0 <= j < |st.activeSession.value.loggedExercises[i].sets| ==>
                       ValidSet(st.activeSession.value.loggedExercises[i].sets[j])
  }

  predicate HasExercise(le: LoggedExercise, id: Uuid) {
    le.exercise.Some? && le.exercise.value.id == id
  }

  /** Two logged exercises that do not refer to the same exercise. */
  predicate DifferentExercises(a: LoggedExercise, b: LoggedExercise) {
    !(a.exercise.Some? && b.exercise.Some? && a.exercise.value.id == b.exercise.value.id)
  }

  /** No exercise is logged twice in the active session. */
  ghost predicate DistinctExercises(st: TrainState) {
    st.activeSession.Some? ==> Pairwise(st.activeSession.value.loggedExercises, DifferentExercises)
  }

  lemma InitialConsistent()
    ensures Consistent(Initial) && SetsValid(Initial) && DistinctExercises(Initial)
  {
  }

  // -------------------------------------------------------------- refresh

  /** `refreshCoverage()`: rebuilds the report when a workout is active and a
      split is selected, and changes nothing otherwise. */
  function Refresh(st: TrainState): (r: TrainState)
    ensures r.activeSession == st.activeSession && r.selectedSplit == st.selectedSplit
    ensures st.activeSession.Some? && st.selectedSplit.Some? ==>
              r.coverageReport == Some(BuildReport(st.activeSession.value, st.selectedSplit.value))
    ensures st.activeSession.None? || st.selectedSplit.None? ==> r == st
  {
    match (st.activeSession, st.selectedSplit)
    case (Some(s), Some(split)) => st.(coverageReport := Some(BuildReport(s, split)))
    case _ => st
  }

  /** On a consistent state a refresh changes nothing. */
  lemma RefreshOfConsistent(st: TrainState)
    requires Consistent(st)
    ensures Refresh(st) == st
  {
  }

  /** Replaces the active session and refreshes the report. */
  function WithSession(st: TrainState, s: WorkoutSession): (r: TrainState)
    ensures r.activeSession == Some(s) && r.selectedSplit == st.selectedSplit
    ensures st.selectedSplit.Some? ==> Consistent(r)
  {
    Refresh(st.(activeSession := Some(s)))
  }

  /** The split picker of the training screen: binds `selectedSplit`
      directly, without a refresh, so the report may go stale. */
  function SelectSplit(st: TrainState, x: Option<WorkoutType>): (r: TrainState)
    ensures r.selectedSplit == x
    ensures r.activeSession == st.activeSession && r.coverageReport == st.coverageReport
  {
    st.(selectedSplit := x)
  }

  /** While a workout is active, picking a split keeps the state consistent
      exactly when the report already shown is that split's report;
      clearing the split breaks consistency, and no refresh repairs it. */
  lemma SelectSplitStale(st: TrainState, x: Option<WorkoutType>)
    requires st.activeSession.Some?
    ensures x.Some? ==>
              (Consistent(SelectSplit(st, x)) <==> st.coverageReport == Some(BuildReport(st.activeSession.value, x.value)))
    ensures x.None? ==> !Consistent(SelectSplit(st, x)) && !Consistent(Refresh(SelectSplit(st, x)))
  {
  }

  /** A refresh after picking a split restores consistency. */
  lemma SelectSplitThenRefresh(st: TrainState, split: WorkoutType)
    requires Consistent(st)
    ensures Consistent(Refresh(SelectSplit(st, Some(split))))
  {
  }

  // ---------------------------------------------------------------- start

  predicate NameNoGreater(a: Exercise, b: Exercise) {
    LessEq(a.name, b.name)
  }

  lemma NameOrderTotal()
    ensures TotalPreorder(NameNoGreater)
  {
    forall a: Exercise, b: Exercise ensures NameNoGreater(a, b) || NameNoGreater(b, a) {
      LessEqTotal(a.name, b.name);
    }
    forall a: Exercise, b: Exercise, c: Exercise | NameNoGreater(a, b) && NameNoGreater(b, c)
      ensures NameNoGreater(a, c)
    {
      LessEqTransitive(a.name, b.name, c.name);
    }
  }

  /** The split's template exercises ordered by name. */
  function TemplateOrder(split: WorkoutType): (r: seq<Exercise>)
    ensures multiset(r) == multiset(split.templateExercises)
    ensures forall i, j :: 0 <= i < j < |r| ==> LessEq(r[i].name, r[j].name)
  {
    NameOrderTotal();
    SortBySorted(split.templateExercises, NameNoGreater);
    SortBy(split.templateExercises, NameNoGreater)
  }

  /** `startWorkout(using:)`: a new running session of the split at `now`,
      pre-filled with one logged exercise per template exercise in name
      order, numbered from zero; the split becomes the selected one and the
      report is built.  `loggedId(i)` is the identity given to the i-th
      logged exercise. */
  function StartWorkout(st: TrainState, split: WorkoutType, sessionId: Uuid, now: Timestamp,
                        loggedId: nat -> Uuid): (r: TrainState)
    ensures r.selectedSplit == Some(split)
    ensures r.activeSession.Some?
    ensures var s := r.activeSession.value;
            && s.id == sessionId && s.startedAt == now && s.endedAt.None? && s.notes == ""
            && s.workoutType == Some(split)
            && |s.loggedExercises| == |split.templateExercises|
            && forall i :: 0 <= i < |s.loggedExercises| ==>
                 s.loggedExercises[i] == LoggedExercise(loggedId(i), i, Some(TemplateOrder(split)[i]), [])
    ensures Consistent(r) && SetsValid(r)
  {
    var sorted := TemplateOrder(split);
    var logged := seq(|sorted|, i requires 0 <= i < |sorted| => LoggedExercise(loggedId(i), i, Some(sorted[i]), []));
    var s := WorkoutSession(sessionId, now, None, "", Some(split), logged);
    TrainState(Some(s), Some(split), Some(BuildReport(s, split)))
  }

  function ExerciseId(e: Exercise): Uuid {
    e.id
  }

  /** A template without repeated exercises starts a workout without
      repeated exercises. */
  lemma StartWorkoutDistinct(st: TrainState, split: WorkoutType, sessionId: Uuid, now: Timestamp,
                             loggedId: nat -> Uuid)
    requires DistinctBy(split.templateExercises, ExerciseId)
    ensures DistinctExercises(StartWorkout(st, split, sessionId, now, loggedId))
  {
    var sorted := TemplateOrder(split);
    DistinctByPermutation(split.templateExercises, sorted, ExerciseId);
  }

  // ------------------------------------------------------------ exercises

  function AlreadyLogged(les: seq<LoggedExercise>, id: Uuid): (b: bool)
    ensures b <==> exists i :: 0 <= i < |les| && HasExercise(les[i], id)
  {
    if |les| == 0 then
      false
    else
      assert forall i :: 0 < i < |les| ==> les[i] == les[1..][i - 1];
      HasExercise(les[0], id) || AlreadyLogged(les[1..], id)
  }

  /** `addExercise(_:)`: without an active workout nothing happens; an
      exercise already logged is refused; otherwise it is logged last, with
      the next order index and no sets. */
  function AddExercise(st: TrainState, exercise: Exercise, loggedId: Uuid): (r: Result<TrainState, TrainError>)
    ensures st.activeSession.None? ==> r == Ok(st)
    ensures r.Err? <==> st.activeSession.Some? && AlreadyLogged(st.activeSession.value.loggedExercises, exercise.id)
    ensures r.Err? ==> r.error == ExerciseAlreadyAdded
    ensures r.Ok? && st.activeSession.Some? ==>
              var les := st.activeSession.value.loggedExercises;
              && r.value.activeSession.Some?
              && r.value.activeSession.value ==
                   st.activeSession.value.(loggedExercises := les + [LoggedExercise(loggedId, |les|, Some(exercise), [])])
    ensures r.Ok? ==> r.value.selectedSplit == st.selectedSplit
    ensures r.Ok? && Consistent(st) ==> Consistent(r.value)
    ensures r.Ok? && SetsValid(st) ==> SetsValid(r.value)
    ensures r.Ok? && DistinctExercises(st) ==> DistinctExercises(r.value)
  {
    match st.activeSession
    case None => Ok(st)
    case Some(s) =>
      if AlreadyLogged(s.loggedExercises, exercise.id) then
        Err(ExerciseAlreadyAdded)
      else
        var les := s.loggedExercises + [LoggedExercise(loggedId, |s.loggedExercises|, Some(exercise), [])];
        assert forall i :: 0 <= i < |s.loggedExercises| ==> les[i] == s.loggedExercises[i];
        Ok(WithSession(st, s.(loggedExercises := les)))
  }

  predicate NotLogged(id: Uuid, le: LoggedExercise) {
    le.id != id
  }

  /** The filter `removeAll` keeps: logged exercises of another identity. */
  function OtherLogged(id: Uuid): LoggedExercise -> bool {
    (le: LoggedExercise) => NotLogged(id, le)
  }

  /** `removeExercise(_:)`: every logged exercise with that identity leaves
      the active workout, the others keep their order (and their order
      indices, which are not renumbered). */
  function RemoveExercise(st: TrainState, loggedId: Uuid): (r: TrainState)
    ensures st.activeSession.None? ==> r == st
    ensures st.activeSession.Some? ==>
              && r.activeSession.Some?
              && r.activeSession.value ==
                   st.activeSession.value.(loggedExercises :=
                     Filter(st.activeSession.value.loggedExercises, OtherLogged(loggedId)))
    ensures r.selectedSplit == st.selectedSplit
    ensures Consistent(st) ==> Consistent(r)
    ensures SetsValid(st) ==> SetsValid(r)
    ensures DistinctExercises(st) ==> DistinctExercises(r)
  {
    match st.activeSession
    case None => st
    case Some(s) =>
      var kept := Filter(s.loggedExercises, OtherLogged(loggedId));
      assert Pairwise(s.loggedExercises, DifferentExercises) ==> Pairwise(kept, DifferentExercises) by {
        if Pairwise(s.loggedExercises, DifferentExercises) {
          FilterPairwise(s.loggedExercises, OtherLogged(loggedId), DifferentExercises);
        }
      }
      WithSession(st, s.(loggedExercises := kept))
  }

  /** Removing an exercise just added, under an identity no other logged
      exercise has, restores the state. */
  lemma AddThenRemove(st: TrainState, exercise: Exercise, loggedId: Uuid)
    requires Consistent(st) && st.activeSession.Some?
    requires forall i :: 0 <= i < |st.activeSession.value.loggedExercises| ==>
               st.activeSession.value.loggedExercises[i].id != loggedId
    requires AddExercise(st, exercise, loggedId).Ok?
    ensures RemoveExercise(AddExercise(st, exercise, loggedId).value, loggedId) == st
  {
    var s := st.activeSession.value;
    var les := s.loggedExercises;
    var added := LoggedExercise(loggedId, |les|, Some(exercise), []);
    var p := OtherLogged(loggedId);
    FilterAppend(les, [added], p);
    FilterAll(les, p);
    assert Filter([added], p) == [];
    var st1 := AddExercise(st, exercise, loggedId).value;
    assert st1.activeSession == Some(s.(loggedExercises := les + [added]));
    assert Filter(les + [added], p) == les;
    var s1 := st1.activeSession.value;
    assert s1.(loggedExercises := Filter(s1.loggedExercises, p)) == s;
    var r := RemoveExercise(st1, loggedId);
    assert r.activeSession == Some(s);
    assert r.coverageReport == st.coverageReport;
  }

  // ----------------------------------------------------------------- sets

  /** Where the logged exercise with this identity sits in the workout. */
  function IndexOfLogged(les: seq<LoggedExercise>, id: Uuid): (r: Option<nat>)
    ensures r.None? <==> forall i :: 0 <= i < |les| ==> les[i].id != id
    ensures r.Some? ==> r.value < |les| && les[r.value].id == id &&
                        forall i :: 0 <= i < r.value ==> les[i].id != id
  {
    if |les| == 0 then
      None
    else if les[0].id == id then
      Some(0)
    else
      match IndexOfLogged(les[1..], id)
      case None => None
      case Some(k) => Some(k + 1)
  }

  /** The checks `addSet` and `updateSet` make before touching anything:
      reps first, then weight. */
  function Validate(reps: int, weight: real): (r: Option<TrainError>)
    ensures r.None? <==> reps > 0 && weight >= 0.0
    ensures r == Some(InvalidReps) <==> reps <= 0
    ensures r == Some(InvalidWeight) <==> reps > 0 && weight < 0.0
  {
    if reps <= 0 then Some(InvalidReps)
    else if weight < 0.0 then Some(InvalidWeight)
    else None
  }

  /** `addSet(reps:weight:isWarmup:to:)`: refused for non-positive reps or
      a negative weight (even without an active workout); otherwise the set
      is appended to the logged exercise with identity `loggedId` and the
      report refreshed. */
  function AddSet(st: TrainState, reps: int, weight: real, isWarmup: bool, loggedId: Uuid, setId: Uuid,
                  now: Timestamp): (r: Result<TrainState, TrainError>)
    ensures r.Err? <==> Validate(reps, weight).Some?
    ensures r.Err? ==> r.error == Validate(reps, weight).value
    ensures r.Ok? ==> r.value.selectedSplit == st.selectedSplit
    ensures r.Ok? && Consistent(st) ==> Consistent(r.value)
    ensures r.Ok? && SetsValid(st) ==> SetsValid(r.value)
    ensures r.Ok? && st.activeSession.Some? ==>
              var les := st.activeSession.value.loggedExercises;
              && r.value.activeSession.Some?
              && match IndexOfLogged(les, loggedId)
                 case None => r.value.activeSession == st.activeSession
                 case Some(k) =>
                   r.value.activeSession.value == st.activeSession.value.(loggedExercises :=
                     Stats.AppendSet(les, k, LoggedSet(setId, reps, weight, isWarmup, now)))
    ensures r.Ok? && st.activeSession.None? ==> r.value == st
  {
    match Validate(reps, weight)
    case Some(e) => Err(e)
    case None =>
      match st.activeSession
      case None => Ok(st)
      case Some(s) =>
        match IndexOfLogged(s.loggedExercises, loggedId)
        case None => Ok(Refresh(st))
        case Some(k) =>
          var added := LoggedSet(setId, reps, weight, isWarmup, now);
          var les := Stats.AppendSet(s.loggedExercises, k, added);
          assert forall i, j :: 0 <= i < |les| && 0 <= j < |les[i].sets| ==>
                   les[i].sets[j] == added || les[i].sets[j] == s.loggedExercises[i].sets[j];
          Ok(WithSession(st, s.(loggedExercises := les)))
  }

  /** Logging a warm-up set leaves the coverage report as it was. */
  lemma WarmupKeepsCoverage(st: TrainState, reps: int, weight: real, loggedId: Uuid, setId: Uuid, now: Timestamp)
    requires Consistent(st)
    requires AddSet(st, reps, weight, true, loggedId, setId, now).Ok?
    ensures AddSet(st, reps, weight, true, loggedId, setId, now).value.coverageReport == st.coverageReport
  {
    if st.activeSession.Some? {
      var s := st.activeSession.value;
      match IndexOfLogged(s.loggedExercises, loggedId)
      case None =>
      case Some(k) =>
        CoverageProperties.WarmupLeavesReport(s, k, LoggedSet(setId, reps, weight, true, now), st.selectedSplit.value);
    }
  }

  /** Appending a set to exercise `k` and then filtering out its identity,
      which no set there had, gives back the exercises unchanged. */
  lemma AppendThenRemove(les: seq<LoggedExercise>, k: nat, added: LoggedSet)
    requires k < |les|
    requires forall j :: 0 <= j < |les[k].sets| ==> les[k].sets[j].id != added.id
    ensures var les' := Stats.AppendSet(les, k, added);
            && (forall i :: 0 <= i < |les'| ==> les'[i].id == les[i].id)
            && les'[k := les'[k].(sets := Filter(les'[k].sets, OtherSet(added.id)))] == les
  {
    var sets := les[k].sets;
    var p := OtherSet(added.id);
    FilterAppend(sets, [added], p);
    FilterAll(sets, p);
    assert Filter([added], p) == [];
    var les' := Stats.AppendSet(les, k, added);
    assert les'[k].sets == sets + [added];
    assert Filter(les'[k].sets, p) == sets;
    assert les'[k].(sets := sets) == les[k];
  }

  /** Deleting a set just added, under an identity no other set of that
      exercise has, restores the state. */
  lemma AddThenDeleteSet(st: TrainState, reps: int, weight: real, isWarmup: bool, loggedId: Uuid, setId: Uuid,
                         now: Timestamp)
    requires Consistent(st)
    requires AddSet(st, reps, weight, isWarmup, loggedId, setId, now).Ok?
    requires st.activeSession.Some? ==>
               var les := st.activeSession.value.loggedExercises;
               forall i, j :: 0 <= i < |les| && les[i].id == loggedId && 0 <= j < |les[i].sets| ==>
                 les[i].sets[j].id != setId
    ensures DeleteSet(AddSet(st, reps, weight, isWarmup, loggedId, setId, now).value, setId, loggedId) == st
  {
    if st.activeSession.Some? {
      var s := st.activeSession.value;
      match IndexOfLogged(s.loggedExercises, loggedId)
      case None =>
      case Some(k) =>
        var added := LoggedSet(setId, reps, weight, isWarmup, now);
        var les' := Stats.AppendSet(s.loggedExercises, k, added);
        AppendThenRemove(s.loggedExercises, k, added);
        IndexOfLoggedSameIds(s.loggedExercises, les', loggedId);
        var st1 := AddSet(st, reps, weight, isWarmup, loggedId, setId, now).value;
        assert st1.activeSession == Some(s.(loggedExercises := les'));
        var r := DeleteSet(st1, setId, loggedId);
        assert r.activeSession == Some(s);
        assert r.coverageReport == st.coverageReport;
    }
  }

  lemma {:induction false} IndexOfLoggedSameIds(a: seq<LoggedExercise>, b: seq<LoggedExercise>, id: Uuid)
    requires |a| == |b| && forall i :: 0 <= i < |a| ==> a[i].id == b[i].id
    ensures IndexOfLogged(a, id) == IndexOfLogged(b, id)
  {
    if |a| > 0 {
      IndexOfLoggedSameIds(a[1..], b[1..], id);
    }
  }

  /** A set with the new values when it carries identity `setId`. */
  function Edited(x: LoggedSet, setId: Uuid, reps: int, weight: real, isWarmup: bool): LoggedSet {
    if x.id == setId then x.(reps := reps, weight := weight, isWarmup := isWarmup) else x
  }

  function EditSets(sets: seq<LoggedSet>, setId: Uuid, reps: int, weight: real, isWarmup: bool)
    : (r: seq<LoggedSet>)
    ensures |r| == |sets|
    ensures forall j :: 0 <= j < |r| ==> r[j] == Edited(sets[j], setId, reps, weight, isWarmup)
  {
    if |sets| == 0 then [] else [Edited(sets[0], setId, reps, weight, isWarmup)] + EditSets(sets[1..], setId, reps, weight, isWarmup)
  }

  function EditLogged(les: seq<LoggedExercise>, setId: Uuid, reps: int, weight: real, isWarmup: bool)
    : (r: seq<LoggedExercise>)
    ensures |r| == |les|
    ensures forall i :: 0 <= i < |r| ==>
              r[i] == les[i].(sets := EditSets(les[i].sets, setId, reps, weight, isWarmup))
  {
    if |les| == 0 then
      []
    else
      [les[0].(sets := EditSets(les[0].sets, setId, reps, weight, isWarmup))] +
      EditLogged(les[1..], setId, reps, weight, isWarmup)
  }

  /** `updateSet(_:reps:weight:isWarmup:)`: refused like `addSet`;
      otherwise the set with identity `setId` takes the new reps, weight and
      warm-up flag, everything else stays, and the report is refreshed. */
  function UpdateSet(st: TrainState, setId: Uuid, reps: int, weight: real, isWarmup: bool)
    : (r: Result<TrainState, TrainError>)
    ensures r.Err? <==> Validate(reps, weight).Some?
    ensures r.Err? ==> r.error == Validate(reps, weight).value
    ensures r.Ok? ==> r.value.selectedSplit == st.selectedSplit
    ensures r.Ok? && Consistent(st) ==> Consistent(r.value)
    ensures r.Ok? && SetsValid(st) ==> SetsValid(r.value)
    ensures r.Ok? && st.activeSession.None? ==> r.value == st
    ensures r.Ok? && st.activeSession.Some? ==>
              var before := st.activeSession.value.loggedExercises;
              && r.value.activeSession.Some?
              && var after := r.value.activeSession.value.loggedExercises;
                 && |after| == |before|
                 && forall i :: 0 <= i < |after| ==>
                      && after[i].id == before[i].id && after[i].exercise == before[i].exercise
                      && |after[i].sets| == |before[i].sets|
                      && forall j :: 0 <= j < |after[i].sets| ==>
                           && after[i].sets[j].id == before[i].sets[j].id
                           && (before[i].sets[j].id == setId ==>
                                 after[i].sets[j].reps == reps && after[i].sets[j].weight == weight &&
                                 after[i].sets[j].isWarmup == isWarmup)
                           && (before[i].sets[j].id != setId ==> after[i].sets[j] == before[i].sets[j])
  {
    match Validate(reps, weight)
    case Some(e) => Err(e)
    case None =>
      match st.activeSession
      case None => Ok(st)
      case Some(s) =>
        Ok(WithSession(st, s.(loggedExercises := EditLogged(s.loggedExercises, setId, reps, weight, isWarmup))))
  }

  predicate NotSet(id: Uuid, x: LoggedSet) {
    x.id != id
  }

  /** The filter `removeAll` keeps: sets of another identity. */
  function OtherSet(id: Uuid): LoggedSet -> bool {
    (x: LoggedSet) => NotSet(id, x)
  }

  /** `deleteSet(_:from:)`: the set with identity `setId` leaves the logged
      exercise `loggedId`, its other sets keep their order, and the report
      is refreshed.  It checks nothing. */
  function DeleteSet(st: TrainState, setId: Uuid, loggedId: Uuid): (r: TrainState)
    ensures r.selectedSplit == st.selectedSplit
    ensures Consistent(st) ==> Consistent(r)
    ensures SetsValid(st) ==> SetsValid(r)
    ensures DistinctExercises(st) ==> DistinctExercises(r)
    ensures st.activeSession.None? ==> r == st
    ensures st.activeSession.Some? ==>
              var les := st.activeSession.value.loggedExercises;
              && r.activeSession.Some?
              && match IndexOfLogged(les, loggedId)
                 case None => r.activeSession == st.activeSession
                 case Some(k) =>
                   r.activeSession.value == st.activeSession.value.(loggedExercises :=
                     les[k := les[k].(sets := Filter(les[k].sets, OtherSet(setId)))])
  {
    match st.activeSession
    case None => st
    case Some(s) =>
      match IndexOfLogged(s.loggedExercises, loggedId)
      case None => Refresh(st)
      case Some(k) =>
        var le := s.loggedExercises[k];
        var les := s.loggedExercises[k := le.(sets := Filter(le.sets, OtherSet(setId)))];
        assert forall j :: 0 <= j < |les[k].sets| ==> les[k].sets[j] in le.sets;
        WithSession(st, s.(loggedExercises := les))
  }

  // ------------------------------------------------------------------ end

  /** `endWorkout()`: without an active workout nothing happens; otherwise
      the session is stamped as ended at `now` and handed back, and the
      screen drops both the session and its report while keeping the
      selected split. */
  function EndWorkout(st: TrainState, now: Timestamp): (r: (TrainState, Option<WorkoutSession>))
    ensures st.activeSession.None? ==> r == (st, None)
    ensures st.activeSession.Some? ==>
              && r.0 == TrainState(None, st.selectedSplit, None)
              && r.1 == Some(st.activeSession.value.(endedAt := Some(now)))
    ensures Consistent(st) ==> Consistent(r.0)
  {
    match st.activeSession
    case None => (st, None)
    case Some(s) => (TrainState(None, st.selectedSplit, None), Some(s.(endedAt := Some(now))))
  }
}

=== FILE: train_view.dfy ===
/** The pure helpers of the training screen: the exercise picker's search
    and grouping, the rest countdown's "m:ss" label, and the guard that
    enables the set editor's Save button. */
module TrainView {
  import opened Wrappers
  import opened Domain
  import opened Text
  import opened Seqs
  import opened Numeric
  import opened Train

  // ---------------------------------------------------------------- search

  /** The search text as it is matched: trimmed and lower-cased. */
  function Query(searchText: string): string {
    ToLower(Trim(searchText))
  }

  /** An exercise is kept when the query is empty or occurs in its
      lower-cased name, category or equipment. */
  predicate Matches(query: string, e: Exercise) {
    || |query| == 0
    || Contains(ToLower(e.name), query)
    || Contains(ToLower(e.category), query)
    || Contains(ToLower(e.equipment), query)
  }

  function MatchesQuery(query: string): Exercise -> bool {
    e => Matches(query, e)
  }

  /** The exercises the search keeps, in catalogue order. */
  function FilterExercises(exercises: seq<Exercise>, searchText: string): (r: seq<Exercise>)
    ensures forall i :: 0 <= i < |exercises| ==>
              (exercises[i] in r <==> Matches(Query(searchText), exercises[i]))
    ensures forall i :: 0 <= i < |r| ==> r[i] in exercises
  {
    Filter(exercises, MatchesQuery(Query(searchText)))
  }

  /** A blank search keeps the whole catalogue, in order. */
  lemma BlankSearchKeepsAll(exercises: seq<Exercise>, searchText: string)
    requires AllWhitespace(searchText)
    ensures FilterExercises(exercises, searchText) == exercises
  {
    TrimBlank(searchText);
    FilterAll(exercises, MatchesQuery(Query(searchText)));
  }

  // -------------------------------------------------------------- grouping

  datatype CategoryGroup = CategoryGroup(category: string, items: seq<Exercise>)

  /** The distinct categories of `s`, ascending: the sorted keys of the
      grouping dictionary. */
  function Categories(s: seq<Exercise>): (r: seq<string>)
    ensures StrictlySorted(r)
    ensures forall c :: c in r <==> exists i :: 0 <= i < |s| && s[i].category == c
  {
    if |s| == 0 then
      []
    else
      var n := |s| - 1;
      var rest := Categories(s[..n]);
      assert forall i :: 0 <= i < n ==> s[..n][i] == s[i];
      InsertUnique(s[n].category, rest)
  }

  predicate HasCategory(c: string, e: Exercise) {
    e.category == c
  }

  function InCategory(c: string): Exercise -> bool {
    e => HasCategory(c, e)
  }

  /** The group of category `c`: the exercises of that category, ordered
      by name. */
  function GroupOf(kept: seq<Exercise>, c: string): (g: CategoryGroup)
    ensures g.category == c
    ensures multiset(g.items) == multiset(Filter(kept, InCategory(c)))
    ensures forall i :: 0 <= i < |g.items| ==> g.items[i].category == c
    ensures forall i, j :: 0 <= i < j < |g.items| ==> LessEq(g.items[i].name, g.items[j].name)
  {
    var members := Filter(kept, InCategory(c));
    var items := SortBy(members, NameNoGreater);
    GroupItems(members, items, c);
    CategoryGroup(c, items)
  }

  /** Members of one category, sorted by name, still all carry the
      category and are in name order. */
  lemma GroupItems(members: seq<Exercise>, items: seq<Exercise>, c: string)
    requires forall i :: 0 <= i < |members| ==> members[i].category == c
    requires items == SortBy(members, NameNoGreater)
    ensures forall i :: 0 <= i < |items| ==> items[i].category == c
    ensures forall i, j :: 0 <= i < j < |items| ==> LessEq(items[i].name, items[j].name)
  {
    assert SortedBy(items, NameNoGreater) by {
      NameOrderTotal();
      SortBySorted(members, NameNoGreater);
    }
    forall i | 0 <= i < |items| ensures items[i].category == c {
      assert items[i] in multiset(members);
    }
  }

  /** `groupedFilteredExercises`: one group per category of the kept
      exercises, categories ascending, each group's exercises ordered by
      name. */
  function Grouped(exercises: seq<Exercise>, searchText: string): (r: seq<CategoryGroup>)
    ensures forall k :: 0 <= k < |r| ==>
              && (forall i :: 0 <= i < |r[k].items| ==> r[k].items[i].category == r[k].category)
              && (forall i, j :: 0 <= i < j < |r[k].items| ==> LessEq(r[k].items[i].name, r[k].items[j].name))
    ensures forall k, l :: 0 <= k < l < |r| ==> Less(r[k].category, r[l].category)
  {
    var kept := FilterExercises(exercises, searchText);
    var cats := Categories(kept);
    seq(|cats|, k requires 0 <= k < |cats| => GroupOf(kept, cats[k]))
  }

  /** The grouping is a partition of the kept exercises: a group holds every
      copy of each kept exercise of its category and nothing else, and every
      kept exercise's category has a group. */
  lemma GroupedPartition(exercises: seq<Exercise>, searchText: string, e: Exercise)
    ensures var kept := FilterExercises(exercises, searchText);
            var r := Grouped(exercises, searchText);
            && (forall k :: 0 <= k < |r| ==>
                  multiset(r[k].items)[e] == if e.category == r[k].category then multiset(kept)[e] else 0)
            && (e in kept ==> exists k :: 0 <= k < |r| && r[k].category == e.category)
  {
    var kept := FilterExercises(exercises, searchText);
    var cats := Categories(kept);
    var r := Grouped(exercises, searchText);
    assert |r| == |cats|;
    forall k | 0 <= k < |r|
      ensures multiset(r[k].items)[e] == if e.category == r[k].category then multiset(kept)[e] else 0
    {
      assert r[k] == GroupOf(kept, cats[k]);
      FilterMultiset(kept, InCategory(cats[k]), e);
    }
    if e in kept {
      var i :| 0 <= i < |kept| && kept[i] == e;
      assert e.category in cats;
      var k :| 0 <= k < |cats| && cats[k] == e.category;
      assert r[k].category == e.category;
    }
  }

  /** No group is empty. */
  lemma GroupsNonEmpty(exercises: seq<Exercise>, searchText: string)
    ensures forall g :: g in Grouped(exercises, searchText) ==> |g.items| > 0
  {
    var kept := FilterExercises(exercises, searchText);
    var r := Grouped(exercises, searchText);
    forall k | 0 <= k < |r| ensures |r[k].items| > 0 {
      var c := r[k].category;
      assert c in Categories(kept);
      var i :| 0 <= i < |kept| && kept[i].category == c;
      GroupedPartition(exercises, searchText, kept[i]);
      assert kept[i] in multiset(kept);
    }
  }

  // ------------------------------------------------------------ rest label

  /** `%02d`: at least two characters, a single digit gets a leading zero. */
  function Pad2(n: int): string {
    if 0 <= n < 10 then "0" + IntToString(n) else IntToString(n)
  }

  /** `formattedRest`: whole minutes, a colon, and the seconds left over,
      both by Swift's truncating `Int` division. */
  function FormattedRest(seconds: int): (r: string)
    ensures 0 <= seconds ==> |r| >= 4 && r[|r| - 3] == ':'
  {
    TruncDivMod(seconds, 60);
    Pad2RoundTrip(if 0 <= seconds then TruncMod(seconds, 60) else 0);
    IntToString(TruncDiv(seconds, 60)) + ":" + Pad2(TruncMod(seconds, 60))
  }

  lemma {:induction false} Pad2RoundTrip(n: nat)
    requires n < 100
    ensures |Pad2(n)| == 2 && ParseInt(Pad2(n)) == Some(n)
  {
    var s := Pad2(n);
    if n < 10 {
      assert s == [DigitChar(0), DigitChar(n)];
      assert s[..1] == [DigitChar(0)];
      assert DigitsValue(s[..1]) == 0 by { assert s[..1][..0] == []; }
    } else {
      assert NatToString(n) == NatToString(n / 10) + [DigitChar(n % 10)];
      NatToStringRoundTrip(n);
    }
  }

  /** A non-negative countdown renders as minutes, ':' and exactly two
      digits of seconds, and reading them back recovers the seconds. */
  lemma FormattedRestRoundTrip(seconds: nat)
    ensures var r := FormattedRest(seconds);
            var k := |r| - 3;
            && k > 0 && r[k] == ':'
            && ParseInt(r[..k]) == Some(seconds / 60)
            && ParseInt(r[k + 1..]) == Some(seconds % 60)
  {
    TruncDivMod(seconds, 60);
    var m := IntToString(seconds / 60);
    var ss := Pad2(seconds % 60);
    Pad2RoundTrip(seconds % 60);
    var r := FormattedRest(seconds);
    assert r == m + ":" + ss;
    assert r[..|m|] == m;
    assert r[|m| + 1..] == ss;
    IntToStringRoundTrip(seconds / 60);
  }

  // ----------------------------------------------------------- Save button

  /** The Save button's guard: text that does not parse counts as 0 (for
      the reps, also text whose integer does not fit in 64 bits); the button
      is enabled unless the reps are not positive or the weight is
      negative. */
  function SaveEnabled(repsText: string, weightText: string): (r: bool)
    ensures r <==> && ParseInt(repsText).Some? && 0 < ParseInt(repsText).value <= Int64Max
                   && (ParseDecimal(weightText).None? || ParseDecimal(weightText).value >= 0.0)
  {
    var reps := match ParseInt64(repsText) case Some(n) => n case None => 0;
    var weight := match ParseDecimal(weightText) case Some(w) => w case None => 0.0;
    !(reps <= 0 || weight < 0.0)
  }

  /** Reps too large for a 64-bit `Int` read as no number, so Save stays
      disabled whatever the weight. */
  lemma SaveDisabledPastInt64(n: nat, weightText: string)
    requires n > Int64Max
    ensures !SaveEnabled(NatToString(n), weightText)
  {
    ParseInt64OfString(n);
  }

  /** The button is enabled exactly when the values it would submit pass
      the view model's own checks. */
  lemma SaveEnabledMatchesValidate(repsText: string, weightText: string)
    ensures var reps := match ParseInt64(repsText) case Some(n) => n case None => 0;
            var weight := match ParseDecimal(weightText) case Some(w) => w case None => 0.0;
            SaveEnabled(repsText, weightText) <==> Validate(reps, weight).None?
  {
  }
}

=== FILE: weekly_goal.dfy ===
/** WeeklyGoalEngine: how many sessions started in the current week, and how
    many remain to reach a target.  The calendar's week lookup is a
    parameter: `week` is the interval it reports for the reference date, or
    `None` when it reports none. */
module WeeklyGoal {
  import opened Wrappers
  import opened Domain
  import opened Seqs
  import opened Numeric

  /** A `DateInterval`: both ends belong to it. */
  datatype Interval = Interval(start: Timestamp, end: Timestamp)

  predicate Within(iv: Interval, t: Timestamp) {
    iv.start <= t <= iv.end
  }

  predicate StartedWithin(iv: Interval, s: WorkoutSession) {
    Within(iv, s.startedAt)
  }

  /** `completedSessionsThisWeek`: the sessions whose start lies in the
      week, running or ended alike; none without a week. */
  function CompletedSessionsThisWeek(sessions: seq<WorkoutSession>, week: Option<Interval>): (n: nat)
    ensures n <= |sessions|
    ensures week.None? ==> n == 0
    ensures week.Some? ==>
              (n == 0 <==> forall i :: 0 <= i < |sessions| ==> !Within(week.value, sessions[i].startedAt))
    ensures week.Some? ==>
              (n == |sessions| <==> forall i :: 0 <= i < |sessions| ==> Within(week.value, sessions[i].startedAt))
  {
    match week
    case None => 0
    case Some(iv) =>
      var inWeek := (s: WorkoutSession) => StartedWithin(iv, s);
      CountNone(sessions, inWeek);
      CountAll(sessions, inWeek);
      Count(sessions, inWeek)
  }

  /** One more session adds one to the count exactly when it started in the
      week; the count never decreases. */
  lemma CompletedSessionsSnoc(sessions: seq<WorkoutSession>, s: WorkoutSession, week: Option<Interval>)
    ensures CompletedSessionsThisWeek(sessions + [s], week) ==
            CompletedSessionsThisWeek(sessions, week) +
            (if week.Some? && Within(week.value, s.startedAt) then 1 else 0)
  {
    if week.Some? {
      CountSnoc(sessions, s, (x: WorkoutSession) => StartedWithin(week.value, x));
    }
  }

  /** Ending a session (or reopening it) does not change the count. */
  lemma CompletedSessionsIgnoreEnd(sessions: seq<WorkoutSession>, k: nat, endedAt: Option<Timestamp>,
                                   week: Option<Interval>)
    requires k < |sessions|
    ensures CompletedSessionsThisWeek(sessions[k := sessions[k].(endedAt := endedAt)], week) ==
            CompletedSessionsThisWeek(sessions, week)
  {
    if week.Some? {
      var inWeek := (x: WorkoutSession) => StartedWithin(week.value, x);
      var edited := sessions[k := sessions[k].(endedAt := endedAt)];
      assert sessions == sessions[..k] + [sessions[k]] + sessions[k + 1..];
      assert edited == sessions[..k] + [edited[k]] + sessions[k + 1..];
      FilterAppend(sessions[..k] + [sessions[k]], sessions[k + 1..], inWeek);
      FilterAppend(sessions[..k], [sessions[k]], inWeek);
      FilterAppend(sessions[..k] + [edited[k]], sessions[k + 1..], inWeek);
      FilterAppend(sessions[..k], [edited[k]], inWeek);
      assert Filter([edited[k]], inWeek) == if inWeek(sessions[k]) then [edited[k]] else [];
      assert Filter([sessions[k]], inWeek) == if inWeek(sessions[k]) then [sessions[k]] else [];
    }
  }

  /** `remainingSessions`: what is still missing to reach the target, never
      negative. */
  function RemainingSessions(target: int, completed: int): (r: int)
    ensures r >= 0
    ensures completed <= target ==> r == target - completed
    ensures completed >= target ==> r == 0
    ensures completed + r >= target
  {
    MaxInt(0, target - completed)
  }

  /** Three sessions done against a target of five leaves two; a target
      already passed leaves none. */
  lemma RemainingSessionsExamples()
    ensures RemainingSessions(5, 3) == 2
    ensures RemainingSessions(3, 5) == 0
  {
  }
}

=== FILE: wrappers.dfy ===
/** Absence and failure values used throughout the model: Swift's optionals
    become `Option`, and `throws` becomes `Result`. */
module Wrappers {

  datatype Option<+T> = None | Some(value: T) {

    /** The wrapped value, or `default` when absent (Swift's `??`). */
    function GetOr(default: T): T {
      match this
      case Some(v) => v
      case None => default
    }
  }

  datatype Result<+T, +E> = Ok(value: T) | Err(error: E)
}
